=== FILE: README.md ===
# study_assistant core, modelled in Dafny

The study assistant turns raw notes into a markdown summary with a chain of
language-model calls:

1. draft;
2. critique against a compact *descriptor* of what has been summarised so far and
   the heading tree of the established summary;
3. regenerate;
4. update the descriptor.

Around those calls sit deterministic text and state logic, which this project
models and proves things about:

- the heading-tree builder;
- the delimiter parsers and the markdown-to-Notion converter;
- the markdown chunkers;
- the chat history;
- the Notion URL builder and the grouping of exported Notion pages into
  paragraphs under headings;
- the descriptor (update, save, load) and its prompt;
- the generation and reflection chains;
- the summary pipeline's first-time and incremental paths.

The language model and the prompt modules are oracles held by a `World` object:

- `registry` maps a `(feature, prompt_type)` route and its arguments to a prompt,
  or to `None` when the prompt module cannot be loaded.
- `answer` is the model's reply to a message list. The reply may depend on
  everything that happened before, and a failed request is just the reply `""`.
- `files` is the file system, as a map from path to text.
- `log` records every effect in order: prompts loaded, model calls, file writes,
  the session save and the push to Notion. The pipeline's contracts therefore
  talk about which steps ran, in what order, and with what arguments.
- The descriptor prompt is the one prompt modelled concretely.
  `World.describe` is `DescriptorPrompt.Render` with a fixed wording (the
  predicate `World.Renders`), and `DescriptorPrompt.SourceWording` is the
  repository's wording.

Python exceptions that escape become `Result` errors:

- `ChainError.PromptMissing`: the prompt module cannot be loaded;
- `ChainError.DescriptorNotFound`: `parse_updated_descriptor` raised;
- `UrlError`: what `make_notion_urls` raises.

Each imperative routine is a method with the source's loop. Its `ensures` ties
the result to a specification function: a left fold of one loop step, such as
`HeadingTree.Forest`, `MarkdownParser.Segments`, `Chunker.ParaRun`,
`Chunker.HierLoop` or `NotionGrouping.GroupRun`. The lemmas state what those
functions guarantee.

## Behaviour worth noting

- **Adjacent delimiters.** `parse_between_delimiters` on `D + D` returns `""`:
  the lazy group may be empty (`MarkdownParser.BetweenRoundTrip`
  with an empty `t`).
- **When the chat history is saved.** It is saved once, at the end of
  `run_with_descriptor`, after every model call and descriptor write.
- **How the path is chosen.** The first-time path is selected by the
  `first_time` argument alone, whatever the old descriptor holds.
- **The new descriptor is not checked.** It is whatever text stands between the
  markers, possibly empty.
- **Which error `update` raises.** The failed descriptor parse raises
  `ValueError` (modelled as `DescriptorNotFound`).

## Model

| member | source | states |
|---|---|---|
| HeadingTree.ParseHeading | app/utils/headingtree.py:20-25 | a line yields a heading iff it matches `^#{1,6}\s`; seven hashes, or none followed by whitespace, give nothing; the level is the number of hashes (1..6); the title is the stripped rest and has no line break |
| HeadingTree.Parsed | app/utils/headingtree.py:19-22 | the accepted headings are at most as many as the lines, each of level 1..6 |
| HeadingTree.PopClose | app/utils/headingtree.py:29-30 | popping a frame (attaching it to the frame below, or making it a root) does not change the forest the builder's state denotes |
| HeadingTree.Push | app/utils/headingtree.py:32-37 | pushing a heading above frames of lower level is insertion under the nearest open node of smaller level |
| HeadingTree.PushSpine | app/utils/headingtree.py:32-37 | the same on a non-empty stack: inserting into the open root equals extending its spine by a leaf |
| HeadingTree.Place | app/utils/headingtree.py:28-37 | one iteration pops every frame of level >= the heading's, pushes it as a leaf, keeps stack levels strictly increasing, and the denoted forest becomes `InsertRight(old forest, h)` |
| HeadingTree.Accept | app/utils/headingtree.py:19-37 | one accepted heading keeps the stack invariants and extends the denoted forest to the forest of one more heading |
| HeadingTree.BuildTree | app/utils/headingtree.py:9-39 | `build_tree` returns exactly the forest obtained by inserting each matching heading, in order, under the nearest open heading of strictly smaller level |
| HeadingTree.InsertRightPreorder | app/utils/headingtree.py:26-37 | inserting a heading adds exactly one title, at the end of the pre-order |
| HeadingTree.ForestPreorder | app/utils/headingtree.py:24-37 | pre-order traversal of the forest lists the accepted titles in input order |
| HeadingTree.CountPreorder | app/utils/headingtree.py:26-35 | the number of nodes equals the length of the pre-order |
| HeadingTree.BuildTreeNodes | app/utils/headingtree.py:26-35 | the built forest has one node per matching heading, and its pre-order is the titles in input order |
| HeadingTree.ForestIsNest | app/utils/headingtree.py:29-35 | the stack-built forest equals the declarative one: each heading's children are the run of strictly deeper headings that follow it |
| HeadingTree.NestSnoc | app/utils/headingtree.py:29-35 | the declarative forest of one more heading is the insertion of that heading on the right spine |
| HeadingTree.NestingExample | app/utils/headingtree.py:29-35 | `# A, ## B, ### C, ## D` gives A[B[C], D] |
| HeadingTree.SkippedLevelExample | app/utils/headingtree.py:29-35 | `# A, ### C` gives A with direct child C; no level-2 node is made up |
| HeadingTree.SiblingExample | app/utils/headingtree.py:29-30 | equal levels are siblings (`>=` closes the previous node) and a shallower heading starts a new root |
| MarkdownParser.LazyCloseFirst | app/utils/markdown_parser.py:8 | the closing `**` of a bold match is the first one after the opening (lazy `.+?`), with no line break before it |
| MarkdownParser.MatchAtShape | app/utils/markdown_parser.py:8 | a bold match starts and ends with `**`, has no line break between them, and no `**` starts inside its content |
| MarkdownParser.NextMatchLeftmost | app/utils/markdown_parser.py:8-10 | the next match is the leftmost one at or after the position, and none means no match at any later position (`finditer` order) |
| MarkdownParser.SegmentsStep | app/utils/markdown_parser.py:10-19 | one match contributes the plain text before it (if any) and its bold group, and scanning resumes after the closing `**` |
| MarkdownParser.ParseInlineFormatting | app/utils/markdown_parser.py:4-24 | the loop's runs are exactly `InlineFormat(text)`: plain gaps and bold groups in order, the plain tail, or one plain run of the whole text when nothing was appended |
| MarkdownParser.SegmentsRender | app/utils/markdown_parser.py:10-22 | the runs from a position on, with bold groups re-wrapped in `**`, spell the text from that position |
| MarkdownParser.InlineFormatRender | app/utils/markdown_parser.py:4-24 | the result is never empty, and re-wrapping its bold runs in `**` gives back the input exactly: nothing is dropped, duplicated or reordered |
| MarkdownParser.InlineFormatWellFormed | app/utils/markdown_parser.py:4-24 | for non-empty text every plain run is non-empty and holds no further bold match, and every bold run is non-empty and on one line |
| MarkdownParser.InlineExample | app/utils/markdown_parser.py:4-24 | `**Key** point` gives a bold `Key` and a plain ` point` |
| MarkdownParser.NoStarsNoMatch | app/utils/markdown_parser.py:8-10 | text without `*` has no bold match |
| MarkdownParser.GetIndentLevel | app/utils/markdown_parser.py:26-28 | the level is the number of leading spaces (tabs do not count) divided by two, rounded down |
| MarkdownParser.FlushBullets | app/utils/markdown_parser.py:35-46 | flushing appends one bulleted item per buffered line, in order, each the line with `-`/space stripped and inline-formatted |
| MarkdownParser.MarkdownToNotionBlocks | app/utils/markdown_parser.py:30-77 | with bullets buffered and flushed before each heading or paragraph and at the end, the blocks come out in line order: one per non-blank stripped line (`MarkdownBlocks`) |
| MarkdownParser.BlocksOfAppend | app/utils/markdown_parser.py:48-76 | the blocks of concatenated line lists are the concatenated blocks |
| MarkdownParser.BlankLineBlocks | app/utils/markdown_parser.py:66 | a blank line yields no block |
| MarkdownParser.BlankLineNeutral | app/utils/markdown_parser.py:48-76 | inserting a blank line anywhere changes no block |
| MarkdownParser.BlocksOfShape | app/utils/markdown_parser.py:48-76 | the number of blocks equals the number of non-blank lines, and every heading block's kind is in 1..3 |
| MarkdownParser.HeadingLineBlock | app/utils/markdown_parser.py:49-61 | a line that strips to `k` hashes, a space and `t` gives exactly one heading block, of kind `min(k, 3)`, whose runs are the inline formatting of `t` stripped |
| MarkdownParser.ParseBetweenNone | app/utils/markdown_parser.py:91-93 | the result is `None` iff the text has no two non-overlapping occurrences of the delimiter |
| MarkdownParser.ParseBetweenSome | app/utils/markdown_parser.py:91-93 | a result is the stripped text between the first occurrence and the next one after it |
| MarkdownParser.LeftmostPairParse | app/utils/markdown_parser.py:91-93 | conversely, that leftmost pair always gives its stripped text |
| MarkdownParser.BetweenRoundTrip | app/utils/markdown_parser.py:91-93 | for a delimiter that cannot overlap itself, `pre + D + t + D + post` with no `D` in `pre` or `t` parses to `strip(t)` |
| MarkdownParser.FinalSummaryRoundTrip | app/utils/markdown_parser.py:80-93 | the same round trip for the default delimiter `<<FINAL_SUMMARY>>` |
| MarkdownParser.AngleMarkerBorderFree | app/utils/markdown_parser.py:80 | a marker of the form `<<...` with no further `<` cannot overlap itself |
| MarkdownParser.ParseUpdatedDescriptorOk | app/utils/markdown_parser.py:104-111 | parsing succeeds iff the marker occurs at two different positions, and raises otherwise (absent, or only once) |
| MarkdownParser.ParseUpdatedDescriptorValue | app/utils/markdown_parser.py:107-116 | a result is the stripped text between the first and the last occurrence of the marker |
| MarkdownParser.FirstLastParse | app/utils/markdown_parser.py:107-116 | conversely, with the first occurrence before the last, the stripped text between them is returned |
| MarkdownParser.DescriptorRoundTrip | app/utils/markdown_parser.py:104-116 | `pre + M + t + M + post` with no marker in `pre` or `post` parses to `strip(t)`, even when `t` itself contains markers |
| MarkdownParser.DescriptorNeedsTwoMarkers | app/utils/markdown_parser.py:110-111 | a text with exactly one marker is rejected |
| Chunker.SummaryChunker.constructor | app/memory/chunker.py:9-10 | the chunker keeps the given limit |
| Chunker.SummaryChunker.Default | app/memory/chunker.py:9 | the default limit is 20 |
| Chunker.SummaryChunker.ChunkByHeading | app/memory/chunker.py:12-30 | the result is the stripped heading lines of the stripped text, in order, cut to `max_chunks` with Python slice semantics |
| Chunker.HeadingLinesAreHeadings | app/memory/chunker.py:20-28 | every extracted line is a stripped heading line |
| Chunker.HeadingLinesSound | app/memory/chunker.py:20-28 | every extracted heading is non-empty, a heading, and the stripped form of some input line |
| Chunker.HeadingLinesComplete | app/memory/chunker.py:20-28 | every input line whose stripped form is a heading is extracted |
| Chunker.SummaryChunker.ChunkByParagraphs | app/memory/chunker.py:34-83 | the result is the paragraph fold of the stripped lines (`ParagraphChunks`), cut to `max_chunks` |
| Chunker.ParagraphChunksKept | app/memory/chunker.py:61-83 | every chunk is non-empty and not a lone `---` |
| Chunker.HeadingNotBuffered | app/memory/chunker.py:59-69 | a heading outside a fence starts content and is never buffered: the buffer is either cleared or unchanged |
| Chunker.ChunksCloseAtHeadings | app/memory/chunker.py:59-66 | a chunk is saved during the loop only at a heading outside a fence, after the first heading |
| Chunker.CodeLineIsContent | app/memory/chunker.py:53-75 | inside a fence every non-fence line, a `#` line included, is plain content: no chunk closes, the fence stays open, and the line is buffered once the first heading was seen |
| Chunker.FenceIsKept | app/memory/chunker.py:53-56 | a fence line toggles the fence state and is itself buffered |
| Chunker.RuleIsDropped | app/memory/chunker.py:72-74 | a standalone `---` outside a fence changes nothing |
| Chunker.BeforeFirstHeading | app/memory/chunker.py:71-75 | before the first heading, a line that is neither a fence nor a heading outside a fence changes nothing |
| Chunker.SummaryChunker.AttachHierarchy | app/memory/chunker.py:87-121 | the result is the breadcrumb fold over the chunks, starting from the page name |
| Chunker.CrumbRunChunks | app/memory/chunker.py:95-119 | one result per chunk that matches `^(#+)\s`, in order, and only for those |
| Chunker.DescendedShape | app/memory/chunker.py:172-179 | after a heading of level L the stack has exactly L entries; the last is the heading's text; those above are kept or padded with empty strings |
| Chunker.ContextEndsWithTitle | app/memory/chunker.py:109-115 | a breadcrumb is the non-empty entries above the heading joined by ` > `, then the heading's title |
| Chunker.SummaryChunker.ChunkWithHierarchy | app/memory/chunker.py:126-197 | the result is the hierarchy fold over the stripped lines with early stop, then the final flush, cut to `max_chunks` (`HierarchyChunks`) |
| Chunker.HandleLine | app/memory/chunker.py:163-188 | one line of the loop: heading, blank line or content, as `HierStep` |
| Chunker.FlushParagraph | app/memory/chunker.py:150-161 | a non-blank buffered paragraph becomes one chunk with the stack's breadcrumb and the next position; the buffer is cleared |
| Chunker.PadStack | app/memory/chunker.py:176-177 | a short stack is padded with empty entries up to the level; a long one is left alone |
| Chunker.Descend | app/memory/chunker.py:174-179 | the stack after a heading is cut or padded to the level, with its last entry replaced by the title |
| Chunker.HierLoopNumbered | app/memory/chunker.py:163-192 | the loop keeps positions consecutive from 0 and stops with at most `max_chunks` chunks |
| Chunker.HierarchyChunksNumbered | app/memory/chunker.py:148-197 | positions are 0, 1, 2, … in order, every chunk text is non-empty, and for `max_chunks >= 0` there are at most `max_chunks` chunks |
| Chunker.HeadingSetsStack | app/memory/chunker.py:164-179 | a heading of level L flushes the paragraph and leaves a stack of exactly L entries ending with the heading's text |
| Chunker.BlankLineFlushes | app/memory/chunker.py:184-186 | a blank line after buffered content flushes exactly that paragraph and leaves the stack alone |
| Chunker.ContentLineBuffered | app/memory/chunker.py:182-188 | a line that is not a heading, and not a blank line after buffered text, is appended unstripped to the buffer, and nothing else changes |
| Chunker.PageNameOverwritten | app/memory/chunker.py:172-179 | as written: a level-1 heading replaces the page name, so the stack is just `[title]` |
| Chunker.DescendedUnderPageKeepsPage | app/memory/chunker.py:172-179 | corrected: a heading of level L leaves L+1 entries, the page name first and the title last |
| Chunker.FenceBeforeHeadingLeaks | app/memory/chunker.py:53-56 | as written: two fence lines and no heading give the chunk "```\n```" |
| Chunker.ParaRunFixedQuiet | app/memory/chunker.py:53-56 | corrected: with fence lines buffered only after a heading, nothing is buffered or saved before the first heading, so a text without one gives no chunk |
| ChatLog.ChatHistory.constructor | app/memory/chat_history.py:6-7 | the history is the given list, or empty when none is given |
| ChatLog.ChatHistory.AddTurn | app/memory/chat_history.py:9-11 | exactly two entries are appended, `(role_1, user_msg)` then `(role_2, assistant_msg)`, and earlier entries are unchanged |
| ChatLog.AfterTurnsShape | app/memory/chat_history.py:9-11 | after any turns, the old entries are a prefix, and turn i sits at positions 2i and 2i+1 with its two roles |
| ChatLog.TurnsGiveEvenLength | app/memory/chat_history.py:9-11 | starting empty, the length is even after any sequence of turns |
| ChatLog.Recent | app/memory/chat_history.py:15 | `history[-2n:]`: for n >= 1 the last min(2n, len) entries in order; for n = 0 the whole history; for negative n a suffix starting at index min(-2n, len) |
| ChatLog.ChatHistory.GetRecent | app/memory/chat_history.py:13-15 | the stored history sliced as `Recent` states |
| ChatLog.RecentTurns | app/memory/chat_history.py:13-15 | after turns, `get_recent(n)` (n >= 1, at most the number of turns) is exactly the entries of the last n turns |
| ChatLog.ChatHistory.GetFull | app/memory/chat_history.py:17-18 | the stored history itself |
| ChatLog.Blocks | app/memory/chat_history.py:29-32 | one markdown block per entry, in history order |
| ChatLog.MarkdownAppend | app/memory/chat_history.py:29-32 | one more entry adds a blank line and its block at the end |
| ChatLog.EntryBlockShape | app/memory/chat_history.py:30 | a block starts with the bold, capitalized role and a colon line, and ends with the content verbatim |
| ChatLog.ChatHistory.ToMarkdown | app/memory/chat_history.py:28-32 | the blocks of the stored history joined by blank lines |
| NotionUrls.RemoveDisallowed | app/services/knowledgebaseQA.py:22 | every kept character is a word character, whitespace or `-`, and the result is no longer than the title |
| NotionUrls.CollapseIsCollapsed | app/services/knowledgebaseQA.py:25 | after collapsing there is no whitespace and no two hyphens in a row |
| NotionUrls.CollapseKeepsWords | app/services/knowledgebaseQA.py:25 | collapsing keeps the words and their order; only separator runs change |
| NotionUrls.DedupIsPrefix | app/services/knowledgebaseQA.py:29-32 | the duplicate-half step only ever shortens the slug to a prefix of itself |
| NotionUrls.DedupDoubled | app/services/knowledgebaseQA.py:29-32 | a hyphen-joined title repeated twice collapses to one copy |
| NotionUrls.SlugShape | app/services/knowledgebaseQA.py:22-32 | the slug is collapsed and made only of word characters and hyphens |
| NotionUrls.MakeSlug | app/services/knowledgebaseQA.py:22-32 | the step-by-step rewriting computes `Slug` |
| NotionUrls.BaseUrlShape | app/services/knowledgebaseQA.py:34-35 | the base URL starts with the Notion address, the slug and a hyphen, and ends with the page id with every hyphen removed |
| NotionUrls.AnchorUrls | app/services/knowledgebaseQA.py:50-52 | one URL per id, in order, each base + `#` + the id without hyphens; the first non-string id raises: TypeError for `bytes` (its `replace` rejects a `str` argument), AttributeError for any other value |
| NotionUrls.MakeNotionUrls | app/services/knowledgebaseQA.py:20-56 | falsy `block_ids` give exactly the base URL; an unparsable string raises ValueError; a non-list, non-tuple value raises TypeError; otherwise one anchor URL per id, in order, or the error of the first non-string id (TypeError for `bytes`, AttributeError otherwise) |
| NotionGrouping.Walk | app/services/notion_manager.py:337-345 | the walk yields at most one title per known page not yet visited, so it ends even on cyclic parent chains |
| NotionGrouping.GetParentPath | app/services/notion_manager.py:334-346 | the loop with its visited set computes the parent path `ParentPath` |
| NotionGrouping.ParentPathShape | app/services/notion_manager.py:334-346 | the path holds non-empty stripped titles, at most one per known page |
| NotionGrouping.ParentPathEndsWithStart | app/services/notion_manager.py:337-346 | the path is root-first: a titled start page's title comes last |
| NotionGrouping.WalkStep | app/services/notion_manager.py:337-345 | an unknown page id ends the walk; a known one contributes its stripped title and continues with its parent, the id marked visited |
| NotionGrouping.ExtractText | app/services/notion_manager.py:365-371 | the concatenated text is stripped of surrounding whitespace |
| NotionGrouping.PathBelowFolder | app/services/notion_manager.py:360-361 | a leading entry equal to `folder_name` is removed, and nothing else |
| NotionGrouping.ValidShape | app/services/notion_manager.py:389 | the breadcrumb parts kept are non-empty and stripped |
| NotionGrouping.CombinedHeadingParts | app/services/notion_manager.py:387-390 | `combined_heading` joins, with ` > `, the valid parent-path parts, then the page name, then the present h1, h2, h3 |
| NotionGrouping.HeadingStep | app/services/notion_manager.py:402-413 | every heading flushes the pending group first; `heading_1` resets h2 and h3, `heading_2` resets h3, `heading_3` keeps h1 and h2 |
| NotionGrouping.IgnoredBlock | app/services/notion_manager.py:414-420 | a block that is not a listed content type, or has no text, changes nothing |
| NotionGrouping.FlushAligned | app/services/notion_manager.py:373-394 | an empty group emits nothing; otherwise one item is emitted; both buffers are reset and stay in lockstep |
| NotionGrouping.FlushGroup | app/services/notion_manager.py:373-394 | the buffer-resetting flush computes `Flush` |
| NotionGrouping.GroupStepAligned | app/services/notion_manager.py:396-420 | each block keeps pieces and ids in lockstep and every emitted item aligned |
| NotionGrouping.PageItemsAligned | app/services/notion_manager.py:396-422 | every item of a page has at least one block id, and its paragraph joins exactly one non-empty piece per id |
| NotionGrouping.GroupPage | app/services/notion_manager.py:396-422 | the block loop and final flush compute `PageItems` |
| NotionGrouping.GroupOnePage | app/services/notion_manager.py:348-422 | one page's items, with its parent path below the folder |
| NotionGrouping.GroupAllPages | app/services/notion_manager.py:331-432 | the items of all pages, page by page in iteration order |
| NotionGrouping.AllItemsAligned | app/services/notion_manager.py:331-432 | every item of every page is aligned with its block ids |
| NotionGrouping.CombineHeadings | app/services/notion_manager.py:444-448 | the page name followed by `>` + h for each present h1, h2, h3, in that order |
| NotionGrouping.AddCombinedHeading | app/services/notion_manager.py:436-454 | each item gets that combined heading, and no other field changes |
| Descriptors.PathJoin | app/utils/descriptor.py:36-46 | a separator is inserted unless the directory is empty or already ends with one |
| Descriptors.PathsDistinct | app/utils/descriptor.py:40-46 | `current.txt` and the timestamped history copy are different files |
| Descriptors.SaveTouchesTwoFiles | app/utils/descriptor.py:39-48 | a save writes the content to both files and leaves every other file alone |
| Descriptors.LoadAfterSave | app/utils/descriptor.py:62-65 | loading after a save gives back the saved content with its line breaks read as `\n` (universal newlines), and exactly the saved content when it holds no `\r` |
| Descriptors.ReadText | app/utils/descriptor.py:63-64 | a text-mode read never returns `\r`, and is never longer than what is on disk |
| Descriptors.ReadTextPlain | app/utils/descriptor.py:63-64 | text without `\r` reads back unchanged |
| Descriptors.ReadTextIdempotent | app/utils/descriptor.py:63-64 | reading already-read text changes nothing |
| Descriptors.ReadTextExample | app/utils/descriptor.py:63-64 | `"a\r\nb\rc"` reads as `"a\nb\nc"`: a `\r\n` pair and a lone `\r` each become one `\n` |
| Descriptors.Descriptor.constructor | app/utils/descriptor.py:7-9 | content defaults to empty |
| Descriptors.Descriptor.SaveWithHistory | app/utils/descriptor.py:30-48 | writes the content to `current.txt`, then to `history/descriptor_<timestamp>.txt` |
| Descriptors.Descriptor.Load | app/utils/descriptor.py:57-66 | a fresh descriptor whose content is `current.txt` as a text-mode read returns it (line breaks as `\n`), or empty when that file is absent |
| Descriptors.Descriptor.Update | app/utils/descriptor.py:11-28 | one descriptor prompt from the content before the update, and one model call that sends exactly that rendered prompt; a reply without two markers is an error and leaves content and files unchanged; otherwise content becomes the text parsed out of that reply, both files are written, and that text is returned |
| DescriptorPrompt.Render | app/prompts/summarization/descriptor_prompt.py:1-100 | the prompt is stripped of surrounding whitespace |
| DescriptorPrompt.RenderShape | app/prompts/summarization/descriptor_prompt.py:36-39 | the prompt is the variant's body with leading whitespace removed, followed by the output instructions |
| DescriptorPrompt.VariantChoice | app/prompts/summarization/descriptor_prompt.py:2-43 | a blank old descriptor selects the first-time variant (as if it were empty); any other selects the update variant |
| DescriptorPrompt.InitialPrompt | app/prompts/summarization/descriptor_prompt.py:3-39 | the first-time variant embeds the final summary verbatim |
| DescriptorPrompt.UpdatePrompt | app/prompts/summarization/descriptor_prompt.py:41-100 | the update variant embeds the old descriptor and then the final summary verbatim |
| DescriptorPrompt.MarkerExactlyTwice | app/prompts/summarization/descriptor_prompt.py:97-100 | when the interpolated text holds no marker, `<<UPDATED_DESCRIPTOR>>` occurs exactly twice, both in the output instructions, and parsing the prompt itself yields the placeholder |
| Effects.PromptFor | app/prompts/base.py:15-25 | the descriptor route builds a prompt iff its keyword arguments are a string `old_descriptor` and optionally `final_summary`, and no other name (as `build_prompt(old_descriptor, final_summary="")` accepts them); the prompt is the descriptor prompt of those two strings, `final_summary` defaulting to `""`; every other route is the registry lookup |
| Effects.Request | app/chains/generation_chain.py:23-35 | the messages sent are a copy of the context history (none meaning empty) with the prompt appended as a user message |
| Effects.World.LoadPrompt | app/prompts/base.py:15-25 | loads the route's prompt and logs the load |
| Effects.World.ChatCompletion | app/utils/llm.py:16-35 | the reply is the model's answer to the messages, given everything logged before, and the call is logged |
| Effects.World.Write | app/utils/descriptor.py:41-42 | a write replaces one file's text and is logged |
| Effects.World.SaveSession | app/services/summary_pipeline.py:96 | the session save records the chat history at that moment |
| Effects.World.Push | app/services/summary_pipeline.py:99-101 | the push records the text pushed |
| Effects.World.Ask | app/chains/generation_chain.py:23-41 | a missing prompt is an error after the load; otherwise the request is sent and the reply returned |
| Effects.AskShape | app/chains/generation_chain.py:23-41 | a run logs exactly one prompt load and, when the prompt exists, one model call whose messages are the caller's history plus the prompt; it writes no file and has no outward effect |
| Effects.AskNoHistory | app/chains/generation_chain.py:23-24 | no context history behaves as an empty one |
| Generation.GenerationChain.constructor | app/chains/generation_chain.py:7-8 | the chain talks to the given model |
| Generation.GenerationChain.Run | app/chains/generation_chain.py:10-41 | with the source's defaults (no history, prompt type "generation", feature "summarization"), the result and the new log are `Ask` on the route (feature, prompt_type) with the given arguments and context history; no file is written |
| Generation.GenerationChain.Summarize | app/chains/generation_chain.py:43-53 | route ("summarization", prompt_type, default "generation") with `input=notes` |
| Generation.GenerationChain.Condense | app/chains/generation_chain.py:55-66 | route ("summarization", "condensed") with `input=retrieved_context` |
| Generation.GenerationChain.Regenerate | app/chains/generation_chain.py:68-81 | route ("summarization", "regeneration") with `initial_summary` and `critique` |
| Generation.GenerationChain.BuildDescriptor | app/chains/generation_chain.py:84-106 | route ("summarization", "descriptor") with the old descriptor's content and `final_summary` |
| Generation.BuildDescriptorRequest | app/chains/generation_chain.py:102-106 | the descriptor request always finds its prompt and sends exactly one user message, the rendered descriptor prompt |
| Generation.GenerationChain.QuestionAnswering | app/chains/generation_chain.py:108-114 | route ("question_answering", "qa") with `context` and `question` |
| Generation.GenerationChain.QuestionAnsweringVideo | app/chains/generation_chain.py:115-121 | route ("qa_video", "qa") with `context` and `question` |
| Reflection.ReflectionChain.constructor | app/chains/reflection_chain.py:6-7 | the chain talks to the given model |
| Reflection.ReflectionChain.Run | app/chains/reflection_chain.py:9-29 | with the source's defaults (no history, prompt type "reflection", feature "summarization"), the result and the new log are `Ask` on the route (feature, prompt_type) with the given arguments and context history; no file is written |
| Reflection.ReflectionChain.Reflect | app/chains/reflection_chain.py:31-33 | the default route ("summarization", "reflection") with `initial_summary`, `retrieved_context` and `heading_tree` |
| Reflection.ReflectionChain.SelectBlock | app/chains/reflection_chain.py:35-37 | route ("question_answering", "relevant_block") with `question` and `retrieved_blocks` |
| Pipeline.SummaryPipeline.constructor | app/services/summary_pipeline.py:12-15 | both chains share the given model |
| Pipeline.SummaryPipeline.Incremental | app/services/summary_pipeline.py:52-78 | prompts in order: summarize the notes; reflect on the draft with the old descriptor and the heading tree of the established summary; regenerate; descriptor. The model calls are exactly four, in that order: the draft is the first reply, the critique the second, the final summary the third, and the new descriptor is parsed out of the fourth, which was sent the descriptor prompt of the old content and the final summary. Three turns are recorded; the descriptor is saved; no outward effect |
| Pipeline.SummaryPipeline.FirstRun | app/services/summary_pipeline.py:80-90 | draft and critique are `""`; prompts in order: "generation_init" on the notes, then descriptor; exactly two model calls: the final summary is the first reply and the new descriptor is parsed out of the second; one turn is recorded; the reflection chain is never asked |
| Pipeline.SummaryPipeline.Finish | app/services/summary_pipeline.py:92-108 | no prompt, model call or file write; one more turn (final summary, new descriptor), then the session save, then the optional push of the delimiter-extracted summary (possibly `None`), which is what is returned |
| Pipeline.SummaryPipeline.RunWithDescriptor | app/services/summary_pipeline.py:18-108 | on success: the path's prompts in order; the path's model calls in order, each draft being the reply it came from and the new descriptor parsed out of the last reply; the chat turns of the path and the closing turn; the new descriptor saved and returned; the session saved before the push. On failure: no outward effect |
| Pipeline.SidesOfTurns | app/services/summary_pipeline.py:58-92 | the entries turns append carry the turns' two roles in order |
| Pipeline.PipelineRoles | app/services/summary_pipeline.py:58-92 | the history grows by 8 entries on the incremental path and 4 on the first-time path, with roles in the order of the recorded pairs |
| Pipeline.IncrementalHistory | app/services/summary_pipeline.py:58-75 | the three `add_turn` calls of the incremental path make up its draft turns |
| Pipeline.PipelineTurnsChained | app/services/summary_pipeline.py:58-92 | the turns form a chain: the first starts with the raw notes from the user; each later one starts with the previous reply, from the previous replier; the last reply is the new descriptor |

## Left out

- `app/utils/llm.py`: the Groq client is the `answer` oracle. Its error handling (print, then return `""`) is just another possible reply.
- `app/prompts/base.py`: the dynamic `importlib` lookup is the `registry` oracle. Every prompt module except `descriptor_prompt.py` is left out; it is fixed text with interpolation.
- Effects.PromptFor: a non-string `final_summary` (only a heading forest could be passed, and no caller does) is rendered as empty, where Python would embed its `str()`.
- ChatLog.EntryBlockShape: `Capitalize` maps case for ASCII letters only; Python's `str.capitalize` also maps other letters (a role `éLAN` becomes `Élan`). The pipeline's roles are ASCII.
- `Effects.World.constructor`: `describe` is `DescriptorPrompt.Render` with a wording parameter. The repository's wording is `DescriptorPrompt.SourceWording`, and no property depends on its exact text beyond the absence of markers.
- `ChatHistory.save`/`load` and `Descriptor.save(path)`: JSON and file I/O. The session save is an event carrying the history.
- `Descriptors.Descriptor.Load`: files hold characters, not bytes. The locale encoding of the writes and the UTF-8 decoding of the read are not modelled, and neither is the `\n` to `\r\n` translation a write performs on Windows; the writes store the text as given, as on POSIX.
- `os.makedirs` is left out; writes land in the path-to-text map. The clock behind the history file name is a `timestamp` parameter.
- `semantic_subchunk_paragraph`: it needs embeddings and a semantic splitter.
- The Notion SDK paging and export code, `write_to_notion` (modelled only as a `Pushed` event), and the JSON file writes of the grouping functions.
- `QueryPipeline` and `open_url_in_existing_tab`.
- `ast.literal_eval` is an oracle that can fail.
- Vector stores, embeddings, the video QA service and the session manager.
- `NotionUrls.RemoveDisallowed`: `\w` is ASCII letters, digits and `_`. Python's Unicode word characters (accented letters, other scripts) are not modelled.
- `make_notion_urls`: Python values other than `None`, strings, `bytes`, lists and tuples are reduced to their truthiness; `bytearray` is not told apart from them, so an id of that type is modelled as raising AttributeError rather than TypeError.
- `NotionGrouping`: the exported dictionary is a sequence of (id, page) pairs in iteration order; duplicate keys are not excluded.
- `NotionGrouping`: `page.get` defaults are normalised into the `Page`/`Block` datatypes: a missing title is `""`, missing blocks are `[]`, a non-list `rich_text` is `None`. An empty-dict page, which `get_parent_path` treats as absent, is modelled as absent.
- `extract_text` on a non-string `text` value is not modelled; pieces are strings or objects with an optional string `text`.
- `chunk_with_hierarchy`: `current_level` is assigned but never read, so it is not modelled.
- `max_chunks` is an `int` with Python slice semantics, negative values included.
- `run_with_descriptor`: the import cycle between `descriptor.py` and `generation_chain.py` is broken by passing the descriptor's content string to `GenerationChain.BuildDescriptor`.
- `Pipeline.SummaryPipeline.FirstRun`: the heading tree built from the generated summary on the first-time path is never used by the source, so the model does not build it.
- `Chunker.HierarchyChunksNumbered`: for a negative `max_chunks` only positions and non-empty texts are stated, not a length bound.
- `parse_between_delimiters`: the delimiter is escaped (`re.escape`) and therefore matched literally. `re.DOTALL` lets the enclosed text span lines.
- MarkdownParser.BetweenRoundTrip: stated for delimiters that cannot overlap themselves, which `<<FINAL_SUMMARY>>` and the question-answering markers `<<blockids>>`, `<<pageid>>`, `<<pagetitle>>`, `<<RETRIEVED_IMAGES>>` and `<<BEST_TIMESTAMP>>` all satisfy (`MarkdownParser.AngleMarkerBorderFree`).
- The method bodies follow the code as written, including the two behaviours listed under Findings; the corrected definitions stand beside them.

## Findings

| source | as written | input that shows it | evidently intended | confidence | as-written member | corrected member |
|---|---|---|---|---|---|---|
| app/memory/chunker.py:172-179 | the stack is cut or padded to `level` entries and its last entry replaced, so a level-1 heading overwrites the page name | page name `P`, then the line `# A`: the stack becomes `[A]` and breadcrumbs lose `P` | the inline comment asks for `level` entries after the page name, so `level + 1` in total, with the page name kept | not executed | Chunker.PageNameOverwritten | Chunker.DescendedUnderPageKeepsPage |
| app/memory/chunker.py:53-56 | a fence line is buffered before the `started` check, so fences before the first heading leak into a chunk | the text "```\n```" with no heading gives the chunk "```\n```" | lines before the first heading are discarded, fence lines included | not executed | Chunker.FenceBeforeHeadingLeaks | Chunker.ParaRunFixedQuiet |

=== FILE: chat_history.dfy ===
/**
 * `ChatHistory`: an append-only list of role-tagged messages. A turn adds two entries;
 * recent turns are a slice from the end; the markdown rendering is one block per entry.
 */
module ChatLog {
  import opened Wrappers
  import opened Text

  /** One message: `{"role": ..., "content": ...}`. */
  datatype Entry = Entry(role: string, content: string)

  /** The arguments of one `add_turn` call. */
  datatype Turn = Turn(userMsg: string, assistantMsg: string, role1: string, role2: string)

  const DefaultRecentTurns: int := 5
  const UserRole: string := "user"
  const AssistantRole: string := "assistant"
  const BlockSeparator: string := "\n\n"

  /** The two entries a turn appends, user side first. */
  function TurnEntries(t: Turn): (r: seq<Entry>)
    ensures |r| == 2
    ensures r[0] == Entry(t.role1, t.userMsg) && r[1] == Entry(t.role2, t.assistantMsg)
  {
    [Entry(t.role1, t.userMsg), Entry(t.role2, t.assistantMsg)]
  }

  /** The history that a sequence of turns leaves behind, starting from `h`. */
  function AfterTurns(h: seq<Entry>, turns: seq<Turn>): seq<Entry>
    decreases |turns|
  {
    if turns == [] then h
    else AfterTurns(h, turns[..|turns| - 1]) + TurnEntries(turns[|turns| - 1])
  }

  /** Starting from `h`, `k` turns add exactly `2k` entries; the old entries stay in front
      and turn `i` sits at positions `|h| + 2i` (user side) and `|h| + 2i + 1`. */
  lemma {:induction false} AfterTurnsShape(h: seq<Entry>, turns: seq<Turn>)
    ensures |AfterTurns(h, turns)| == |h| + 2 * |turns|
    ensures AfterTurns(h, turns)[..|h|] == h
    ensures forall i :: 0 <= i < |turns| ==>
      AfterTurns(h, turns)[|h| + 2 * i] == Entry(turns[i].role1, turns[i].userMsg) &&
      AfterTurns(h, turns)[|h| + 2 * i + 1] == Entry(turns[i].role2, turns[i].assistantMsg)
    decreases |turns|
  {
    if turns != [] {
      var n := |turns| - 1;
      var init := turns[..n];
      AfterTurnsShape(h, init);
      var prev := AfterTurns(h, init);
      var all := AfterTurns(h, turns);
      assert all == prev + TurnEntries(turns[n]);
      forall i | 0 <= i < |turns|
        ensures all[|h| + 2 * i] == Entry(turns[i].role1, turns[i].userMsg)
        ensures all[|h| + 2 * i + 1] == Entry(turns[i].role2, turns[i].assistantMsg)
      {
        if i < n {
          assert init[i] == turns[i];
          assert all[|h| + 2 * i] == prev[|h| + 2 * i];
          assert all[|h| + 2 * i + 1] == prev[|h| + 2 * i + 1];
        }
      }
    }
  }

  /** A history built from nothing but turns has even length. */
  lemma TurnsGiveEvenLength(turns: seq<Turn>)
    ensures |AfterTurns([], turns)| % 2 == 0
  {
    AfterTurnsShape([], turns);
  }

  /** `history[-n * 2:]`: for n >= 1 the last min(2n, len) entries; for n = 0 the slice
      `[-0:]` is the whole history; a negative n drops the first -2n entries instead. */
  function Recent(history: seq<Entry>, n: int): (r: seq<Entry>)
    ensures n >= 1 ==> |r| == (if 2 * n < |history| then 2 * n else |history|)
    ensures n >= 1 ==> r == history[|history| - |r|..]
    ensures n == 0 ==> r == history
    ensures n < 0 ==> r == history[(if -2 * n < |history| then -2 * n else |history|)..]
  {
    PyDrop(history, -n * 2)
  }

  /** The last `n` turns are exactly the last `2n` entries, when that many turns were made. */
  lemma RecentTurns(h: seq<Entry>, turns: seq<Turn>, n: nat)
    requires 1 <= n <= |turns|
    ensures Recent(AfterTurns(h, turns), n) == AfterTurns([], turns[|turns| - n..])
  {
    var k := |turns| - n;
    AfterTurnsSplit(h, turns[..k], turns[k..]);
    assert turns[..k] + turns[k..] == turns;
    AfterTurnsShape(h, turns[..k]);
    AfterTurnsShape([], turns[k..]);
  }

  /** One more turn after `turns` is the same as `turns` followed by that turn. */
  lemma AfterOneMore(h: seq<Entry>, turns: seq<Turn>, t: Turn)
    ensures AfterTurns(AfterTurns(h, turns), [t]) == AfterTurns(h, turns + [t])
  {
    assert (turns + [t])[..|turns|] == turns;
    assert [t][..0] == [];
  }

  /** Turns made after `a` add their entries after those of `a`. */
  lemma {:induction false} AfterTurnsSplit(h: seq<Entry>, a: seq<Turn>, b: seq<Turn>)
    ensures AfterTurns(h, a + b) == AfterTurns(h, a) + AfterTurns([], b)
    decreases |b|
  {
    if b == [] {
      assert a + b == a;
    } else {
      var n := |b| - 1;
      assert (a + b)[..|a + b| - 1] == a + b[..n];
      assert (a + b)[|a + b| - 1] == b[n];
      AfterTurnsSplit(h, a, b[..n]);
    }
  }

  /** `f"**{role.capitalize()}**:\n{content}"`. */
  function EntryBlock(e: Entry): string {
    "**" + Capitalize(e.role) + "**:\n" + e.content
  }

  function Blocks(history: seq<Entry>): (r: seq<string>)
    ensures |r| == |history|
    ensures forall i :: 0 <= i < |history| ==> r[i] == EntryBlock(history[i])
    decreases |history|
  {
    if history == [] then [] else Blocks(history[..|history| - 1]) + [EntryBlock(history[|history| - 1])]
  }

  /** `to_markdown`: the entry blocks separated by blank lines. */
  function Markdown(history: seq<Entry>): string {
    Join(Blocks(history), BlockSeparator)
  }

  /** Each new entry adds its block after a blank line, so blocks follow history order. */
  lemma MarkdownAppend(history: seq<Entry>, e: Entry)
    ensures Markdown(history + [e]) ==
      if history == [] then EntryBlock(e) else Markdown(history) + BlockSeparator + EntryBlock(e)
  {
    var h := history + [e];
    assert h[..|h| - 1] == history;
    if history != [] {
      JoinAppend(Blocks(history), EntryBlock(e), BlockSeparator);
    }
  }

  /** Every block starts with the entry's capitalised role in bold and ends with its content. */
  lemma EntryBlockShape(e: Entry)
    ensures StartsWith(EntryBlock(e), "**" + Capitalize(e.role) + "**:\n")
    ensures EntryBlock(e)[|EntryBlock(e)| - |e.content|..] == e.content
  {
    var head := "**" + Capitalize(e.role) + "**:\n";
    assert EntryBlock(e) == head + e.content;
    assert EntryBlock(e)[..|head|] == head;
  }

  class ChatHistory {
    var history: seq<Entry>

    /** `ChatHistory(history=None)`: the given list, or an empty one. */
    constructor (initial: Option<seq<Entry>>)
      ensures history == initial.GetOr([])
    {
      history := initial.GetOr([]);
    }

    /** `add_turn`: the user-side entry, then the assistant-side entry, after all others. */
    method AddTurn(userMsg: string, assistantMsg: string, role1: string := UserRole, role2: string := AssistantRole)
      modifies this
      ensures history == old(history) + [Entry(role1, userMsg), Entry(role2, assistantMsg)]
      ensures history == AfterTurns(old(history), [Turn(userMsg, assistantMsg, role1, role2)])
    {
      history := history + [Entry(role1, userMsg)];
      history := history + [Entry(role2, assistantMsg)];
      assert [Turn(userMsg, assistantMsg, role1, role2)][..0] == [];
    }

    /** `get_recent(n)`. */
    function GetRecent(n: int := DefaultRecentTurns): (r: seq<Entry>)
      reads this
      ensures r == Recent(history, n)
    {
      Recent(history, n)
    }

    /** `get_full`: the stored history itself. */
    function GetFull(): (r: seq<Entry>)
      reads this
      ensures r == history
    {
      history
    }

    /** `to_markdown`. */
    function ToMarkdown(): (r: string)
      reads this
      ensures r == Markdown(history)
    {
      Markdown(history)
    }
  }
}

=== FILE: chunker.dfy ===
/**
 * `SummaryChunker`: heading extraction, paragraph chunks under headings (aware of code
 * fences and horizontal rules), and heading breadcrumbs for chunks.
 *
 * Each method walks the lines with the loop the chunker uses and is proved equal to a
 * left fold (`HeadingLines`, `ParaRun`, `HierLoop`, `CrumbRun`); the lemmas state what
 * those folds guarantee.
 */
module Chunker {
  import opened Wrappers
  import opened Text
  import opened HeadingSyntax

  const DefaultMaxChunks: int := 20
  const DefaultHierarchyMaxChunks: int := 100
  const Fence: string := "```"
  const Rule: string := "---"
  const Breadcrumb: string := " > "

  /** The lines every chunker walks: the whole text stripped, then split at line breaks. */
  function Lines(text: string): seq<string> {
    Split(Strip(text), '\n')
  }

  // ---------------------------------------------------------------------------
  // chunk_by_heading

  /** The stripped heading lines (`^#{1,6}\s`) of `lines`, in order. */
  function HeadingLines(lines: seq<string>): seq<string>
    decreases |lines|
  {
    if lines == [] then []
    else
      var s := Strip(lines[|lines| - 1]);
      HeadingLines(lines[..|lines| - 1]) + (if IsHeading(s, 6) && s != [] then [s] else [])
  }

  lemma HeadingLinesSnoc(lines: seq<string>, i: nat)
    requires i < |lines|
    ensures var s := Strip(lines[i]);
      HeadingLines(lines[..i + 1]) == HeadingLines(lines[..i]) + (if IsHeading(s, 6) && s != [] then [s] else [])
  {
    assert lines[..i + 1][..i] == lines[..i];
    assert lines[..i + 1][i] == lines[i];
  }

  /** Every extracted heading matches `^#{1,6}\s`, is non-empty and has no surrounding whitespace. */
  lemma {:induction false} HeadingLinesAreHeadings(lines: seq<string>)
    ensures forall k :: 0 <= k < |HeadingLines(lines)| ==>
      IsHeading(HeadingLines(lines)[k], 6) && IsStripped(HeadingLines(lines)[k])
    decreases |lines|
  {
    if lines != [] {
      var init := lines[..|lines| - 1];
      HeadingLinesAreHeadings(init);
      StripIsStripped(lines[|lines| - 1]);
    }
  }

  /** Only headings that are stripped lines of the input are extracted. */
  lemma {:induction false} HeadingLinesSound(lines: seq<string>, x: string)
    requires x in HeadingLines(lines)
    ensures x != [] && IsHeading(x, 6)
    ensures exists j :: 0 <= j < |lines| && Strip(lines[j]) == x
    decreases |lines|
  {
    var n := |lines| - 1;
    var init := lines[..n];
    if x in HeadingLines(init) {
      HeadingLinesSound(init, x);
      var j :| 0 <= j < |init| && Strip(init[j]) == x;
      assert Strip(lines[j]) == x;
    } else {
      assert Strip(lines[n]) == x;
    }
  }

  lemma HeadingLinesOne(line: string)
    ensures var s := Strip(line);
      HeadingLines([line]) == if IsHeading(s, 6) && s != [] then [s] else []
  {
    assert [line][..0] == [];
  }

  /** Every line that strips to a heading is extracted. */
  lemma HeadingLinesComplete(lines: seq<string>, j: nat)
    requires j < |lines|
    requires Strip(lines[j]) != [] && IsHeading(Strip(lines[j]), 6)
    ensures Strip(lines[j]) in HeadingLines(lines)
  {
    var one := [lines[j]];
    HeadingLinesOne(lines[j]);
    SplitAround(lines, j);
    HeadingLinesAppend(lines[..j], one);
    HeadingLinesAppend(lines[..j] + one, lines[j + 1..]);
  }

  /** Extraction keeps the input order: it distributes over concatenation of line lists. */
  lemma {:induction false} HeadingLinesAppend(a: seq<string>, b: seq<string>)
    ensures HeadingLines(a + b) == HeadingLines(a) + HeadingLines(b)
    decreases |b|
  {
    if b == [] {
      assert a + b == a;
    } else {
      var n := |b| - 1;
      assert (a + b)[..|a + b| - 1] == a + b[..n];
      assert (a + b)[|a + b| - 1] == b[n];
      HeadingLinesAppend(a, b[..n]);
    }
  }

  // ---------------------------------------------------------------------------
  // chunk_by_paragraphs

  /** The chunker's loop state: saved chunks, buffered lines, inside a fence, heading seen. */
  datatype ParaState = ParaState(chunks: seq<string>, current: seq<string>, inCode: bool, started: bool)

  const ParaStart: ParaState := ParaState([], [], false, false)

  /** The buffered lines joined by line breaks and stripped. */
  function Joined(current: seq<string>): string {
    Strip(Join(current, "\n"))
  }

  /** A joined chunk is kept unless it is empty or a lone horizontal rule. */
  predicate Kept(c: string) {
    c != [] && c != Rule
  }

  predicate AllKept(cs: seq<string>) {
    forall i :: 0 <= i < |cs| ==> Kept(cs[i])
  }

  /** The buffered lines saved as one chunk when they are kept. */
  function Saved(chunks: seq<string>, current: seq<string>): (r: seq<string>)
    ensures AllKept(chunks) ==> AllKept(r)
  {
    var joined := Joined(current);
    if Kept(joined) then chunks + [joined] else chunks
  }

  /** One stripped line `s` of the loop of `chunk_by_paragraphs`. */
  function ParaStep(st: ParaState, s: string): ParaState {
    if StartsWith(s, Fence) then
      st.(inCode := !st.inCode, current := st.current + [s])
    else if !st.inCode && IsHeading(s, 6) then
      if st.started && st.current != [] then
        st.(chunks := Saved(st.chunks, st.current), current := [], started := true)
      else
        st.(started := true)
    else if st.started && (st.inCode || s != Rule) then
      st.(current := st.current + [s])
    else
      st
  }

  function ParaRun(lines: seq<string>): ParaState
    decreases |lines|
  {
    if lines == [] then ParaStart
    else ParaStep(ParaRun(lines[..|lines| - 1]), Strip(lines[|lines| - 1]))
  }

  lemma ParaRunSnoc(lines: seq<string>, i: nat)
    requires i < |lines|
    ensures ParaRun(lines[..i + 1]) == ParaStep(ParaRun(lines[..i]), Strip(lines[i]))
  {
    assert lines[..i + 1][..i] == lines[..i];
    assert lines[..i + 1][i] == lines[i];
  }

  /** The final flush after the loop. */
  function ParaFinish(st: ParaState): seq<string> {
    if st.current != [] then Saved(st.chunks, st.current) else st.chunks
  }

  /** `chunk_by_paragraphs` before truncation to `max_chunks`. */
  function ParagraphChunks(lines: seq<string>): seq<string> {
    ParaFinish(ParaRun(lines))
  }

  lemma {:induction false} ParaRunKept(lines: seq<string>)
    ensures AllKept(ParaRun(lines).chunks)
    decreases |lines|
  {
    if lines != [] {
      ParaRunKept(lines[..|lines| - 1]);
    }
  }

  /** Every paragraph chunk is non-empty and not a lone `---`. */
  lemma ParagraphChunksKept(lines: seq<string>)
    ensures AllKept(ParagraphChunks(lines))
  {
    ParaRunKept(lines);
  }

  lemma HeadingIsNoFence(s: string)
    requires IsHeading(s, 6)
    ensures !StartsWith(s, Fence)
  {
    assert s[0] == '#';
  }

  /** A heading line outside a fence is never buffered: it closes the buffer or leaves it. */
  lemma HeadingNotBuffered(st: ParaState, s: string)
    requires !st.inCode && IsHeading(s, 6)
    ensures ParaStep(st, s).started && !ParaStep(st, s).inCode
    ensures ParaStep(st, s).current == [] || ParaStep(st, s).current == st.current
  {
    HeadingIsNoFence(s);
  }

  /** Chunks are only ever closed by a heading line outside a fence. */
  lemma ChunksCloseAtHeadings(st: ParaState, s: string)
    requires ParaStep(st, s).chunks != st.chunks
    ensures !st.inCode && IsHeading(s, 6) && st.started
  {
  }

  /** Inside a fence, a `#` line (any non-fence line) is content of the open chunk. */
  lemma CodeLineIsContent(st: ParaState, s: string)
    requires st.inCode && !StartsWith(s, Fence)
    ensures ParaStep(st, s).chunks == st.chunks && ParaStep(st, s).inCode
    ensures ParaStep(st, s).current == if st.started then st.current + [s] else st.current
  {
  }

  /** Fence lines toggle the fence state and are kept in the buffer. */
  lemma FenceIsKept(st: ParaState, s: string)
    requires StartsWith(s, Fence)
    ensures ParaStep(st, s).inCode == !st.inCode
    ensures ParaStep(st, s).current == st.current + [s]
    ensures ParaStep(st, s).chunks == st.chunks
  {
  }

  /** A standalone rule outside a fence is dropped. */
  lemma RuleIsDropped(st: ParaState)
    requires !st.inCode
    ensures ParaStep(st, Rule) == st
  {
    assert Rule[0] == '-';
    assert !StartsWith(Rule, Fence) by { assert Rule[..3] != Fence; }
    assert HashRun(Rule) == 0;
  }

  /** Before the first heading, every line other than a fence line is discarded. */
  lemma BeforeFirstHeading(st: ParaState, s: string)
    requires !st.started && !StartsWith(s, Fence)
    requires st.inCode || !IsHeading(s, 6)
    ensures ParaStep(st, s) == st
  {
  }

  /** As written, a fence line before the first heading is still buffered, so a text with
      no heading at all yields a chunk. */
  lemma FenceBeforeHeadingLeaks()
    ensures ParagraphChunks(["```", "```"]) == ["```\n```"]
  {
    FenceLeak(Fence);
    assert Fence + "\n" + Fence == "```\n```";
  }

  /** The two fence lines are buffered before any heading and come out as one chunk. */
  lemma FenceLeak(f: string)
    requires f == Fence
    ensures ParagraphChunks([f, f]) == [f + "\n" + f]
  {
    FenceStripped(f);
    FenceLinesRun(f);
    JoinedFences(f);
    assert ParaFinish(ParaRun([f, f])) == [] + [f + "\n" + f];
  }

  lemma FenceStripped(f: string)
    requires f == Fence
    ensures Strip(f) == f
  {
    assert f[0] == '`' && f[2] == '`';
    assert !IsSpace(f[0]) && !IsSpace(f[|f| - 1]);
    StripIdentity(f);
  }

  lemma JoinedFences(f: string)
    requires f == Fence
    ensures Joined([f, f]) == f + "\n" + f && Kept(f + "\n" + f)
  {
    var joined := f + "\n" + f;
    assert Join([f, f], "\n") == joined;
    assert joined[0] == '`' && joined[|joined| - 1] == '`';
    assert !IsSpace(joined[0]) && !IsSpace(joined[|joined| - 1]);
    StripIdentity(joined);
    assert joined[0] != Rule[0];
  }

  lemma FenceLinesRun(f: string)
    requires f == Fence && Strip(f) == f
    ensures ParaRun([f, f]) == ParaState([], [f, f], false, false)
  {
    var one := ParaState([], [f], true, false);
    assert ParaRun([f]) == one by {
      assert [f][..0] == [];
      FenceStep(ParaStart, f);
    }
    assert [f, f][..1] == [f];
    FenceStep(one, f);
    assert [f] + [f] == [f, f];
  }

  /** A fence line flips the fence state and is buffered. */
  lemma FenceStep(st: ParaState, f: string)
    requires f == Fence
    ensures ParaStep(st, f) == st.(inCode := !st.inCode, current := st.current + [f])
  {
    assert StartsWith(f, Fence);
  }

  /** Corrected step: a fence line still toggles the fence state, but is buffered only
      once a heading has been seen, like every other content line. */
  function ParaStepFixed(st: ParaState, s: string): ParaState {
    if StartsWith(s, Fence) then
      st.(inCode := !st.inCode, current := if st.started then st.current + [s] else st.current)
    else
      ParaStep(st, s)
  }

  function ParaRunFixed(lines: seq<string>): ParaState
    decreases |lines|
  {
    if lines == [] then ParaStart
    else ParaStepFixed(ParaRunFixed(lines[..|lines| - 1]), Strip(lines[|lines| - 1]))
  }

  function ParagraphChunksFixed(lines: seq<string>): seq<string> {
    ParaFinish(ParaRunFixed(lines))
  }

  /** With the correction, nothing is buffered or saved before the first heading, so a
      text without a heading outside a fence yields no chunk. */
  lemma {:induction false} ParaRunFixedQuiet(lines: seq<string>)
    ensures !ParaRunFixed(lines).started ==>
      ParaRunFixed(lines).current == [] && ParaRunFixed(lines).chunks == []
    ensures !ParaRunFixed(lines).started ==> ParagraphChunksFixed(lines) == []
    decreases |lines|
  {
    if lines != [] {
      ParaRunFixedQuiet(lines[..|lines| - 1]);
    }
  }

  // ---------------------------------------------------------------------------
  // The heading stack shared by attach_hierarchy and chunk_with_hierarchy

  function Blanks(n: nat): (r: seq<string>)
    ensures |r| == n
    ensures forall i :: 0 <= i < n ==> r[i] == []
  {
    seq(n, i => [])
  }

  /** The stack cut down to, or padded with empty titles up to, `level` entries. */
  function Resized(stack: seq<string>, level: nat): seq<string> {
    if |stack| > level then stack[..level] else stack + Blanks(level - |stack|)
  }

  /** The stack after a heading of `level` with `title`: resized, last entry replaced. */
  function Descended(stack: seq<string>, level: nat, title: string): seq<string>
    requires level >= 1
  {
    ResizedLength(stack, level);
    Resized(stack, level)[..level - 1] + [title]
  }

  lemma ResizedLength(stack: seq<string>, level: nat)
    ensures |Resized(stack, level)| == level
  {
  }

  /** After a heading of level L the stack has exactly L entries, the last is the heading's
      title, the entries above it are the old ones, and missing ones are empty. */
  lemma DescendedShape(stack: seq<string>, level: nat, title: string)
    requires level >= 1
    ensures |Descended(stack, level, title)| == level
    ensures Descended(stack, level, title)[level - 1] == title
    ensures forall i :: 0 <= i < level - 1 ==>
      Descended(stack, level, title)[i] == if i < |stack| then stack[i] else []
  {
  }

  /** As written, the page name at the bottom of the stack is overwritten by the first
      level-1 heading, so it never appears in a breadcrumb after one. */
  lemma PageNameOverwritten(stack: seq<string>, title: string)
    ensures Descended(stack, 1, title) == [title]
  {
  }

  /** Corrected stack update: level L keeps the page name below L heading entries. */
  function DescendedUnderPage(stack: seq<string>, level: nat, title: string): seq<string>
    requires level >= 1
  {
    Descended(stack, level + 1, title)
  }

  lemma DescendedUnderPageKeepsPage(stack: seq<string>, level: nat, title: string)
    requires level >= 1 && |stack| >= 1
    ensures |DescendedUnderPage(stack, level, title)| == level + 1
    ensures DescendedUnderPage(stack, level, title)[0] == stack[0]
    ensures DescendedUnderPage(stack, level, title)[level] == title
  {
    DescendedShape(stack, level + 1, title);
  }

  /** The non-empty entries of a stack, in order. */
  function NonEmpty(stack: seq<string>): (r: seq<string>)
    ensures forall i :: 0 <= i < |r| ==> r[i] != []
    ensures |r| <= |stack|
    decreases |stack|
  {
    if stack == [] then []
    else NonEmpty(stack[..|stack| - 1]) + (if stack[|stack| - 1] != [] then [stack[|stack| - 1]] else [])
  }

  /** `" > ".join(s for s in stack if s)`. */
  function Context(stack: seq<string>): string {
    Join(NonEmpty(stack), Breadcrumb)
  }

  // ---------------------------------------------------------------------------
  // attach_hierarchy

  datatype Crumb = Crumb(chunk: string, context: string)

  datatype CrumbState = CrumbState(stack: seq<string>, results: seq<Crumb>)

  /** One chunk of the loop of `attach_hierarchy`: `^(#+)\s+(.*)` decides, the number of
      hashes is the level and group 2, stripped, the title. */
  function CrumbStep(st: CrumbState, chunk: string): CrumbState {
    if IsHeadingAnyLevel(chunk) then
      var stack := Descended(st.stack, HashRun(chunk), Strip(HeadingRest(chunk)));
      CrumbState(stack, st.results + [Crumb(chunk, Context(stack))])
    else
      st
  }

  function CrumbRun(pageName: string, chunks: seq<string>): CrumbState
    decreases |chunks|
  {
    if chunks == [] then CrumbState([pageName], [])
    else CrumbStep(CrumbRun(pageName, chunks[..|chunks| - 1]), chunks[|chunks| - 1])
  }

  lemma CrumbRunSnoc(pageName: string, chunks: seq<string>, i: nat)
    requires i < |chunks|
    ensures CrumbRun(pageName, chunks[..i + 1]) == CrumbStep(CrumbRun(pageName, chunks[..i]), chunks[i])
  {
    assert chunks[..i + 1][..i] == chunks[..i];
    assert chunks[..i + 1][i] == chunks[i];
  }

  /** The chunks `^(#+)\s` matches, in order. */
  function HeadingChunks(chunks: seq<string>): seq<string>
    decreases |chunks|
  {
    if chunks == [] then []
    else
      var c := chunks[|chunks| - 1];
      HeadingChunks(chunks[..|chunks| - 1]) + (if IsHeadingAnyLevel(c) then [c] else [])
  }

  function ChunksOf(rs: seq<Crumb>): seq<string>
    decreases |rs|
  {
    if rs == [] then [] else ChunksOf(rs[..|rs| - 1]) + [rs[|rs| - 1].chunk]
  }

  lemma ChunksOfSnoc(rs: seq<Crumb>, r: Crumb)
    ensures ChunksOf(rs + [r]) == ChunksOf(rs) + [r.chunk]
  {
    assert (rs + [r])[..|rs|] == rs;
  }

  /** One result per heading chunk and only for those, in the order of the chunks. */
  lemma {:induction false} CrumbRunChunks(pageName: string, chunks: seq<string>)
    ensures ChunksOf(CrumbRun(pageName, chunks).results) == HeadingChunks(chunks)
    decreases |chunks|
  {
    if chunks != [] {
      var c := chunks[|chunks| - 1];
      var prev := CrumbRun(pageName, chunks[..|chunks| - 1]);
      CrumbRunChunks(pageName, chunks[..|chunks| - 1]);
      if IsHeadingAnyLevel(c) {
        var stack := Descended(prev.stack, HashRun(c), Strip(HeadingRest(c)));
        ChunksOfSnoc(prev.results, Crumb(c, Context(stack)));
      }
    }
  }

  /** The breadcrumb of a heading ends with its title, joined to the non-empty entries
      above it with " > ". */
  lemma ContextEndsWithTitle(stack: seq<string>, level: nat, title: string)
    requires level >= 1 && title != []
    ensures var above := NonEmpty(Resized(stack, level)[..level - 1]);
      Context(Descended(stack, level, title)) ==
        if above == [] then title else Join(above, Breadcrumb) + Breadcrumb + title
  {
    var d := Descended(stack, level, title);
    ResizedLength(stack, level);
    var above := Resized(stack, level)[..level - 1];
    assert d[..|d| - 1] == above;
    assert NonEmpty(d) == NonEmpty(above) + [title];
    if NonEmpty(above) != [] {
      JoinAppend(NonEmpty(above), title, Breadcrumb);
    } else {
      assert NonEmpty(d) == [title];
    }
  }

  // ---------------------------------------------------------------------------
  // chunk_with_hierarchy

  /** One result of `chunk_with_hierarchy`: breadcrumb, paragraph text and its position. */
  datatype HChunk = HChunk(context: string, chunk: string, position: nat)

  /** The loop state: heading stack, emitted chunks, buffered raw lines, position counter. */
  datatype HierState = HierState(stack: seq<string>, chunks: seq<HChunk>, current: seq<string>, position: nat)

  function HierStart(pageName: string): HierState {
    HierState([pageName], [], [], 0)
  }

  /** `flush_paragraph`: the buffered lines, joined and stripped, become the next chunk
      when they hold any text; the buffer is emptied either way. */
  function Flushed(st: HierState): HierState {
    if st.current == [] then st
    else
      var text := Strip(Join(st.current, "\n"));
      if text != [] then
        HierState(st.stack, st.chunks + [HChunk(Join(st.stack, Breadcrumb), text, st.position)], [], st.position + 1)
      else
        st.(current := [])
  }

  /** One line of the loop: `^(#{1,6})\s+(.*)` on the stripped line decides whether it is
      a heading; a blank line flushes a non-empty buffer; any other line is buffered raw. */
  function HierStep(st: HierState, line: string): HierState {
    var s := Strip(line);
    if IsHeading(s, 6) then
      var f := Flushed(st);
      f.(stack := Descended(f.stack, HashRun(s), Strip(HeadingRest(s))))
    else if s == [] && st.current != [] then
      Flushed(st)
    else
      st.(current := st.current + [line])
  }

  /** The loop over `lines` from `st`; it stops right after the line that brings the
      number of chunks to `maxChunks`. */
  function HierLoop(st: HierState, lines: seq<string>, maxChunks: int): HierState
    decreases |lines|
  {
    if lines == [] then st
    else
      var next := HierStep(st, lines[0]);
      if |next.chunks| >= maxChunks then next else HierLoop(next, lines[1..], maxChunks)
  }

  lemma HierLoopUnfold(st: HierState, lines: seq<string>, i: nat, maxChunks: int)
    requires i < |lines|
    ensures var next := HierStep(st, lines[i]);
      HierLoop(st, lines[i..], maxChunks) ==
        if |next.chunks| >= maxChunks then next else HierLoop(next, lines[i + 1..], maxChunks)
  {
    assert lines[i..][0] == lines[i];
    assert lines[i..][1..] == lines[i + 1..];
  }

  /** `chunk_with_hierarchy(page_name, content, max_chunks)`. */
  function HierarchyChunks(pageName: string, content: string, maxChunks: int): seq<HChunk> {
    PyTake(Flushed(HierLoop(HierStart(pageName), Lines(content), maxChunks)).chunks, maxChunks)
  }

  /** Chunks are numbered 0, 1, 2, ... and carry non-empty stripped text; the counter is
      the next number. */
  predicate Numbered(st: HierState) {
    st.position == |st.chunks| &&
    forall i :: 0 <= i < |st.chunks| ==>
      st.chunks[i].position == i && st.chunks[i].chunk != [] && IsStripped(st.chunks[i].chunk)
  }

  lemma FlushedNumbered(st: HierState)
    requires Numbered(st)
    ensures Numbered(Flushed(st))
    ensures |st.chunks| <= |Flushed(st).chunks| <= |st.chunks| + 1
    ensures Flushed(st).current == []
  {
    if st.current != [] {
      StripIsStripped(Join(st.current, "\n"));
    }
  }

  lemma HierStepNumbered(st: HierState, line: string)
    requires Numbered(st)
    ensures Numbered(HierStep(st, line))
    ensures |st.chunks| <= |HierStep(st, line).chunks| <= |st.chunks| + 1
    ensures st.current == [] ==> HierStep(st, line).chunks == st.chunks
  {
    FlushedNumbered(st);
  }

  /** The loop keeps the numbering, and never goes past `maxChunks` chunks: each line adds
      at most one, and none while nothing is buffered. */
  lemma {:induction false} HierLoopNumbered(st: HierState, lines: seq<string>, maxChunks: int)
    requires Numbered(st)
    requires |st.chunks| < maxChunks || (st.current == [] && |st.chunks| <= maxChunks)
    ensures Numbered(HierLoop(st, lines, maxChunks))
    ensures |HierLoop(st, lines, maxChunks).chunks| <= maxChunks
    decreases |lines|
  {
    if lines != [] {
      var next := HierStep(st, lines[0]);
      HierStepNumbered(st, lines[0]);
      if |next.chunks| < maxChunks {
        HierLoopNumbered(next, lines[1..], maxChunks);
      }
    }
  }

  /** The result of `chunk_with_hierarchy` is numbered 0, 1, 2, ... with non-empty text,
      has at most `maxChunks` entries, and the final truncation drops at most one chunk. */
  lemma HierarchyChunksNumbered(pageName: string, content: string, maxChunks: int)
    ensures var r := HierarchyChunks(pageName, content, maxChunks);
      forall i :: 0 <= i < |r| ==> r[i].position == i && r[i].chunk != []
    ensures maxChunks >= 0 ==> |HierarchyChunks(pageName, content, maxChunks)| <= maxChunks
    ensures maxChunks >= 0 ==>
      |Flushed(HierLoop(HierStart(pageName), Lines(content), maxChunks)).chunks| <= maxChunks + 1
  {
    if maxChunks >= 0 {
      var st := HierLoop(HierStart(pageName), Lines(content), maxChunks);
      HierLoopNumbered(HierStart(pageName), Lines(content), maxChunks);
      FlushedNumbered(st);
    }
  }

  /** After a heading of level L the stack has exactly L entries and the last one is the
      heading's text; the pending paragraph is flushed first. */
  lemma HeadingSetsStack(st: HierState, line: string)
    requires IsHeading(Strip(line), 6)
    ensures var s := Strip(line);
      |HierStep(st, line).stack| == HashRun(s) &&
      HierStep(st, line).stack[HashRun(s) - 1] == Strip(HeadingRest(s))
    ensures HierStep(st, line).chunks == Flushed(st).chunks
    ensures HierStep(st, line).current == []
  {
    var s := Strip(line);
    var f := Flushed(st);
    DescendedShape(f.stack, HashRun(s), Strip(HeadingRest(s)));
  }

  /** A blank line ends the buffered paragraph: it is emitted when it holds text, and the
      buffer is emptied; the stack is untouched. */
  lemma BlankLineFlushes(st: HierState, line: string)
    requires Strip(line) == [] && st.current != []
    ensures HierStep(st, line).current == [] && HierStep(st, line).stack == st.stack
    ensures var text := Strip(Join(st.current, "\n"));
      HierStep(st, line).chunks ==
        st.chunks + (if text != [] then [HChunk(Join(st.stack, Breadcrumb), text, st.position)] else [])
  {
    assert !IsHeading(Strip(line), 6);
  }

  /** Any other non-heading line is buffered as it is, surrounding whitespace included. */
  lemma ContentLineBuffered(st: HierState, line: string)
    requires !IsHeading(Strip(line), 6) && (Strip(line) != [] || st.current == [])
    ensures HierStep(st, line) == st.(current := st.current + [line])
  {
  }

  // ---------------------------------------------------------------------------
  // The chunker object

  class SummaryChunker {
    const maxChunks: int

    constructor (maxChunks: int)
      ensures this.maxChunks == maxChunks
    {
      this.maxChunks := maxChunks;
    }

    constructor Default()
      ensures maxChunks == DefaultMaxChunks
    {
      maxChunks := DefaultMaxChunks;
    }

    /** `chunk_by_heading`: the stripped heading lines, in order, at most `maxChunks`. */
    method ChunkByHeading(summary: string) returns (headings: seq<string>)
      ensures headings == PyTake(HeadingLines(Lines(summary)), maxChunks)
    {
      var lines := Lines(summary);
      var found: seq<string> := [];
      for i := 0 to |lines|
        invariant found == HeadingLines(lines[..i])
      {
        var stripped := Strip(lines[i]);
        HeadingLinesSnoc(lines, i);
        if IsHeading(stripped, 6) {
          var headingText := Strip(stripped);
          StripIdempotent(lines[i]);
          if headingText != [] {
            found := found + [headingText];
          }
        }
      }
      assert lines[..|lines|] == lines;
      headings := PyTake(found, maxChunks);
    }

    /** `chunk_by_paragraphs`: the paragraphs under each heading, at most `maxChunks`. */
    method ChunkByParagraphs(summary: string) returns (result: seq<string>)
      ensures result == PyTake(ParagraphChunks(Lines(summary)), maxChunks)
    {
      var lines := Lines(summary);
      var chunks: seq<string> := [];
      var current: seq<string> := [];
      var insideCode := false;
      var started := false;
      for i := 0 to |lines|
        invariant ParaState(chunks, current, insideCode, started) == ParaRun(lines[..i])
      {
        var stripped := Strip(lines[i]);
        ParaRunSnoc(lines, i);
        if StartsWith(stripped, Fence) {
          insideCode := !insideCode;
          current := current + [stripped];
          continue;
        }
        if !insideCode && IsHeading(stripped, 6) {
          if started && current != [] {
            var joined := Joined(current);
            if Kept(joined) {
              chunks := chunks + [joined];
            }
            current := [];
          }
          started := true;
          continue;
        }
        if started {
          if !insideCode && stripped == Rule {
            continue;
          }
          current := current + [stripped];
        }
      }
      assert lines[..|lines|] == lines;
      if current != [] {
        var joined := Joined(current);
        if Kept(joined) {
          chunks := chunks + [joined];
        }
      }
      result := PyTake(chunks, maxChunks);
    }

    /** `attach_hierarchy`: one breadcrumb result per heading chunk. */
    method AttachHierarchy(chunks: seq<string>, pageName: string) returns (results: seq<Crumb>)
      ensures results == CrumbRun(pageName, chunks).results
    {
      results := [];
      var stack := [pageName];
      for i := 0 to |chunks|
        invariant CrumbState(stack, results) == CrumbRun(pageName, chunks[..i])
      {
        var chunk := chunks[i];
        CrumbRunSnoc(pageName, chunks, i);
        if IsHeadingAnyLevel(chunk) {
          var level := HashRun(chunk);
          var title := Strip(HeadingRest(chunk));
          ghost var resized := Resized(stack, level);
          if |stack| > level {
            stack := stack[..level];
          } else if |stack| < level {
            stack := PadStack(stack, level);
          }
          assert stack == resized;
          // The stack now has exactly `level` entries, so the source's branch that appends
          // the title instead of replacing the last entry is never taken.
          stack := stack[..level - 1] + [title];
          results := results + [Crumb(chunk, Context(stack))];
        }
      }
      assert chunks[..|chunks|] == chunks;
    }

    /** `chunk_with_hierarchy`: paragraphs with their heading breadcrumb and position. */
    method ChunkWithHierarchy(pageName: string, content: string, maxChunks: int := DefaultHierarchyMaxChunks) returns (result: seq<HChunk>)
      ensures result == HierarchyChunks(pageName, content, maxChunks)
    {
      var lines := Lines(content);
      var stack := [pageName];
      var chunks: seq<HChunk> := [];
      var current: seq<string> := [];
      var position: nat := 0;
      ghost var goal := HierLoop(HierStart(pageName), lines, maxChunks);
      var i := 0;
      while i < |lines|
        invariant 0 <= i <= |lines|
        invariant HierLoop(HierState(stack, chunks, current, position), lines[i..], maxChunks) == goal
      {
        HierLoopUnfold(HierState(stack, chunks, current, position), lines, i, maxChunks);
        stack, chunks, current, position := HandleLine(stack, chunks, current, position, lines[i]);
        i := i + 1;
        if |chunks| >= maxChunks {
          assert HierState(stack, chunks, current, position) == goal;
          break;
        }
      }
      if i == |lines| {
        assert lines[i..] == [];
      }
      assert HierState(stack, chunks, current, position) == goal;
      chunks, current, position := FlushParagraph(stack, chunks, current, position);
      result := PyTake(chunks, maxChunks);
    }
  }

  /** One round of `chunk_with_hierarchy`'s loop: a heading flushes the paragraph and
      moves the stack, a blank line ends a pending paragraph, any other line is buffered. */
  method HandleLine(stack: seq<string>, chunks: seq<HChunk>, current: seq<string>, position: nat, line: string)
    returns (stack': seq<string>, chunks': seq<HChunk>, current': seq<string>, position': nat)
    ensures HierState(stack', chunks', current', position') == HierStep(HierState(stack, chunks, current, position), line)
  {
    stack', chunks', current', position' := stack, chunks, current, position;
    var s := Strip(line);
    if IsHeading(s, 6) {
      chunks', current', position' := FlushParagraph(stack, chunks, current, position);
      var level := HashRun(s);
      var headingText := Strip(HeadingRest(s));
      stack' := Descend(stack, level, headingText);
    } else if s == [] && current != [] {
      chunks', current', position' := FlushParagraph(stack, chunks, current, position);
    } else {
      current' := current + [line];
    }
  }

  /** The nested `flush_paragraph` of `chunk_with_hierarchy`, on the state it shares. */
  method FlushParagraph(stack: seq<string>, chunks: seq<HChunk>, current: seq<string>, position: nat)
    returns (chunks': seq<HChunk>, current': seq<string>, position': nat)
    ensures HierState(stack, chunks', current', position') == Flushed(HierState(stack, chunks, current, position))
  {
    chunks', current', position' := chunks, current, position;
    if current != [] {
      var text := Strip(Join(current, "\n"));
      if text != [] {
        chunks' := chunks + [HChunk(Join(stack, Breadcrumb), text, position)];
        position' := position + 1;
      }
      current' := [];
    }
  }

  /** The loop that pads the stack with empty titles up to `level` entries. */
  method PadStack(stack: seq<string>, level: nat) returns (r: seq<string>)
    ensures |stack| >= level ==> r == stack
    ensures |stack| < level ==> r == stack + Blanks(level - |stack|) && |r| == level
  {
    r := stack;
    while |r| < level
      invariant |stack| <= |r|
      invariant |stack| < level ==> |r| <= level
      invariant |stack| >= level ==> r == stack
      invariant r == stack + Blanks(|r| - |stack|)
    {
      r := r + [[]];
    }
  }

  /** The stack update of `chunk_with_hierarchy`: pop down to `level` entries, pad up to
      `level` entries, then replace the last entry by the heading's text. */
  method Descend(stack: seq<string>, level: nat, title: string) returns (r: seq<string>)
    requires level >= 1
    ensures r == Descended(stack, level, title)
  {
    r := stack;
    while |r| > level
      invariant |r| <= |stack| && r == stack[..|r|]
      invariant |stack| > level ==> |r| >= level
      invariant |stack| <= level ==> r == stack
    {
      r := r[..|r| - 1];
    }
    r := PadStack(r, level);
    assert r == Resized(stack, level);
    r := r[..|r| - 1] + [title];
  }
}

=== FILE: descriptor.dfy ===
/**
 * `Descriptor`: the compact, one-phrase-per-section description of the established summary.
 * An update asks the model for a new descriptor, keeps it only when the reply carries one
 * between two `<<UPDATED_DESCRIPTOR>>` markers, and then saves it twice: as `current.txt`
 * and as a timestamped copy under `history/`.
 */
module Descriptors {
  import opened Wrappers
  import opened Text
  import opened ChatLog
  import opened Effects
  import opened EventLog
  import opened Generation
  import MarkdownParser
  import DescriptorPrompt

  const CurrentFile: string := "current.txt"
  const HistoryDir: string := "history"

  /** `os.path.join(dir, name)` for a relative `name`: a separator is inserted unless `dir`
      is empty or already ends with one. */
  function PathJoin(dir: string, name: string): (r: string)
    ensures r == dir + name || r == dir + "/" + name
    ensures r == dir + name <==> dir == [] || dir[|dir| - 1] == '/'
  {
    if dir == [] || dir[|dir| - 1] == '/' then dir + name
    else dir + "/" + name
  }

  function CurrentPath(baseDir: string): string {
    PathJoin(baseDir, CurrentFile)
  }

  /** `history/descriptor_<timestamp>.txt` under the base directory. */
  function HistoryPath(baseDir: string, timestamp: string): string {
    PathJoin(PathJoin(baseDir, HistoryDir), "descriptor_" + timestamp + ".txt")
  }

  /** The saved copy and the current file are never the same file: right after the base
      directory and its separator, one path reads `current.txt` and the other `history`. */
  lemma PathsDistinct(baseDir: string, timestamp: string)
    ensures CurrentPath(baseDir) != HistoryPath(baseDir, timestamp)
  {
    var cur := CurrentPath(baseDir);
    var hist := HistoryPath(baseDir, timestamp);
    var name := "descriptor_" + timestamp + ".txt";
    var sep := if baseDir == [] || baseDir[|baseDir| - 1] == '/' then "" else "/";
    var k := |baseDir + sep|;
    var hdir := PathJoin(baseDir, HistoryDir);
    assert hdir == baseDir + sep + HistoryDir;
    assert cur == baseDir + sep + CurrentFile;
    assert hdir != [] && hdir[|hdir| - 1] != '/';
    assert hist == hdir + "/" + name;
    assert hist[k] == hdir[k] == HistoryDir[0];
    assert cur[k] == CurrentFile[0];
  }

  /** What a text-mode `read()` returns for the characters on disk: universal newlines turn
      `\r\n` and a lone `\r` into `\n`. */
  function ReadText(s: string): (r: string)
    ensures '\r' !in r
    ensures |r| <= |s|
    decreases |s|
  {
    if s == [] then []
    else if s[0] == '\r' then
      if |s| > 1 && s[1] == '\n' then "\n" + ReadText(s[2..]) else "\n" + ReadText(s[1..])
    else [s[0]] + ReadText(s[1..])
  }

  /** Text without a carriage return reads back unchanged. */
  lemma {:induction false} ReadTextPlain(s: string)
    requires '\r' !in s
    ensures ReadText(s) == s
    decreases |s|
  {
    if s != [] {
      assert '\r' !in s[1..] by {
        forall i | 0 <= i < |s[1..]|
          ensures s[1..][i] != '\r'
        {
          assert s[1..][i] == s[i + 1];
        }
      }
      ReadTextPlain(s[1..]);
      assert s == [s[0]] + s[1..];
    }
  }

  /** Reading text that was already read changes nothing. */
  lemma ReadTextIdempotent(s: string)
    ensures ReadText(ReadText(s)) == ReadText(s)
  {
    ReadTextPlain(ReadText(s));
  }

  /** A Windows line break and a lone carriage return both read as `\n`. */
  lemma ReadTextExample()
    ensures ReadText("a\r\nb\rc") == "a\nb\nc"
  {
    assert ReadText("c") == "c";
    assert ReadText("\rc") == "\nc";
    assert ReadText("b\rc") == "b\nc";
    assert ReadText("\nb\rc") == "\nb\nc";
    assert ReadText("\r\nb\rc") == "\nb\nc";
  }

  /** `Descriptor.load(base_dir)`'s content: the text of `current.txt` as a text-mode read
      returns it, or empty. */
  function LoadedContent(files: map<string, string>, baseDir: string): string {
    if CurrentPath(baseDir) in files then ReadText(files[CurrentPath(baseDir)]) else ""
  }

  /** What a save leaves on disk: the content in both files. */
  function Saved(files: map<string, string>, baseDir: string, timestamp: string, content: string): map<string, string> {
    files[CurrentPath(baseDir) := content][HistoryPath(baseDir, timestamp) := content]
  }

  /** Loading after a save gives back the saved content with its line breaks read as `\n`,
      whatever was on disk before; content without `\r` comes back exactly. */
  lemma LoadAfterSave(files: map<string, string>, baseDir: string, timestamp: string, content: string)
    ensures LoadedContent(Saved(files, baseDir, timestamp, content), baseDir) == ReadText(content)
    ensures '\r' !in content ==> LoadedContent(Saved(files, baseDir, timestamp, content), baseDir) == content
  {
    PathsDistinct(baseDir, timestamp);
    if '\r' !in content {
      ReadTextPlain(content);
    }
  }

  /** A save touches exactly the two files and no other. */
  lemma SaveTouchesTwoFiles(files: map<string, string>, baseDir: string, timestamp: string, content: string)
    ensures var after := Saved(files, baseDir, timestamp, content);
      after.Keys == files.Keys + {CurrentPath(baseDir), HistoryPath(baseDir, timestamp)} &&
      after[CurrentPath(baseDir)] == content && after[HistoryPath(baseDir, timestamp)] == content &&
      forall p :: p in files && p != CurrentPath(baseDir) && p != HistoryPath(baseDir, timestamp) ==> after[p] == files[p]
  {
    PathsDistinct(baseDir, timestamp);
  }

  /** The model's reply to the descriptor prompt built from `oldContent` and `finalSummary`. */
  function DescriptorReply(w: World, before: seq<Event>, oldContent: string, finalSummary: string): string {
    w.answer(before + [Prompted(DescriptorRoute, DescriptorArgs(oldContent, finalSummary))],
             [Entry(UserRole, w.describe(oldContent, finalSummary))])
  }

  class Descriptor {
    var content: string
    const baseDir: string

    /** `Descriptor(base_dir, content="")`. */
    constructor (baseDir: string, content: string := "")
      ensures this.baseDir == baseDir && this.content == content
    {
      this.baseDir := baseDir;
      this.content := content;
    }

    /**
     * `update(final_summary="")`. The model is asked once, with the descriptor prompt built
     * from the content before the update. A reply without two markers is an error and
     * changes neither the content nor any file; otherwise the parsed text becomes the
     * content, is saved, and is returned.
     */
    method Update(world: World, timestamp: string, finalSummary: string := "") returns (r: Result<string, ChainError>)
      modifies this, world
      ensures var reply := DescriptorReply(world, old(world.log), old(content), finalSummary);
        var parsed := MarkdownParser.ParseUpdatedDescriptor(reply);
        Only(world.log, Prompts) == Only(old(world.log), Prompts) + [Prompted(DescriptorRoute, DescriptorArgs(old(content), finalSummary))] &&
        Only(world.log, Outward) == Only(old(world.log), Outward) &&
        Only(world.log, Calls) == Only(old(world.log), Calls) +
          [Completed([Entry(UserRole, world.describe(old(content), finalSummary))], reply)] &&
        (parsed.Err? ==> (
          r == Err(DescriptorNotFound) && content == old(content) &&
          world.files == old(world.files) && Only(world.log, Writes) == Only(old(world.log), Writes))) &&
        (parsed.Ok? ==> (
          r == Ok(parsed.value) && content == parsed.value &&
          world.files == Saved(old(world.files), baseDir, timestamp, content) &&
          Only(world.log, Writes) == Only(old(world.log), Writes) +
            [Wrote(CurrentPath(baseDir), content)] + [Wrote(HistoryPath(baseDir, timestamp), content)]))
    {
      ghost var before := world.log;
      BuildDescriptorRequest(world, before, content, finalSummary);
      AskShape(world, before, None, DescriptorRoute, DescriptorArgs(content, finalSummary));
      var generationChain := new GenerationChain(world);
      var output := generationChain.BuildDescriptor(content, finalSummary);
      assert output.Ok?;
      var parsed := MarkdownParser.ParseUpdatedDescriptor(output.value);
      if parsed.Err? {
        return Err(DescriptorNotFound);
      }
      content := parsed.value;
      ghost var asked := world.log;
      SaveWithHistory(world, timestamp);
      LogOfWrites(asked, world.log, Wrote(CurrentPath(baseDir), content), Wrote(HistoryPath(baseDir, timestamp), content));
      r := Ok(content);
    }

    /** `_save_with_history`: the content to `current.txt`, then to the timestamped copy. */
    method SaveWithHistory(world: World, timestamp: string)
      modifies world
      ensures world.files == Saved(old(world.files), baseDir, timestamp, content)
      ensures world.log == old(world.log) + [Wrote(CurrentPath(baseDir), content)] + [Wrote(HistoryPath(baseDir, timestamp), content)]
    {
      var historyDir := PathJoin(baseDir, HistoryDir);
      var currentPath := PathJoin(baseDir, CurrentFile);
      world.Write(currentPath, content);
      var historyPath := PathJoin(historyDir, "descriptor_" + timestamp + ".txt");
      world.Write(historyPath, content);
    }

    /** `Descriptor.load(base_dir)`. */
    static method Load(world: World, baseDir: string) returns (d: Descriptor)
      ensures fresh(d) && d.baseDir == baseDir
      ensures d.content == LoadedContent(world.files, baseDir)
    {
      var currentPath := PathJoin(baseDir, CurrentFile);
      if currentPath in world.files {
        d := new Descriptor(baseDir, ReadText(world.files[currentPath]));
      } else {
        d := new Descriptor(baseDir, "");
      }
    }
  }
}

=== FILE: descriptor_prompt.dfy ===
/**
 * `build_prompt(old_descriptor, final_summary="")`: the prompt that asks the model for a
 * new descriptor. A blank old descriptor selects the first-time wording; anything else
 * selects the update wording, which also embeds the old descriptor. Both variants end with
 * the output instructions: the new descriptor between two `<<UPDATED_DESCRIPTOR>>` markers.
 */
module DescriptorPrompt {
  import opened Text
  import opened Wrappers
  import opened MarkdownParser

  /** The fixed wording around the interpolated values of the two variants: the first-time
      variant is `initialHead + final_summary + initialTail`, the update variant is
      `updateHead + old_descriptor + updateMiddle + final_summary + updateTail`. Both are
      followed by the output block and then stripped. */
  datatype Wording = Wording(
    initialHead: string, initialTail: string,
    updateHead: string, updateMiddle: string, updateTail: string)

  const DefaultFinalSummary: string := ""
  const Placeholder: string := "<new descriptor here>"

  /** The line between the two markers of the output instructions. */
  const PlaceholderLine: string := "\n" + Placeholder + "\n"

  /** The output instructions both variants end with. */
  const OutputBlock: string := DescriptorMarker + PlaceholderLine + DescriptorMarker

  /** The text in front of the output block, before stripping. */
  function Body(w: Wording, oldDescriptor: string, finalSummary: string): string {
    if Strip(oldDescriptor) == [] then w.initialHead + finalSummary + w.initialTail
    else w.updateHead + oldDescriptor + w.updateMiddle + finalSummary + w.updateTail
  }

  /** The prompt for a given wording: body, output block and the closing newline, stripped. */
  function Render(w: Wording, oldDescriptor: string, finalSummary: string): (r: string)
    ensures IsStripped(r)
  {
    StripIsStripped(Body(w, oldDescriptor, finalSummary) + OutputBlock + "\n");
    Strip(Body(w, oldDescriptor, finalSummary) + OutputBlock + "\n")
  }

  lemma OutputBlockEnds()
    ensures OutputBlock != [] && OutputBlock[0] == '<' && OutputBlock[|OutputBlock| - 1] == '>'
  {
    var d := DescriptorMarker;
    assert d[0] == '<' && d[|d| - 1] == '>';
    assert OutputBlock[0] == d[0];
    assert OutputBlock[|OutputBlock| - 1] == d[|d| - 1];
  }

  /** The prompt is the body without its leading whitespace, then the output block: the
      trailing newline is the only thing stripped at the end. */
  lemma RenderShape(w: Wording, oldDescriptor: string, finalSummary: string)
    ensures Render(w, oldDescriptor, finalSummary) ==
      DropSpaces(Body(w, oldDescriptor, finalSummary)) + OutputBlock
  {
    OutputBlockEnds();
    StripAround(Body(w, oldDescriptor, finalSummary), OutputBlock, "\n");
  }

  /** A blank or whitespace-only old descriptor selects the first-time variant, which does
      not depend on it; any other selects the update variant. */
  lemma VariantChoice(w: Wording, oldDescriptor: string, finalSummary: string)
    ensures Strip(oldDescriptor) == [] ==>
      Render(w, oldDescriptor, finalSummary) == Render(w, "", finalSummary)
    ensures Strip(oldDescriptor) == [] ==>
      Render(w, oldDescriptor, finalSummary) == DropSpaces(w.initialHead + finalSummary + w.initialTail) + OutputBlock
    ensures Strip(oldDescriptor) != [] ==>
      Render(w, oldDescriptor, finalSummary) ==
        DropSpaces(w.updateHead + oldDescriptor + w.updateMiddle + finalSummary + w.updateTail) + OutputBlock
  {
    RenderShape(w, oldDescriptor, finalSummary);
    RenderShape(w, "", finalSummary);
    assert Strip("") == [];
  }

  /** When the first-time wording opens with some non-blank text, the prompt is that
      wording without its leading whitespace, `final_summary` verbatim, the rest of the
      wording and the output instructions. */
  lemma InitialPrompt(w: Wording, oldDescriptor: string, finalSummary: string)
    requires Strip(oldDescriptor) == [] && Strip(w.initialHead) != []
    ensures Render(w, oldDescriptor, finalSummary) ==
      DropSpaces(w.initialHead) + finalSummary + w.initialTail + OutputBlock
  {
    var h, f, t := w.initialHead, finalSummary, w.initialTail;
    RenderShape(w, oldDescriptor, finalSummary);
    AppendAssoc(h, f, t);
    DropSpacesFront(h, f + t);
    AppendAssoc(DropSpaces(h), f, t);
  }

  lemma Regroup(a: string, b: string, c: string, d: string, e: string)
    ensures a + b + c + d + e == a + (b + c + d + e)
  {
  }

  /** When the update wording opens with some non-blank text, the prompt is that wording
      without its leading whitespace, `old_descriptor` verbatim, the middle wording,
      `final_summary` verbatim, the rest of the wording and the output instructions. */
  lemma UpdatePrompt(w: Wording, oldDescriptor: string, finalSummary: string)
    requires Strip(oldDescriptor) != [] && Strip(w.updateHead) != []
    ensures Render(w, oldDescriptor, finalSummary) == DropSpaces(w.updateHead) +
      oldDescriptor + w.updateMiddle + finalSummary + w.updateTail + OutputBlock
  {
    var h, o, mid, f, t := w.updateHead, oldDescriptor, w.updateMiddle, finalSummary, w.updateTail;
    RenderShape(w, oldDescriptor, finalSummary);
    Regroup(h, o, mid, f, t);
    DropSpacesFront(h, o + mid + f + t);
    Regroup(DropSpaces(h), o, mid, f, t);
  }

  lemma PlaceholderLineFree()
    ensures !Contains(PlaceholderLine, DescriptorMarker)
  {
    var t := PlaceholderLine;
    var d := DescriptorMarker;
    assert |t| == 23 && |d| == 22;
    forall k | 0 <= k && k + |d| <= |t|
      ensures !OccursAt(t, d, k)
    {
      if k == 0 {
        assert t[k..k + |d|][0] != d[0];
      } else {
        assert t[k..k + |d|][1] != d[1];
      }
    }
  }

  lemma SuffixFree(s: string, n: nat, d: string)
    requires n <= |s| && !Contains(s, d)
    ensures !Contains(s[n..], d)
  {
    forall k | OccursAt(s[n..], d, k)
      ensures OccursAt(s, d, n + k)
    {
      assert s[n..][k..k + |d|] == s[n + k..n + k + |d|];
    }
  }

  /** In `pre + d + t + d` with `d` in neither `pre` nor `t`, `d` occurs at the two places
      shown and nowhere else. */
  lemma TwoOccurrences(pre: string, d: string, t: string)
    requires BorderFree(d) && !Contains(pre, d) && !Contains(t, d)
    ensures forall k :: OccursAt(pre + d + t + d, d, k) <==> k == |pre| || k == |pre| + |d| + |t|
  {
    var r := pre + d + t + d;
    WrappedOccurrences(pre, d, t, []);
    assert pre + d + t + d + [] == r;
    assert r == pre + d + (t + d);
    forall k | OccursAt(r, d, k)
      ensures k == |pre| || k == |pre| + |d| + |t|
    {
      OccurrenceSplit(pre, d, t + d, k);
      if k != |pre| {
        assert !OccursAt(pre, d, k);
        assert t + d == t + d + [];
        OccurrenceSplit(t, d, [], k - |pre| - |d|);
        assert !OccursAt(t, d, k - |pre| - |d|);
      }
    }
  }

  /** When the wording and the embedded texts do not contain the marker, it occurs in the
      prompt exactly twice, around the placeholder, and parsing the prompt's own output
      instructions gives the placeholder back. */
  lemma MarkerExactlyTwice(w: Wording, oldDescriptor: string, finalSummary: string)
    requires !Contains(Body(w, oldDescriptor, finalSummary), DescriptorMarker)
    ensures var r := Render(w, oldDescriptor, finalSummary);
      var i := |r| - |OutputBlock|;
      var j := |r| - |DescriptorMarker|;
      i >= 0 && forall k :: OccursAt(r, DescriptorMarker, k) <==> k == i || k == j
    ensures ParseUpdatedDescriptor(Render(w, oldDescriptor, finalSummary)) == Ok(Placeholder)
  {
    var d, t := DescriptorMarker, PlaceholderLine;
    var body := Body(w, oldDescriptor, finalSummary);
    var pre := DropSpaces(body);
    RenderShape(w, oldDescriptor, finalSummary);
    AppendAssoc(pre, d + t, d);
    AppendAssoc(pre, d, t);
    SuffixFree(body, LeadCount(body, PyWhitespace), d);
    PlaceholderLineFree();
    DescriptorMarkerBorderFree();
    TwoOccurrences(pre, d, t);
    assert !Contains([], d);
    assert pre + d + t + d + [] == pre + d + t + d;
    DescriptorRoundTrip(pre, t, []);
    PlaceholderLineStrips();
  }

  lemma PlaceholderLineStrips()
    ensures Strip(PlaceholderLine) == Placeholder
  {
    assert Placeholder[0] == '<' && Placeholder[|Placeholder| - 1] == '>';
    StripPadded("\n", Placeholder, "\n");
  }

  /** `build_prompt(old_descriptor, final_summary)`, with the repository's wording; every
      property above holds of it with `w := SourceWording()`. */
  function BuildPrompt(oldDescriptor: string, finalSummary: string): string {
    Render(SourceWording(), oldDescriptor, finalSummary)
  }

  /** The wording of `descriptor_prompt.py`. */
  function SourceWording(): Wording {
    Wording(
      "\n"
      + "You are responsible for creating a compact, high-level descriptor of a large markdown summary for the first time.\n"
      + "\n"
      + "The descriptor is a single string. It follows this format:\n"
      + "\n"
      + "First line: A brief global summary of the entire summary (short but comprehensive).\n"
      + "\n"
      + "Then: A few (3\U{2013}5 max) bullet points summarizing the main topics and key takeaways.\n"
      + "\n"
      + "Bullets should be rewritten or merged if needed to avoid growing linearly.\n"
      + "\n"
      + "Each bullet must be short (one phrase or sentence) and describe what the summary is stating overall.\n"
      + "\n"
      + "Example:\n"
      + "    Global: Covers climate change causes, effects, and solutions  \n"
      + "    - Explains greenhouse gas emissions and how they drive warming  \n"
      + "    - Highlights major sources like CO2 from fossil fuels and methane from agriculture  \n"
      + "    - Outlines mitigation strategies and potential solutions  \n"
      + "\n"
      + "\n"
      + "---\n"
      + "\n"
      + "**Initial Summary:**\n",
      "\n"
      + "\n"
      + "---\n"
      + "\n"
      + "Your task: **Create the initial descriptor** based solely on the final summary.  \n"
      + "Keep it concise and global in nature. Avoid detailed hierarchy; instead, merge topics into broad bullets. \n"
      + "\n"
      + "Output with delimiters:\n"
      + "\n",
      "\n"
      + "You are responsible for maintaining a compact, high-level descriptor of a large markdown summary.\n"
      + "\n"
      + "The descriptor is a single string. It follows this format:\n"
      + "\n"
      + "First line: A brief global summary of the entire summary so far (short but comprehensive).\n"
      + "\n"
      + "Then: A few (5\U{2013}20 max) bullet points summarizing the main topics and key takeaways.\n"
      + "\n"
      + "Bullets should be rewritten or merged if needed to avoid growing linearly.\n"
      + "\n"
      + "Each bullet must be short (one phrase or sentence) and capture the overall scope of the summary.\n"
      + "\n"
      + "\n"
      + "\n"
      + "Global: Covers climate change causes, impacts, mitigation strategies, and global policies\n"
      + "    - Causes of Climate Change: Greenhouse gases from human activities  \n"
      + "    - CO2 Emissions: Major sources include fossil fuels, transportation, and industry  \n"
      + "    - Methane Emissions: Agriculture, landfills, and natural sources contribute significantly  \n"
      + "    - Effects on Climate: Rising temperatures, extreme weather, and sea level rise  \n"
      + "    - Impact on Ecosystems: Habitat loss, species migration, and biodiversity decline  \n"
      + "    - Societal Effects: Health risks, food security challenges, and economic costs  \n"
      + "    - Mitigation Strategies: Renewable energy, energy efficiency, and carbon capture  \n"
      + "    - Adaptation Measures: Infrastructure resilience and disaster preparedness  \n"
      + "    - International Policies: Paris Agreement and global cooperation efforts  \n"
      + "    - Future Outlook: Importance of urgent action and sustainable development  \n"
      + "\n"
      + "\n"
      + "---\n"
      + "\n"
      + "**Old Descriptor:**\n",
      "\n"
      + "\n"
      + "**New Final Summary:**\n",
      "\n"
      + "\n"
      + "---\n"
      + "\n"
      + "Your task: Update the descriptor by merging the old descriptor with the new final summary.\n"
      + "\n"
      + "Preserve the overall context of the old descriptor but rewrite bullets when needed so the descriptor stays short and relevant.\n"
      + "\n"
      + "Merge and rewrite content from the new summary into the existing bullets instead of simply appending it.\n"
      + "\n"
      + "Keep it compact: Do not add too many bullets. Combine related points where possible.\n"
      + "\n"
      + "Ensure the global summary line reflects the entire scope.\n"
      + "\n"
      + "The descriptor must be self-contained and not overly detailed\U{2014}focus on global topics and key themes.\n"
      + "\n"
      + "\n"
      + "\n"
      + "Output with delimiters:\n"
      + "\n")
  }
}

=== FILE: effects.dfy ===
/**
 * The log of effects: every call into the world outside the model, in order, and the
 * events of one kind read off it.
 */
module EventLog {
  import opened Wrappers
  import opened ChatLog
  import HeadingTree

  /** The `(feature, prompt_type)` pair that selects `app.prompts.<feature>.<prompt_type>_prompt`. */
  datatype Route = Route(feature: string, promptType: string)

  /** A keyword argument of a prompt builder: a string, or a heading forest. */
  datatype Arg = Str(s: string) | Forest(nodes: seq<HeadingTree.Node>)

  type Args = map<string, Arg>

  datatype Event =
    | Prompted(route: Route, args: Args)
    | Completed(messages: seq<Entry>, response: string)
    | Wrote(path: string, text: string)
    | SessionSaved(history: seq<Entry>)
    | Pushed(pushed: Option<string>)


  /** The kinds of effect, for reading one kind off a log. */
  datatype Kind = Prompts | Calls | Writes | Outward

  predicate OfKind(e: Event, k: Kind) {
    match k
    case Prompts => e.Prompted?
    case Calls => e.Completed?
    case Writes => e.Wrote?
    case Outward => e.SessionSaved? || e.Pushed?
  }

  /** The events of one kind in a log, in order. */
  function Only(log: seq<Event>, k: Kind): (r: seq<Event>)
    decreases |log|
  {
    if log == [] then []
    else Only(log[..|log| - 1], k) + (if OfKind(log[|log| - 1], k) then [log[|log| - 1]] else [])
  }

  /** Filtering a log commutes with appending to it. */
  lemma {:induction false} OnlyAppend(a: seq<Event>, b: seq<Event>, k: Kind)
    ensures Only(a + b, k) == Only(a, k) + Only(b, k)
    decreases |b|
  {
    if b == [] {
      assert a + b == a;
    } else {
      var n := |b| - 1;
      assert (a + b)[..|a + b| - 1] == a + b[..n];
      assert (a + b)[|a + b| - 1] == b[n];
      OnlyAppend(a, b[..n], k);
    }
  }

  lemma OnlySnoc(a: seq<Event>, e: Event, k: Kind)
    ensures OfKind(e, k) ==> Only(a + [e], k) == Only(a, k) + [e]
    ensures !OfKind(e, k) ==> Only(a + [e], k) == Only(a, k)
  {
    assert (a + [e])[..|a|] == a;
  }

  /** A prompt followed by a model call: one more prompt, one more call, nothing else. */
  lemma LogOfCall(before: seq<Event>, log: seq<Event>, p: Event, c: Event)
    requires p.Prompted? && c.Completed? && log == before + [p] + [c]
    ensures log[..|before|] == before
    ensures Only(log, Prompts) == Only(before, Prompts) + [p]
    ensures Only(log, Calls) == Only(before, Calls) + [c]
    ensures Only(log, Writes) == Only(before, Writes)
    ensures Only(log, Outward) == Only(before, Outward)
  {
    assert log[..|before|] == before;
    OnlyTwo(before, p, c, Prompts);
    OnlyTwo(before, p, c, Calls);
    OnlyTwo(before, p, c, Writes);
    OnlyTwo(before, p, c, Outward);
  }

  /** A prompt alone, when its import fails. */
  lemma LogOfPrompt(before: seq<Event>, log: seq<Event>, p: Event)
    requires p.Prompted? && log == before + [p]
    ensures log[..|before|] == before
    ensures Only(log, Prompts) == Only(before, Prompts) + [p]
    ensures Only(log, Calls) == Only(before, Calls)
    ensures Only(log, Writes) == Only(before, Writes)
    ensures Only(log, Outward) == Only(before, Outward)
  {
    assert log[..|before|] == before;
    OnlySnoc(before, p, Prompts);
    OnlySnoc(before, p, Calls);
    OnlySnoc(before, p, Writes);
    OnlySnoc(before, p, Outward);
  }

  /** Two file writes: two more writes, nothing else. */
  lemma LogOfWrites(before: seq<Event>, log: seq<Event>, w1: Event, w2: Event)
    requires w1.Wrote? && w2.Wrote? && log == before + [w1] + [w2]
    ensures Only(log, Prompts) == Only(before, Prompts)
    ensures Only(log, Calls) == Only(before, Calls)
    ensures Only(log, Writes) == Only(before, Writes) + [w1] + [w2]
    ensures Only(log, Outward) == Only(before, Outward)
  {
    OnlyTwo(before, w1, w2, Prompts);
    OnlyTwo(before, w1, w2, Calls);
    OnlyTwo(before, w1, w2, Writes);
    OnlyTwo(before, w1, w2, Outward);
    OnlySnoc(before, w1, Writes);
    OnlySnoc(before + [w1], w2, Writes);
  }

  lemma Assoc4(a: seq<Event>, b: seq<Event>, c: seq<Event>, d: seq<Event>, e: seq<Event>)
    ensures a + b + c + d + e == a + (b + c + d + e)
  {
  }

  /** What two events add to the events of one kind. */
  lemma OnlyTwo(a: seq<Event>, p: Event, c: Event, k: Kind)
    ensures !OfKind(p, k) && !OfKind(c, k) ==> Only(a + [p] + [c], k) == Only(a, k)
    ensures OfKind(p, k) && !OfKind(c, k) ==> Only(a + [p] + [c], k) == Only(a, k) + [p]
    ensures !OfKind(p, k) && OfKind(c, k) ==> Only(a + [p] + [c], k) == Only(a, k) + [c]
  {
    OnlySnoc(a, p, k);
    OnlySnoc(a + [p], c, k);
  }

}

/**
 * What the chains, the descriptor and the pipeline do to the world outside the model: load a
 * prompt (the `importlib` lookup of `app/prompts/base.py`), ask the language model
 * (`GroqModel.chat_completion`), write a file, save the session's chat history, push to
 * Notion. Every such effect is appended to one event log, so the order of effects is part
 * of the state a contract can talk about.
 */
module Effects {
  import opened Wrappers
  import opened ChatLog
  import opened EventLog
  import DescriptorPrompt

  datatype ChainError =
    | PromptMissing(route: Route)   // no such module, no `build_prompt`, or it rejects the arguments
    | DescriptorNotFound            // `parse_updated_descriptor` raised

  const SummarizationFeature: string := "summarization"
  const DescriptorRoute: Route := Route(SummarizationFeature, "descriptor")

  /** A string keyword argument, or `dflt` when it is absent or not a string. */
  function StrArg(args: Args, key: string, dflt: string): string {
    if key in args && args[key].Str? then args[key].s else dflt
  }

  /** The keyword arguments `build_prompt(old_descriptor, final_summary="")` accepts: no
      other name, and a string `old_descriptor` (a heading forest has no `.strip()`). */
  predicate DescriptorKwargs(args: Args) {
    args.Keys <= {"old_descriptor", "final_summary"} && "old_descriptor" in args && args["old_descriptor"].Str?
  }

  /** The prompt a route builds from its arguments. The descriptor prompt is the one modelled
      here, built by `describe` from the old descriptor and the final summary; every other
      prompt comes from `registry`, `None` standing for a failed import or a `build_prompt`
      that raises. A descriptor call with a missing, unknown or non-string `old_descriptor`
      argument raises as well. */
  function PromptFor(registry: (Route, Args) -> Option<string>, describe: (string, string) -> string,
                     route: Route, args: Args): (r: Option<string>)
    ensures route == DescriptorRoute ==>
      (r.Some? <==> args.Keys <= {"old_descriptor", "final_summary"} &&
                    "old_descriptor" in args && args["old_descriptor"].Str?)
    ensures route == DescriptorRoute && r.Some? ==>
      r.value == describe(args["old_descriptor"].s, StrArg(args, "final_summary", DescriptorPrompt.DefaultFinalSummary))
    ensures route != DescriptorRoute ==> r == registry(route, args)
  {
    if route == DescriptorRoute then
      if DescriptorKwargs(args) then
        Some(describe(args["old_descriptor"].s, StrArg(args, "final_summary", DescriptorPrompt.DefaultFinalSummary)))
      else None
    else registry(route, args)
  }

  /** The messages a chain sends: its context history (none meaning empty) followed by the
      prompt as a user message. */
  function Request(contextHistory: Option<seq<Entry>>, prompt: string): (r: seq<Entry>)
    ensures |r| == |contextHistory.GetOr([])| + 1
    ensures r[..|r| - 1] == contextHistory.GetOr([]) && r[|r| - 1] == Entry(UserRole, prompt)
  {
    contextHistory.GetOr([]) + [Entry(UserRole, prompt)]
  }

  /** What a run without context history sends for a route: the built prompt as the one
      user message (nothing when the prompt cannot be built). */
  function Sent(w: World, route: Route, args: Args): seq<Entry> {
    match PromptFor(w.registry, w.describe, route, args)
    case Some(p) => Request(None, p)
    case None => []
  }

  /** A chain's `run` as a whole: its result and the log after it. */
  datatype Outcome = Outcome(result: Result<string, ChainError>, log: seq<Event>)

  /**
   * The world outside the model. `registry` is the prompt lookup, `answer` the language
   * model: its reply may depend on everything that happened before (so two identical
   * requests need not get the same reply, and a failed request is just a reply of `""`).
   * `describe` builds the descriptor prompt: `DescriptorPrompt.Render` with the fixed
   * `wording` (see `Renders`). `files` is the file system, as a map from path to text.
   */
  class World {
    const registry: (Route, Args) -> Option<string>
    const wording: DescriptorPrompt.Wording
    const describe: (string, string) -> string
    const answer: (seq<Event>, seq<Entry>) -> string
    var files: map<string, string>
    var log: seq<Event>

    /** The descriptor prompt is rendered from the wording. */
    ghost predicate Renders() {
      forall oldDescriptor: string, finalSummary: string ::
        describe(oldDescriptor, finalSummary) == DescriptorPrompt.Render(wording, oldDescriptor, finalSummary)
    }

    /** The repository's world has `wording == DescriptorPrompt.SourceWording()`. */
    constructor (registry: (Route, Args) -> Option<string>, wording: DescriptorPrompt.Wording,
                 answer: (seq<Event>, seq<Entry>) -> string, files: map<string, string>)
      ensures this.registry == registry && this.wording == wording && this.answer == answer
      ensures Renders()
      ensures this.files == files && log == []
    {
      this.registry := registry;
      this.wording := wording;
      this.describe := (o: string, f: string) => DescriptorPrompt.Render(wording, o, f);
      this.answer := answer;
      this.files := files;
      log := [];
    }

    /** The outcome of one `run`: load the prompt, then, if there is one, send the request
        and return the reply. */
    function Ask(before: seq<Event>, contextHistory: Option<seq<Entry>>, route: Route, args: Args): (o: Outcome)
      ensures PromptFor(registry, describe, route, args).None? ==>
        o == Outcome(Err(PromptMissing(route)), before + [Prompted(route, args)])
      ensures PromptFor(registry, describe, route, args).Some? ==>
        var sent := Request(contextHistory, PromptFor(registry, describe, route, args).value);
        var reply := answer(before + [Prompted(route, args)], sent);
        o == Outcome(Ok(reply), before + [Prompted(route, args)] + [Completed(sent, reply)])
    {
      match PromptFor(registry, describe, route, args)
      case None => Outcome(Err(PromptMissing(route)), before + [Prompted(route, args)])
      case Some(prompt) =>
        var sent := Request(contextHistory, prompt);
        var reply := answer(before + [Prompted(route, args)], sent);
        Outcome(Ok(reply), before + [Prompted(route, args)] + [Completed(sent, reply)])
    }

    /** `PromptHandler(feature, prompt_type, **kwargs)._load_prompt()`. */
    method LoadPrompt(route: Route, args: Args) returns (prompt: Option<string>)
      modifies this
      ensures prompt == PromptFor(registry, describe, route, args)
      ensures log == old(log) + [Prompted(route, args)] && files == old(files)
    {
      prompt := PromptFor(registry, describe, route, args);
      log := log + [Prompted(route, args)];
    }

    /** `GroqModel.chat_completion(messages)`. */
    method ChatCompletion(messages: seq<Entry>) returns (reply: string)
      modifies this
      ensures reply == answer(old(log), messages)
      ensures log == old(log) + [Completed(messages, reply)] && files == old(files)
    {
      reply := answer(log, messages);
      log := log + [Completed(messages, reply)];
    }

    /** `open(path, "w").write(text)`. */
    method Write(path: string, text: string)
      modifies this
      ensures files == old(files)[path := text]
      ensures log == old(log) + [Wrote(path, text)]
    {
      files := files[path := text];
      log := log + [Wrote(path, text)];
    }

    /** `SessionManager.save()`: the chat history goes to the session's file. */
    method SaveSession(history: seq<Entry>)
      modifies this
      ensures log == old(log) + [SessionSaved(history)] && files == old(files)
    {
      log := log + [SessionSaved(history)];
    }

    /** `NotionManager.write_to_notion(text)`. */
    method Push(text: Option<string>)
      modifies this
      ensures log == old(log) + [Pushed(text)] && files == old(files)
    {
      log := log + [Pushed(text)];
    }
  }

  /** One `run` prompts exactly its route, with its arguments, and makes at most one model
      call; it writes nothing and does nothing outward. On success the model saw the context
      history and then the prompt, and its reply is the result. */
  lemma AskShape(w: World, before: seq<Event>, contextHistory: Option<seq<Entry>>, route: Route, args: Args)
    ensures var o := w.Ask(before, contextHistory, route, args);
      o.log[..|before|] == before &&
      Only(o.log, Prompts) == Only(before, Prompts) + [Prompted(route, args)] &&
      Only(o.log, Writes) == Only(before, Writes) &&
      Only(o.log, Outward) == Only(before, Outward) &&
      (o.result.Ok? <==> PromptFor(w.registry, w.describe, route, args).Some?) &&
      (o.result.Ok? ==>
        Only(o.log, Calls) == Only(before, Calls) +
          [Completed(contextHistory.GetOr([]) + [Entry(UserRole, PromptFor(w.registry, w.describe, route, args).value)], o.result.value)])
  {
    var o := w.Ask(before, contextHistory, route, args);
    var p := Prompted(route, args);
    var prompt := PromptFor(w.registry, w.describe, route, args);
    if prompt.Some? {
      var sent := Request(contextHistory, prompt.value);
      var c := Completed(sent, o.result.value);
      LogOfCall(before, o.log, p, c);
    } else {
      LogOfPrompt(before, o.log, p);
    }
  }

  /** With no context history, `run` behaves as with an empty one. */
  lemma AskNoHistory(w: World, before: seq<Event>, route: Route, args: Args)
    ensures w.Ask(before, None, route, args) == w.Ask(before, Some([]), route, args)
  {
  }
}

=== FILE: generation_chain.dfy ===
/**
 * `GenerationChain`: one prompt, one model call. `Run` loads the prompt of a route, sends it
 * after the context history and returns the reply; the other methods are `Run` with a fixed
 * route and fixed keyword arguments.
 */
module Generation {
  import opened Wrappers
  import opened ChatLog
  import opened Effects
  import opened EventLog
  import DescriptorPrompt

  const GenerationPrompt: string := "generation"
  const CondensedPrompt: string := "condensed"
  const RegenerationPrompt: string := "regeneration"
  const DescriptorPromptType: string := "descriptor"
  const QaPrompt: string := "qa"
  const QuestionAnsweringFeature: string := "question_answering"
  const QaVideoFeature: string := "qa_video"

  class GenerationChain {
    /** `GroqModel()`: the chain's handle on the language model. */
    const model: World

    constructor (model: World)
      ensures this.model == model
    {
      this.model := model;
    }

    /** `run`: load the prompt (a failed import ends the call), send the copied context
        history followed by the prompt, return the reply. The caller's history is a value
        here, so the copy leaves it untouched by construction. */
    method Run(contextHistory: Option<seq<Entry>> := None, promptType: string := GenerationPrompt,
               feature: string := SummarizationFeature, args: Args)
      returns (r: Result<string, ChainError>)
      modifies model
      ensures Outcome(r, model.log) == model.Ask(old(model.log), contextHistory, Route(feature, promptType), args)
      ensures model.files == old(model.files)
    {
      var context := contextHistory.GetOr([]);
      var prompt := model.LoadPrompt(Route(feature, promptType), args);
      if prompt.None? {
        return Err(PromptMissing(Route(feature, promptType)));
      }
      var history := context;
      history := history + [Entry(UserRole, prompt.value)];
      var response := model.ChatCompletion(history);
      history := history + [Entry(AssistantRole, response)];
      r := Ok(response);
    }

    /** `summarize(notes, prompt_type="generation")`. */
    method Summarize(notes: string, promptType: string := GenerationPrompt) returns (r: Result<string, ChainError>)
      modifies model
      ensures Outcome(r, model.log) ==
        model.Ask(old(model.log), None, Route(SummarizationFeature, promptType), map["input" := Str(notes)])
      ensures model.files == old(model.files)
    {
      r := Run(None, promptType, SummarizationFeature, map["input" := Str(notes)]);
    }

    /** `condense(retrieved_context)`. */
    method Condense(retrievedContext: string) returns (r: Result<string, ChainError>)
      modifies model
      ensures Outcome(r, model.log) ==
        model.Ask(old(model.log), None, Route(SummarizationFeature, CondensedPrompt), map["input" := Str(retrievedContext)])
      ensures model.files == old(model.files)
    {
      r := Run(None, CondensedPrompt, SummarizationFeature, map["input" := Str(retrievedContext)]);
    }

    /** `regenerate(initial_summary, critique)`. */
    method Regenerate(initialSummary: string, critique: string) returns (r: Result<string, ChainError>)
      modifies model
      ensures Outcome(r, model.log) ==
        model.Ask(old(model.log), None, Route(SummarizationFeature, RegenerationPrompt), RegenerationArgs(initialSummary, critique))
      ensures model.files == old(model.files)
    {
      r := Run(None, RegenerationPrompt, SummarizationFeature, RegenerationArgs(initialSummary, critique));
    }

    /** `build_descriptor(old_descriptor, final_summary)`, given the old descriptor's content. */
    method BuildDescriptor(oldDescriptor: string, finalSummary: string) returns (r: Result<string, ChainError>)
      modifies model
      ensures Outcome(r, model.log) == model.Ask(old(model.log), None, DescriptorRoute, DescriptorArgs(oldDescriptor, finalSummary))
      ensures model.files == old(model.files)
    {
      r := Run(None, DescriptorPromptType, SummarizationFeature, DescriptorArgs(oldDescriptor, finalSummary));
    }

    /** `question_answering(context, question)`. */
    method QuestionAnswering(context: string, question: string) returns (r: Result<string, ChainError>)
      modifies model
      ensures Outcome(r, model.log) ==
        model.Ask(old(model.log), None, Route(QuestionAnsweringFeature, QaPrompt), QaArgs(context, question))
      ensures model.files == old(model.files)
    {
      r := Run(None, QaPrompt, QuestionAnsweringFeature, QaArgs(context, question));
    }

    /** `question_answering_video(context, question)`: the same arguments, the video feature. */
    method QuestionAnsweringVideo(context: string, question: string) returns (r: Result<string, ChainError>)
      modifies model
      ensures Outcome(r, model.log) ==
        model.Ask(old(model.log), None, Route(QaVideoFeature, QaPrompt), QaArgs(context, question))
      ensures model.files == old(model.files)
    {
      r := Run(None, QaPrompt, QaVideoFeature, QaArgs(context, question));
    }
  }

  function RegenerationArgs(initialSummary: string, critique: string): Args {
    map["initial_summary" := Str(initialSummary), "critique" := Str(critique)]
  }

  function DescriptorArgs(oldDescriptor: string, finalSummary: string): Args {
    map["old_descriptor" := Str(oldDescriptor), "final_summary" := Str(finalSummary)]
  }

  function QaArgs(context: string, question: string): Args {
    map["context" := Str(context), "question" := Str(question)]
  }

  /** The descriptor route always has its prompt: the model is asked with exactly the
      descriptor prompt rendered from the old descriptor and the final summary, and nothing
      before it. */
  lemma BuildDescriptorRequest(w: World, before: seq<Event>, oldDescriptor: string, finalSummary: string)
    ensures var o := w.Ask(before, None, DescriptorRoute, DescriptorArgs(oldDescriptor, finalSummary));
      o.result.Ok? &&
      o.log == before + [Prompted(DescriptorRoute, DescriptorArgs(oldDescriptor, finalSummary))] +
                        [Completed([Entry(UserRole, w.describe(oldDescriptor, finalSummary))], o.result.value)]
  {
    var args := DescriptorArgs(oldDescriptor, finalSummary);
    assert "old_descriptor" in args && args["old_descriptor"] == Str(oldDescriptor);
    assert StrArg(args, "final_summary", DescriptorPrompt.DefaultFinalSummary) == finalSummary;
  }
}

=== FILE: headingtree.dfy ===
/**
 * `HeadingTreeBuilder.build_tree`: a flat list of markdown headings becomes a forest in one
 * pass, with a stack of the headings that are still open.
 *
 * The source appends each new node to its parent's `children` list at once and keeps
 * mutating that list through the alias held on the stack. Here the stack holds the open
 * frames by value (level, title, children closed so far); a frame is attached to its
 * parent when it is popped, and the open frames are attached when the result is read.
 * `Close` is the forest the source's aliased lists denote at any moment.
 */
module HeadingTree {
  import opened Wrappers
  import opened Text
  import opened HeadingSyntax

  /** A node of the result: `{"title": ..., "children": [...]}`. */
  datatype Node = Node(title: string, children: seq<Node>)

  /** A heading line the builder accepted. */
  datatype Heading = Heading(level: nat, title: string)

  /** A node together with the level of its heading, as the builder's stack entries hold it. */
  datatype LNode = LNode(level: nat, title: string, children: seq<LNode>)

  /** `re.match(r"^(#{1,6})\s+(.*)", s)`: the level is the number of `#`, the title is the
      rest of the line, stripped. */
  function ParseHeading(s: string): (r: Option<Heading>)
    ensures r.Some? <==> IsHeading(s, 6)
    ensures r.Some? ==> 1 <= r.value.level <= 6 && r.value.level < |s|
    ensures r.Some? ==> (forall i :: 0 <= i < r.value.level ==> s[i] == '#') && IsSpace(s[r.value.level])
    ensures r.Some? ==> IsStripped(r.value.title) && '\n' !in r.value.title
  {
    if IsHeading(s, 6) then
      StripIsStripped(HeadingRest(s));
      Some(Heading(HashRun(s), Strip(HeadingRest(s))))
    else None
  }

  /** The headings of `lines` that match, in input order. */
  function Parsed(lines: seq<string>): (hs: seq<Heading>)
    ensures |hs| <= |lines|
    ensures forall i :: 0 <= i < |hs| ==> 1 <= hs[i].level <= 6
    decreases |lines|
  {
    if lines == [] then []
    else
      var init := Parsed(lines[..|lines| - 1]);
      match ParseHeading(lines[|lines| - 1])
      case None => init
      case Some(h) => init + [h]
  }

  // ---------------------------------------------------------------------------
  // The specification: insertion on the right spine

  function Leaf(h: Heading): LNode {
    LNode(h.level, h.title, [])
  }

  function AddChild(p: LNode, c: LNode): LNode {
    LNode(p.level, p.title, p.children + [c])
  }

  /** Add the heading `h` below the last open node whose level is strictly smaller, or as a
      new root when the last root's level is not smaller. Open nodes are exactly the right
      spine of the forest: the last root, its last child, and so on. */
  function InsertRight(f: seq<LNode>, h: Heading): (r: seq<LNode>)
    ensures |r| >= 1
    decreases f
  {
    if f == [] || f[|f| - 1].level >= h.level then f + [Leaf(h)]
    else
      var last := f[|f| - 1];
      f[..|f| - 1] + [LNode(last.level, last.title, InsertRight(last.children, h))]
  }

  /** The forest of a heading list: each heading inserted in turn. */
  function Forest(hs: seq<Heading>): seq<LNode>
    decreases |hs|
  {
    if hs == [] then [] else InsertRight(Forest(hs[..|hs| - 1]), hs[|hs| - 1])
  }

  function Erase(n: LNode): Node
    decreases n, 1
  {
    Node(n.title, EraseAll(n.children))
  }

  function EraseAll(ns: seq<LNode>): (r: seq<Node>)
    ensures |r| == |ns|
    decreases ns, 0
  {
    if ns == [] then [] else [Erase(ns[0])] + EraseAll(ns[1..])
  }

  // ---------------------------------------------------------------------------
  // The builder

  /** Close the topmost open frame: attach it to the frame below, or make it a root. */
  function Pop(roots: seq<LNode>, stack: seq<LNode>): (r: (seq<LNode>, seq<LNode>))
    requires stack != []
    ensures |r.1| == |stack| - 1
  {
    var m := |stack|;
    if m == 1 then (roots + [stack[0]], [])
    else (roots, stack[..m - 2] + [AddChild(stack[m - 2], stack[m - 1])])
  }

  /** The open frames attached to one another, bottom frame outermost. */
  function Spine(stack: seq<LNode>): LNode
    requires stack != []
    decreases |stack|
  {
    if |stack| == 1 then stack[0] else AddChild(stack[0], Spine(stack[1..]))
  }

  /** The forest the source's `tree` denotes: the roots, the last of which may still be open. */
  function Close(roots: seq<LNode>, stack: seq<LNode>): seq<LNode> {
    if stack == [] then roots else roots + [Spine(stack)]
  }

  /** The stack's top frame has no children yet, and there are no roots before the first
      heading is opened. */
  ghost predicate TopOpen(roots: seq<LNode>, stack: seq<LNode>) {
    if stack == [] then roots == [] else stack[|stack| - 1].children == []
  }

  ghost predicate Increasing(stack: seq<LNode>) {
    forall i, j :: 0 <= i < j < |stack| ==> stack[i].level < stack[j].level
  }

  /** While popping for a heading of level `l`: whatever was closed last has level >= `l`. */
  ghost predicate ClosedAtLeast(roots: seq<LNode>, stack: seq<LNode>, l: nat) {
    if stack == [] then roots == [] || roots[|roots| - 1].level >= l
    else
      var top := stack[|stack| - 1];
      top.children == [] || top.children[|top.children| - 1].level >= l
  }

  lemma {:induction false} SpinePop(stack: seq<LNode>)
    requires |stack| >= 2
    ensures Spine(stack[..|stack| - 2] + [AddChild(stack[|stack| - 2], stack[|stack| - 1])]) == Spine(stack)
    decreases |stack|
  {
    var m := |stack|;
    var t := stack[..m - 2] + [AddChild(stack[m - 2], stack[m - 1])];
    if m > 2 {
      var s1 := stack[1..];
      assert t[1..] == s1[..|s1| - 2] + [AddChild(s1[|s1| - 2], s1[|s1| - 1])];
      SpinePop(s1);
    }
  }

  lemma PopClose(roots: seq<LNode>, stack: seq<LNode>)
    requires stack != []
    ensures Close(Pop(roots, stack).0, Pop(roots, stack).1) == Close(roots, stack)
  {
    if |stack| >= 2 { SpinePop(stack); }
  }

  /** Pushing a leaf onto a stack whose levels are all below its own is insertion on the
      right spine of the forest the stack denotes. */
  lemma {:induction false} PushSpine(roots: seq<LNode>, stack: seq<LNode>, h: Heading)
    requires stack != []
    requires forall i :: 0 <= i < |stack| ==> stack[i].level < h.level
    requires ClosedAtLeast(roots, stack, h.level)
    ensures InsertRight(roots + [Spine(stack)], h) == roots + [Spine(stack + [Leaf(h)])]
    decreases |stack|
  {
    var s0 := stack[0];
    var f := roots + [Spine(stack)];
    assert f[..|f| - 1] == roots;
    if |stack| == 1 {
      assert Spine(stack + [Leaf(h)]) == AddChild(s0, Leaf(h));
    } else {
      var rest := stack[1..];
      assert (stack + [Leaf(h)])[1..] == rest + [Leaf(h)];
      PushSpine(s0.children, rest, h);
    }
  }

  lemma Push(roots: seq<LNode>, stack: seq<LNode>, h: Heading)
    requires forall i :: 0 <= i < |stack| ==> stack[i].level < h.level
    requires ClosedAtLeast(roots, stack, h.level)
    ensures Close(roots, stack + [Leaf(h)]) == InsertRight(Close(roots, stack), h)
  {
    if stack != [] {
      PushSpine(roots, stack, h);
    }
  }

  /** One iteration of the source's loop for an accepted heading `h`: pop every open frame
      of level >= `h.level`, then push `h`. */
  method Place(roots: seq<LNode>, stack: seq<LNode>, h: Heading)
    returns (roots': seq<LNode>, stack': seq<LNode>)
    requires Increasing(stack) && TopOpen(roots, stack)
    ensures Increasing(stack') && stack' != [] && stack'[|stack'| - 1] == Leaf(h)
    ensures Close(roots', stack') == InsertRight(Close(roots, stack), h)
  {
    roots', stack' := roots, stack;
    while stack' != [] && stack'[|stack'| - 1].level >= h.level
      invariant Increasing(stack')
      invariant ClosedAtLeast(roots', stack', h.level)
      invariant Close(roots', stack') == Close(roots, stack)
      decreases |stack'|
    {
      PopClose(roots', stack');
      var popped := Pop(roots', stack');
      roots', stack' := popped.0, popped.1;
    }
    Push(roots', stack', h);
    stack' := stack' + [Leaf(h)];
  }

  lemma ForestSnoc(hs: seq<Heading>, h: Heading)
    ensures Forest(hs + [h]) == InsertRight(Forest(hs), h)
  {
    assert (hs + [h])[..|hs|] == hs;
  }

  lemma ParsedSnoc(lines: seq<string>, i: nat)
    requires i < |lines|
    ensures Parsed(lines[..i + 1]) == match ParseHeading(lines[i])
      case None => Parsed(lines[..i])
      case Some(h) => Parsed(lines[..i]) + [h]
  {
    assert lines[..i + 1][..i] == lines[..i];
  }

  /** `build_tree`: every matching heading yields one node, placed under the nearest open
      heading of strictly smaller level; the result is the forest `Forest` specifies. */
  method BuildTree(headings: seq<string>) returns (tree: seq<Node>)
    ensures tree == EraseAll(Forest(Parsed(headings)))
  {
    var roots: seq<LNode> := [];
    var stack: seq<LNode> := [];
    ghost var done: seq<Heading> := [];
    for i := 0 to |headings|
      invariant done == Parsed(headings[..i])
      invariant Increasing(stack)
      invariant TopOpen(roots, stack)
      invariant Close(roots, stack) == Forest(done)
    {
      ParsedSnoc(headings, i);
      var parsed := ParseHeading(headings[i]);
      if parsed.Some? {
        roots, stack, done := Accept(roots, stack, done, parsed.value);
      }
    }
    assert headings[..|headings|] == headings;
    tree := EraseAll(Close(roots, stack));
  }

  /** One accepted heading: `Place` it, and the stack then denotes one more heading. */
  method Accept(roots: seq<LNode>, stack: seq<LNode>, ghost done: seq<Heading>, h: Heading)
    returns (roots': seq<LNode>, stack': seq<LNode>, ghost done': seq<Heading>)
    requires Increasing(stack)
    requires TopOpen(roots, stack)
    requires Close(roots, stack) == Forest(done)
    ensures Increasing(stack') && TopOpen(roots', stack')
    ensures done' == done + [h] && Close(roots', stack') == Forest(done')
  {
    ForestSnoc(done, h);
    roots', stack' := Place(roots, stack, h);
    done' := done + [h];
  }

  // Properties of the forest

  /** Titles in pre-order: a node, then its subtree, then its later siblings. */
  function Preorder(ns: seq<Node>): seq<string>
    decreases ns
  {
    if ns == [] then [] else [ns[0].title] + Preorder(ns[0].children) + Preorder(ns[1..])
  }

  /** Number of nodes in a forest. */
  function Count(ns: seq<Node>): nat
    decreases ns
  {
    if ns == [] then 0 else 1 + Count(ns[0].children) + Count(ns[1..])
  }

  function Titles(hs: seq<Heading>): (r: seq<string>)
    ensures |r| == |hs|
    ensures forall i :: 0 <= i < |hs| ==> r[i] == hs[i].title
  {
    seq(|hs|, i requires 0 <= i < |hs| => hs[i].title)
  }

  lemma {:induction false} PreorderAppend(xs: seq<Node>, ys: seq<Node>)
    ensures Preorder(xs + ys) == Preorder(xs) + Preorder(ys)
    decreases |xs|
  {
    if xs == [] {
      assert xs + ys == ys;
    } else {
      assert (xs + ys)[0] == xs[0];
      assert (xs + ys)[1..] == xs[1..] + ys;
      PreorderAppend(xs[1..], ys);
    }
  }

  lemma {:induction false} EraseAllAppend(xs: seq<LNode>, ys: seq<LNode>)
    ensures EraseAll(xs + ys) == EraseAll(xs) + EraseAll(ys)
    decreases |xs|
  {
    if xs == [] {
      assert xs + ys == ys;
    } else {
      assert (xs + ys)[0] == xs[0];
      assert (xs + ys)[1..] == xs[1..] + ys;
      EraseAllAppend(xs[1..], ys);
    }
  }

  lemma PreorderOne(n: Node)
    ensures Preorder([n]) == [n.title] + Preorder(n.children)
  {
    assert [n][1..] == [];
  }

  /** Insertion adds exactly one title, at the end of the pre-order. */
  lemma {:induction false} InsertRightPreorder(f: seq<LNode>, h: Heading)
    ensures Preorder(EraseAll(InsertRight(f, h))) == Preorder(EraseAll(f)) + [h.title]
    decreases f
  {
    if f == [] || f[|f| - 1].level >= h.level {
      EraseAllAppend(f, [Leaf(h)]);
      PreorderAppend(EraseAll(f), EraseAll([Leaf(h)]));
      assert EraseAll([Leaf(h)]) == [Node(h.title, [])];
      PreorderOne(Node(h.title, []));
    } else {
      var init, last := f[..|f| - 1], f[|f| - 1];
      var last' := LNode(last.level, last.title, InsertRight(last.children, h));
      assert f == init + [last];
      InsertRightPreorder(last.children, h);
      EraseAllAppend(init, [last]);
      EraseAllAppend(init, [last']);
      PreorderAppend(EraseAll(init), EraseAll([last]));
      PreorderAppend(EraseAll(init), EraseAll([last']));
      assert EraseAll([last]) == [Erase(last)];
      assert EraseAll([last']) == [Erase(last')];
      PreorderOne(Erase(last));
      PreorderOne(Erase(last'));
    }
  }

  /** Pre-order traversal of the forest lists the accepted titles in input order. */
  lemma {:induction false} ForestPreorder(hs: seq<Heading>)
    ensures Preorder(EraseAll(Forest(hs))) == Titles(hs)
    decreases |hs|
  {
    if hs != [] {
      var init := hs[..|hs| - 1];
      ForestPreorder(init);
      InsertRightPreorder(Forest(init), hs[|hs| - 1]);
      assert Titles(hs) == Titles(init) + [hs[|hs| - 1].title];
    }
  }

  lemma {:induction false} CountPreorder(ns: seq<Node>)
    ensures Count(ns) == |Preorder(ns)|
    decreases ns
  {
    if ns != [] {
      CountPreorder(ns[0].children);
      CountPreorder(ns[1..]);
    }
  }

  /** `build_tree` output: one node per accepted heading, titles in pre-order as in the input. */
  lemma BuildTreeNodes(headings: seq<string>)
    ensures var tree := EraseAll(Forest(Parsed(headings)));
      Preorder(tree) == Titles(Parsed(headings)) && Count(tree) == |Parsed(headings)|
  {
    ForestPreorder(Parsed(headings));
    CountPreorder(EraseAll(Forest(Parsed(headings))));
  }

  // ---------------------------------------------------------------------------
  // A declarative description: the children of a heading are the run of headings that
  // follow it with a strictly greater level.

  /** Split `hs` into its leading run of headings deeper than `l` and the rest. */
  function Under(hs: seq<Heading>, l: nat): (r: (seq<Heading>, seq<Heading>))
    ensures |r.0| + |r.1| == |hs|
    decreases |hs|
  {
    if hs != [] && hs[0].level > l then
      var u := Under(hs[1..], l);
      ([hs[0]] + u.0, u.1)
    else ([], hs)
  }

  /** Each heading owns the following run of deeper headings; the next heading of level at
      most its own starts a sibling (or an ancestor's sibling). */
  function Nest(hs: seq<Heading>): seq<LNode>
    decreases |hs|
  {
    if hs == [] then []
    else
      var u := Under(hs[1..], hs[0].level);
      assert |u.0| + |u.1| == |hs| - 1;
      [LNode(hs[0].level, hs[0].title, Nest(u.0))] + Nest(u.1)
  }

  /** Appending a heading extends the run when the run is everything and the heading is
      deeper; otherwise it extends the rest. */
  lemma {:induction false} UnderSnoc(hs: seq<Heading>, h: Heading, l: nat)
    ensures Under(hs + [h], l) ==
      if Under(hs, l).1 == [] && h.level > l then (Under(hs, l).0 + [h], [])
      else (Under(hs, l).0, Under(hs, l).1 + [h])
    decreases |hs|
  {
    if hs == [] {
      assert hs + [h] == [h];
      assert [h][1..] == [];
      assert Under([], l) == ([], []);
      assert [] + [h] == [h] && [h] + [] == [h];
    } else {
      assert (hs + [h])[0] == hs[0];
      assert (hs + [h])[1..] == hs[1..] + [h];
      UnderSnoc(hs[1..], h, l);
      if hs[0].level > l {
        var u := Under(hs[1..], l);
        assert [hs[0]] + (u.0 + [h]) == ([hs[0]] + u.0) + [h];
      }
    }
  }

  lemma InsertRightAfter(a: seq<LNode>, t: seq<LNode>, h: Heading)
    requires t != []
    ensures InsertRight(a + t, h) == a + InsertRight(t, h)
  {
    var f := a + t;
    assert f[|f| - 1] == t[|t| - 1];
    assert f[..|f| - 1] == a + t[..|t| - 1];
  }

  lemma NestSingle(h: Heading)
    ensures Nest([h]) == [Leaf(h)]
  {
    assert [h][1..] == [];
  }

  /** `Nest(hs + [h])` splits like `Nest(hs)`, with `h` going to the first root's run or to
      the rest. */
  lemma NestSnocShape(hs: seq<Heading>, h: Heading)
    requires hs != []
    ensures var u := Under(hs[1..], hs[0].level);
      var g := Under((hs + [h])[1..], hs[0].level);
      && Nest(hs) == [LNode(hs[0].level, hs[0].title, Nest(u.0))] + Nest(u.1)
      && Nest(hs + [h]) == [LNode(hs[0].level, hs[0].title, Nest(g.0))] + Nest(g.1)
      && g == if u.1 == [] && h.level > hs[0].level then (u.0 + [h], []) else (u.0, u.1 + [h])
  {
    assert (hs + [h])[0] == hs[0];
    assert (hs + [h])[1..] == hs[1..] + [h];
    UnderSnoc(hs[1..], h, hs[0].level);
  }

  lemma {:induction false} NestSnoc(hs: seq<Heading>, h: Heading)
    ensures Nest(hs + [h]) == InsertRight(Nest(hs), h)
    decreases |hs|
  {
    if hs == [] {
      assert hs + [h] == [h];
      NestSingle(h);
    } else {
      var u := Under(hs[1..], hs[0].level);
      NestSnocShape(hs, h);
      var n0 := LNode(hs[0].level, hs[0].title, Nest(u.0));
      if u.1 != [] {
        // `h` lands after the first root's subtree
        NestSnoc(u.1, h);
        assert Nest(u.1) != [];
        InsertRightAfter([n0], Nest(u.1), h);
      } else if h.level > hs[0].level {
        // `h` joins the first root's subtree, which is all of `hs`
        NestSnoc(u.0, h);
        assert [n0][..0] == [];
      } else {
        // `h` becomes a new root
        NestSingle(h);
      }
    }
  }

  /** The stack-built forest is the declarative one. */
  lemma {:induction false} ForestIsNest(hs: seq<Heading>)
    ensures Forest(hs) == Nest(hs)
    decreases |hs|
  {
    if hs != [] {
      var init := hs[..|hs| - 1];
      ForestIsNest(init);
      NestSnoc(init, hs[|hs| - 1]);
      assert init + [hs[|hs| - 1]] == hs;
    }
  }

  // ---------------------------------------------------------------------------
  // Examples

  /** `["# A", "## B", "### C", "## D"]` gives A[B[C], D]. */
  lemma NestingExample()
    ensures EraseAll(Forest([Heading(1, "A"), Heading(2, "B"), Heading(3, "C"), Heading(2, "D")]))
      == [Node("A", [Node("B", [Node("C", [])]), Node("D", [])])]
  {
    var c, d := Heading(3, "C"), Heading(2, "D");
    NestingForest(Heading(1, "A"), Heading(2, "B"), c, d);
    assert EraseAll([Leaf(c)]) == [Node("C", [])];
    var kids := [LNode(2, "B", [Leaf(c)]), Leaf(d)];
    assert kids[1..] == [Leaf(d)] && [Leaf(d)][1..] == [];
    assert EraseAll([Leaf(d)]) == [Node("D", [])];
    assert EraseAll(kids) == [Node("B", [Node("C", [])]), Node("D", [])];
  }

  lemma NestingForest(a: Heading, b: Heading, c: Heading, d: Heading)
    requires a == Heading(1, "A") && b == Heading(2, "B") && c == Heading(3, "C") && d == Heading(2, "D")
    ensures Forest([a, b, c, d]) == [LNode(1, "A", [LNode(2, "B", [Leaf(c)]), Leaf(d)])]
  {
    NestingForest3(a, b, c);
    ForestSnoc([a, b, c], d);
    assert [a, b, c] + [d] == [a, b, c, d];
    InsertUnder(a, [LNode(2, "B", [Leaf(c)])], d);
    assert InsertRight([LNode(2, "B", [Leaf(c)])], d) == [LNode(2, "B", [Leaf(c)]), Leaf(d)];
  }

  lemma NestingForest3(a: Heading, b: Heading, c: Heading)
    requires a == Heading(1, "A") && b == Heading(2, "B") && c == Heading(3, "C")
    ensures Forest([a, b, c]) == [LNode(1, "A", [LNode(2, "B", [Leaf(c)])])]
  {
    NestingForest2(a, b);
    ForestSnoc([a, b], c);
    assert [a, b] + [c] == [a, b, c];
    InsertUnder(a, [Leaf(b)], c);
    assert Leaf(b) == LNode(b.level, b.title, []);
    InsertUnder(b, [], c);
    assert InsertRight([], c) == [Leaf(c)];
  }

  lemma NestingForest2(a: Heading, b: Heading)
    requires a == Heading(1, "A") && b == Heading(2, "B")
    ensures Forest([a, b]) == [LNode(1, "A", [Leaf(b)])]
  {
    ForestSnoc([], a);
    assert [] + [a] == [a];
    ForestSnoc([a], b);
    assert [a] + [b] == [a, b];
    assert Leaf(a) == LNode(a.level, a.title, []);
    InsertUnder(a, [], b);
    assert InsertRight([], b) == [Leaf(b)];
  }

  /** Inserting below a single, shallower root descends into its children. */
  lemma InsertUnder(x: Heading, kids: seq<LNode>, h: Heading)
    requires x.level < h.level
    ensures InsertRight([LNode(x.level, x.title, kids)], h) == [LNode(x.level, x.title, InsertRight(kids, h))]
  {
    assert [LNode(x.level, x.title, kids)][..0] == [];
  }

  /** `["# A", "### C"]`: no level-2 node is made up; C is A's direct child. */
  lemma SkippedLevelExample()
    ensures EraseAll(Forest([Heading(1, "A"), Heading(3, "C")])) == [Node("A", [Node("C", [])])]
  {
    var a, c := Heading(1, "A"), Heading(3, "C");
    var hs := [a, c];
    var f1 := [Leaf(a)];
    assert Forest(hs[..1]) == f1 by {
      assert hs[..1][..0] == [];
    }
    assert Forest(hs) == [LNode(1, "A", [Leaf(c)])] by {
      assert hs[..1] == hs[..|hs| - 1];
      assert f1[..0] == [];
      assert InsertRight([], c) == [Leaf(c)];
    }
    assert EraseAll([Leaf(c)]) == [Node("C", [])];
  }

  /** Consecutive headings of one level are siblings, and a shallower heading after a deeper
      one starts a new root. */
  lemma SiblingExample()
    ensures EraseAll(Forest([Heading(2, "A"), Heading(2, "B"), Heading(1, "C")]))
      == [Node("A", []), Node("B", []), Node("C", [])]
  {
    var a, b, c := Heading(2, "A"), Heading(2, "B"), Heading(1, "C");
    var hs := [a, b, c];
    assert Forest(hs[..1]) == [Leaf(a)] by {
      assert hs[..1][..0] == [];
    }
    assert Forest(hs[..2]) == [Leaf(a), Leaf(b)] by {
      assert hs[..2][..1] == hs[..1];
    }
    assert Forest(hs) == [Leaf(a), Leaf(b), Leaf(c)] by {
      assert hs[..2] == hs[..|hs| - 1];
    }
  }
}

=== FILE: markdown_parser.dfy ===
/**
 * The Markdown-to-Notion converter and the two parsers that cut an LLM answer out of its
 * delimiters (`app/utils/markdown_parser.py`).
 */
module MarkdownParser {
  import opened Wrappers
  import opened Text
  import opened HeadingSyntax

  // ---------------------------------------------------------------------------
  // Inline formatting: `**bold**` runs

  /** A Notion rich-text run: plain text, or text annotated `bold`. */
  datatype RichText = Plain(content: string) | Bold(content: string)

  /** The Markdown a run stands for: bold runs wrapped in `**`. */
  function Markup(p: RichText): string {
    match p
    case Plain(c) => c
    case Bold(c) => "**" + c + "**"
  }

  function Render(parts: seq<RichText>): string
    decreases |parts|
  {
    if |parts| == 0 then [] else Markup(parts[0]) + Render(parts[1..])
  }

  predicate StarsAt(t: string, k: int) {
    0 <= k && k + 2 <= |t| && t[k] == '*' && t[k + 1] == '*'
  }

  /** The lazy `.+?` of `\*\*(.+?)\*\*` having consumed everything before `j`: where the
      closing `**` starts, if it is reached without consuming a line break (`.` does not
      match `\n`). */
  function LazyClose(t: string, j: nat): (r: Option<nat>)
    ensures r.Some? ==> j <= r.value && r.value + 2 <= |t|
    decreases |t| - j
  {
    if StarsAt(t, j) then Some(j)
    else if j < |t| && t[j] != '\n' then LazyClose(t, j + 1)
    else None
  }

  /** The match of `\*\*(.+?)\*\*` starting at `i`, given by the index of its closing `**`;
      the group is `t[i + 2 .. close]`. */
  function MatchAt(t: string, i: nat): (r: Option<nat>)
    ensures r.Some? ==> i + 3 <= r.value && r.value + 2 <= |t|
  {
    if StarsAt(t, i) && i + 2 < |t| && t[i + 2] != '\n' then LazyClose(t, i + 3) else None
  }

  /** `finditer`'s next match at or after `pos`: its start and the index of its closing `**`. */
  function NextMatch(t: string, pos: nat): (r: Option<(nat, nat)>)
    ensures r.Some? ==> pos <= r.value.0 && r.value.0 + 3 <= r.value.1 && r.value.1 + 2 <= |t|
    decreases |t| - pos
  {
    if pos >= |t| then None
    else
      match MatchAt(t, pos)
      case Some(close) => Some((pos, close))
      case None => NextMatch(t, pos + 1)
  }

  /** The lazy scan stops at the first `**` and never crosses a line break. */
  lemma {:induction false} LazyCloseFirst(t: string, j: nat)
    requires LazyClose(t, j).Some?
    ensures StarsAt(t, LazyClose(t, j).value)
    ensures forall k :: j <= k < LazyClose(t, j).value ==> !StarsAt(t, k) && t[k] != '\n'
    decreases |t| - j
  {
    if !StarsAt(t, j) {
      LazyCloseFirst(t, j + 1);
    }
  }

  /** A match is `**`, a non-empty group on one line, and the first `**` after it. */
  lemma MatchAtShape(t: string, i: nat)
    requires MatchAt(t, i).Some?
    ensures var close := MatchAt(t, i).value;
      && StarsAt(t, i) && StarsAt(t, close)
      && (forall k :: i + 2 <= k < close ==> t[k] != '\n')
      && (forall k :: i + 3 <= k < close ==> !StarsAt(t, k))
  {
    LazyCloseFirst(t, i + 3);
  }

  /** `NextMatch` finds the leftmost match: none starts earlier. */
  lemma {:induction false} NextMatchLeftmost(t: string, pos: nat)
    ensures NextMatch(t, pos).Some? ==>
      MatchAt(t, NextMatch(t, pos).value.0) == Some(NextMatch(t, pos).value.1)
    ensures NextMatch(t, pos).Some? ==>
      forall k :: pos <= k < NextMatch(t, pos).value.0 ==> MatchAt(t, k).None?
    ensures NextMatch(t, pos).None? ==> forall k :: pos <= k ==> MatchAt(t, k).None?
    decreases |t| - pos
  {
    if pos < |t| && MatchAt(t, pos).None? {
      NextMatchLeftmost(t, pos + 1);
    }
  }

  /** A match starts and ends with `**`. */
  lemma NextMatchStars(t: string, pos: nat)
    requires NextMatch(t, pos).Some?
    ensures StarsAt(t, NextMatch(t, pos).value.0) && StarsAt(t, NextMatch(t, pos).value.1)
  {
    NextMatchLeftmost(t, pos);
    MatchAtShape(t, NextMatch(t, pos).value.0);
  }

  /** One round of the loop: the plain text before the next match (when there is some),
      then the match's group in bold. */
  function Step(t: string, last: nat, start: nat, close: nat): seq<RichText>
    requires last <= start && start + 2 <= close <= |t|
  {
    (if start > last then [Plain(t[last..start])] else []) + [Bold(t[start + 2..close])]
  }

  /** The runs the source's loop appends from position `last` on, the plain tail included. */
  function Segments(t: string, last: nat): seq<RichText>
    requires last <= |t|
    decreases |t| - last
  {
    var m := NextMatch(t, last);
    if m.None? then (if last < |t| then [Plain(t[last..])] else [])
    else Step(t, last, m.value.0, m.value.1) + Segments(t, m.value.1 + 2)
  }

  lemma SegmentsStep(t: string, last: nat, start: nat, close: nat, next: nat)
    requires last <= |t| && NextMatch(t, last) == Some((start, close)) && next == close + 2
    ensures last <= start && start + 2 <= close && next <= |t|
    ensures Segments(t, last) == Step(t, last, start, close) + Segments(t, next)
  {
    var m := NextMatch(t, last);
    assert m.value.0 == start && m.value.1 == close;
  }

  /** The loop's invariant carried over one match. */
  lemma SegmentsAdvance(t: string, parts: seq<RichText>, last: nat, start: nat, close: nat, next: nat)
    requires last <= |t| && NextMatch(t, last) == Some((start, close)) && next == close + 2
    requires Segments(t, 0) == parts + Segments(t, last)
    ensures last <= start && start + 2 <= close && next <= |t|
    ensures Segments(t, 0) == parts + Step(t, last, start, close) + Segments(t, next)
  {
    SegmentsStep(t, last, start, close, next);
    AppendAssoc(parts, Step(t, last, start, close), Segments(t, next));
  }

  /** With no match left, only the plain tail remains. */
  lemma SegmentsTail(t: string, last: nat)
    requires last <= |t| && NextMatch(t, last).None?
    ensures Segments(t, last) == if last < |t| then [Plain(t[last..])] else []
  {
  }

  /** `parse_inline_formatting`: the runs, or one plain run of the whole text when there
      are none (the text is empty). */
  function InlineFormat(t: string): seq<RichText> {
    var ps := Segments(t, 0);
    if ps == [] then [Plain(t)] else ps
  }

  /** The loop over `finditer` of `parse_inline_formatting`. */
  method ParseInlineFormatting(text: string) returns (parts: seq<RichText>)
    ensures parts == InlineFormat(text)
  {
    parts := [];
    var last: nat := 0;
    var m := NextMatch(text, 0);
    while m.Some?
      invariant last <= |text|
      invariant m == NextMatch(text, last)
      invariant Segments(text, 0) == parts + Segments(text, last)
      decreases |text| - last
    {
      var start, close := m.value.0, m.value.1;
      var next := close + 2;
      SegmentsAdvance(text, parts, last, start, close, next);
      // the plain text before the match, if any, and the bold group
      parts := parts + Step(text, last, start, close);
      last := next;
      m := NextMatch(text, last);
    }
    SegmentsTail(text, last);
    if last < |text| {
      parts := parts + [Plain(text[last..])];
    }
    if parts == [] {
      parts := [Plain(text)];
    }
  }

  lemma {:induction false} RenderAppend(a: seq<RichText>, b: seq<RichText>)
    ensures Render(a + b) == Render(a) + Render(b)
    decreases |a|
  {
    if a == [] {
      assert a + b == b;
    } else {
      assert (a + b)[1..] == a[1..] + b;
      RenderAppend(a[1..], b);
    }
  }

  lemma SliceSplit<T>(s: seq<T>, a: nat, b: nat)
    requires a <= b <= |s|
    ensures s[a..] == s[a..b] + s[b..]
  {
  }

  lemma RenderOne(p: RichText)
    ensures Render([p]) == Markup(p)
  {
    assert [p][1..] == [];
  }

  /** A bold group, wrapped back in the `**` it was matched between, is that part of the text. */
  lemma BoldMarkup(t: string, s: nat, close: nat)
    requires s + 2 <= close && StarsAt(t, s) && StarsAt(t, close)
    ensures Markup(Bold(t[s + 2..close])) == t[s..close + 2]
  {
    assert t[s..s + 2] == "**";
    assert t[close..close + 2] == "**";
    assert t[s..close + 2] == t[s..s + 2] + t[s + 2..close] + t[close..close + 2];
  }

  lemma StepRender(t: string, last: nat, s: nat, close: nat, next: nat)
    requires last <= s && s + 2 <= close && next == close + 2 && next <= |t|
    requires StarsAt(t, s) && StarsAt(t, close)
    ensures Render(Step(t, last, s, close)) == t[last..next]
  {
    var pre: seq<RichText> := if s > last then [Plain(t[last..s])] else [];
    var b := [Bold(t[s + 2..close])];
    assert Step(t, last, s, close) == pre + b;
    RenderAppend(pre, b);
    if s > last {
      RenderOne(Plain(t[last..s]));
    }
    assert Render(pre) == t[last..s];
    RenderOne(Bold(t[s + 2..close]));
    BoldMarkup(t, s, close);
    assert t[last..close + 2] == t[last..s] + t[s..close + 2];
  }

  /** Runs that render two adjacent pieces of a text render the two together. */
  lemma RenderJoin(a: seq<RichText>, b: seq<RichText>, t: string, i: nat, j: nat)
    requires i <= j <= |t| && Render(a) == t[i..j] && Render(b) == t[j..]
    ensures Render(a + b) == t[i..]
  {
    RenderAppend(a, b);
    SliceSplit(t, i, j);
  }

  lemma {:induction false} SegmentsRender(t: string, last: nat)
    requires last <= |t|
    ensures Render(Segments(t, last)) == t[last..]
    decreases |t| - last
  {
    var m := NextMatch(t, last);
    if m.None? {
      TailRender(t, last);
    } else {
      var start, close := m.value.0, m.value.1;
      var next := close + 2;
      SegmentsRender(t, next);
      MatchRender(t, last, start, close, next);
    }
  }

  lemma TailRender(t: string, last: nat)
    requires last <= |t| && NextMatch(t, last).None?
    ensures Render(Segments(t, last)) == t[last..]
  {
    SegmentsTail(t, last);
    if last < |t| {
      RenderOne(Plain(t[last..]));
    }
  }

  /** A match and what follows it render back to the text from `last` on, once what
      follows does. */
  lemma MatchRender(t: string, last: nat, start: nat, close: nat, next: nat)
    requires last <= |t| && NextMatch(t, last) == Some((start, close)) && next == close + 2
    requires Render(Segments(t, next)) == t[next..]
    ensures Render(Segments(t, last)) == t[last..]
  {
    NextMatchStars(t, last);
    SegmentsStep(t, last, start, close, next);
    StepRender(t, last, start, close, next);
    RenderJoin(Step(t, last, start, close), Segments(t, next), t, last, next);
  }

  /** Wrapping the bold runs back in `**` gives the text again: nothing is dropped,
      duplicated or reordered. The list of runs is never empty. */
  lemma InlineFormatRender(t: string)
    ensures Render(InlineFormat(t)) == t
    ensures |InlineFormat(t)| >= 1
  {
    SegmentsRender(t, 0);
    if Segments(t, 0) == [] {
      assert Render([Plain(t)]) == t;
    }
  }

  /** A match inside a slice is a match in the whole text, at the shifted position. */
  lemma {:induction false} LazyCloseSlice(t: string, a: nat, b: nat, j: nat)
    requires a <= j <= b <= |t|
    requires LazyClose(t[a..b], j - a).Some?
    ensures LazyClose(t, j) == Some(LazyClose(t[a..b], j - a).value + a)
    decreases b - j
  {
    var u := t[a..b];
    if !StarsAt(u, j - a) {
      assert j < b && u[j - a] == t[j];
      LazyCloseSlice(t, a, b, j + 1);
    }
  }

  lemma MatchAtSlice(t: string, a: nat, b: nat, i: nat)
    requires a <= i && a <= b <= |t|
    requires MatchAt(t[a..b], i - a).Some?
    ensures MatchAt(t, i) == Some(MatchAt(t[a..b], i - a).value + a)
  {
    var u := t[a..b];
    assert u[i - a] == t[i] && u[i - a + 1] == t[i + 1] && u[i - a + 2] == t[i + 2];
    LazyCloseSlice(t, a, b, i + 3);
  }

  /** Text between matches holds no match of its own. */
  lemma NoMatchInGap(t: string, lo: nat, hi: nat)
    requires lo <= hi <= |t|
    requires forall k :: lo <= k < hi ==> MatchAt(t, k).None?
    ensures NextMatch(t[lo..hi], 0).None?
  {
    var u := t[lo..hi];
    var m := NextMatch(u, 0);
    if m.Some? {
      NextMatchLeftmost(u, 0);
      MatchAtSlice(t, lo, hi, lo + m.value.0);
    }
  }

  /** Every plain run is non-empty and holds no `**…**` match; every bold run is non-empty
      and on one line. */
  predicate WellFormedRun(p: RichText) {
    match p
    case Plain(c) => c != [] && NextMatch(c, 0).None?
    case Bold(c) => c != [] && '\n' !in c
  }

  predicate AllWellFormed(parts: seq<RichText>) {
    forall i :: 0 <= i < |parts| ==> WellFormedRun(parts[i])
  }

  lemma AllWellFormedAppend(a: seq<RichText>, b: seq<RichText>)
    requires AllWellFormed(a) && AllWellFormed(b)
    ensures AllWellFormed(a + b)
  {
    forall i | 0 <= i < |a + b|
      ensures WellFormedRun((a + b)[i])
    {
      if i >= |a| {
        assert (a + b)[i] == b[i - |a|];
      }
    }
  }

  /** A bold group sits on one line. */
  lemma BoldOnOneLine(t: string, s: nat)
    requires MatchAt(t, s).Some?
    ensures '\n' !in t[s + 2..MatchAt(t, s).value]
  {
    MatchAtShape(t, s);
    var c := t[s + 2..MatchAt(t, s).value];
    forall k | 0 <= k < |c|
      ensures c[k] != '\n'
    {
      assert c[k] == t[s + 2 + k];
    }
  }

  lemma StepWellFormed(t: string, last: nat)
    requires last <= |t| && NextMatch(t, last).Some?
    ensures var m := NextMatch(t, last).value;
      AllWellFormed(Step(t, last, m.0, m.1))
  {
    var m := NextMatch(t, last).value;
    NextMatchLeftmost(t, last);
    BoldOnOneLine(t, m.0);
    if m.0 > last {
      NoMatchInGap(t, last, m.0);
    }
  }

  lemma TailWellFormed(t: string, last: nat)
    requires last < |t| && NextMatch(t, last).None?
    ensures WellFormedRun(Plain(t[last..]))
  {
    NextMatchLeftmost(t, last);
    NoMatchInGap(t, last, |t|);
    assert t[last..|t|] == t[last..];
  }

  lemma {:induction false} SegmentsWellFormed(t: string, last: nat)
    requires last <= |t|
    ensures AllWellFormed(Segments(t, last))
    decreases |t| - last
  {
    var m := NextMatch(t, last);
    if m.None? {
      if last < |t| {
        TailWellFormed(t, last);
        assert Segments(t, last) == [Plain(t[last..])];
      } else {
        assert Segments(t, last) == [];
      }
    } else {
      var start, close := m.value.0, m.value.1;
      var next := close + 2;
      SegmentsStep(t, last, start, close, next);
      SegmentsWellFormed(t, next);
      StepWellFormed(t, last);
      AllWellFormedAppend(Step(t, last, start, close), Segments(t, next));
    }
  }

  /** Every run `parse_inline_formatting` returns for a non-empty text is well formed. */
  lemma InlineFormatWellFormed(t: string)
    requires t != []
    ensures AllWellFormed(InlineFormat(t))
  {
    SegmentsWellFormed(t, 0);
    if Segments(t, 0) == [] {
      assert NextMatch(t, 0).None?;
    }
  }

  lemma {:induction false} NoStarsNoMatch(t: string, pos: nat)
    requires forall k :: pos <= k < |t| ==> t[k] != '*'
    ensures NextMatch(t, pos).None?
    decreases |t| - pos
  {
    if pos < |t| {
      assert !StarsAt(t, pos);
      NoStarsNoMatch(t, pos + 1);
    }
  }

  /** `**Key** point` becomes a bold run and a plain run. */
  lemma InlineExample()
    ensures InlineFormat("**Key** point") == [Bold("Key"), Plain(" point")]
  {
    var t := "**Key** point";
    assert LazyClose(t, 5) == Some(5);
    assert LazyClose(t, 4) == Some(5);
    assert LazyClose(t, 3) == Some(5);
    assert MatchAt(t, 0) == Some(5);
    assert NextMatch(t, 0) == Some((0, 5));
    assert t[2..5] == "Key";
    assert Step(t, 0, 0, 5) == [] + [Bold("Key")];
    NoStarsNoMatch(t, 7);
    assert t[7..] == " point";
    assert Segments(t, 7) == [Plain(" point")];
    assert Segments(t, 0) == [Bold("Key")] + [Plain(" point")];
  }

  // ---------------------------------------------------------------------------
  // get_indent_level

  /** Leading spaces (tabs do not count) in steps of two. */
  function GetIndentLevel(line: string): (r: nat)
    ensures 2 * r <= LeadCount(line, {' '}) < 2 * r + 2
  {
    LeadCount(line, {' '}) / 2
  }

  // ---------------------------------------------------------------------------
  // markdown_to_notion_blocks

  datatype Block =
    | HeadingBlock(kind: nat, text: seq<RichText>)   // `heading_1` .. `heading_3`
    | BulletedItem(text: seq<RichText>)              // `bulleted_list_item`
    | ParagraphBlock(text: seq<RichText>)            // `paragraph`

  /** What `flush_bullets` keeps of a buffered bullet line: `strip('- ')`, then `strip()`. */
  function BulletText(line: string): string {
    Strip(StripSet(line, {'-', ' '}))
  }

  function BulletBlock(line: string): Block {
    BulletedItem(InlineFormat(BulletText(line)))
  }

  function BulletBlocks(lines: seq<string>): (r: seq<Block>)
    ensures |r| == |lines|
    decreases |lines|
  {
    if lines == [] then [] else BulletBlocks(lines[..|lines| - 1]) + [BulletBlock(lines[|lines| - 1])]
  }

  predicate IsBulletLine(line: string) {
    line != [] && (line[0] == '-' || line[0] == '*')
  }

  /** The block of one stripped, non-empty line. Headings are tested first, so `# x` is a
      heading even though `-`/`*` are not involved, and `**bold**` alone is a bullet. */
  function LineBlock(line: string): Block
    requires line != []
  {
    if IsHeadingAnyLevel(line) then
      var level := HashRun(line);
      HeadingBlock(if level < 3 then level else 3, InlineFormat(HeadingRest(line)))
    else if IsBulletLine(line) then BulletBlock(line)
    else ParagraphBlock(InlineFormat(line))
  }

  /** The blocks of the lines, one per non-blank line and in line order. */
  function BlocksOf(lines: seq<string>): seq<Block>
    decreases |lines|
  {
    if lines == [] then []
    else
      var line := Strip(lines[|lines| - 1]);
      BlocksOf(lines[..|lines| - 1]) + (if line == [] then [] else [LineBlock(line)])
  }

  function MarkdownBlocks(markdown: string): seq<Block> {
    BlocksOf(Split(Strip(markdown), '\n'))
  }

  lemma BulletBlocksSnoc(lines: seq<string>, k: nat)
    requires k < |lines|
    ensures BulletBlocks(lines[..k + 1]) == BulletBlocks(lines[..k]) + [BulletBlock(lines[k])]
  {
    assert lines[..k + 1] == lines[..k] + [lines[k]];
  }

  /** `flush_bullets`: append the buffered bullets in order. */
  method FlushBullets(blocks: seq<Block>, bullets: seq<string>) returns (blocks': seq<Block>)
    ensures blocks' == blocks + BulletBlocks(bullets)
  {
    blocks' := blocks;
    for k := 0 to |bullets|
      invariant blocks' == blocks + BulletBlocks(bullets[..k])
    {
      var text := ParseInlineFormatting(BulletText(bullets[k]));
      BulletBlocksSnoc(bullets, k);
      AppendAssoc(blocks, BulletBlocks(bullets[..k]), [BulletBlock(bullets[k])]);
      blocks' := blocks' + [BulletedItem(text)];
    }
    assert bullets[..|bullets|] == bullets;
  }

  lemma BlocksOfSnoc(lines: seq<string>, i: nat)
    requires i < |lines|
    ensures var line := Strip(lines[i]);
      BlocksOf(lines[..i + 1]) == BlocksOf(lines[..i]) + (if line == [] then [] else [LineBlock(line)])
  {
    assert lines[..i + 1][..i] == lines[..i];
  }

  lemma BulletBlocksAppend(bullets: seq<string>, line: string)
    ensures BulletBlocks(bullets + [line]) == BulletBlocks(bullets) + [BulletBlock(line)]
  {
    assert (bullets + [line])[..|bullets|] == bullets;
  }

  /** `markdown_to_notion_blocks`. Bullet lines wait in a buffer that headings, paragraphs
      and the end of input flush, and blank lines leave alone; the result is still one
      block per non-blank line in line order. */
  method MarkdownToNotionBlocks(markdown: string) returns (blocks: seq<Block>)
    ensures blocks == MarkdownBlocks(markdown)
  {
    var lines := Split(Strip(markdown), '\n');
    blocks := [];
    var bullets: seq<string> := [];
    for i := 0 to |lines|
      invariant blocks + BulletBlocks(bullets) == BlocksOf(lines[..i])
    {
      var line := Strip(lines[i]);
      BlocksOfSnoc(lines, i);
      if line != [] && IsHeadingAnyLevel(line) {
        blocks := FlushBullets(blocks, bullets);
        bullets := [];
        var level := HashRun(line);
        var text := ParseInlineFormatting(HeadingRest(line));
        var b := HeadingBlock(if level < 3 then level else 3, text);
        assert b == LineBlock(line);
        assert BulletBlocks([]) == [];
        AppendEmpty(blocks + [b]);
        blocks := blocks + [b];
      } else if IsBulletLine(line) {
        BulletBlocksAppend(bullets, line);
        assert BulletBlock(line) == LineBlock(line);
        AppendAssoc(blocks, BulletBlocks(bullets), [BulletBlock(line)]);
        bullets := bullets + [line];
      } else if line != [] {
        blocks := FlushBullets(blocks, bullets);
        bullets := [];
        var text := ParseInlineFormatting(line);
        assert ParagraphBlock(text) == LineBlock(line);
        assert BulletBlocks([]) == [];
        AppendEmpty(blocks + [ParagraphBlock(text)]);
        blocks := blocks + [ParagraphBlock(text)];
      }
    }
    assert lines[..|lines|] == lines;
    blocks := FlushBullets(blocks, bullets);
  }

  /** Blocks depend on each line alone: converting two pieces of a document separately and
      concatenating gives the blocks of the whole. */
  lemma {:induction false} BlocksOfAppend(a: seq<string>, b: seq<string>)
    ensures BlocksOf(a + b) == BlocksOf(a) + BlocksOf(b)
    decreases |b|
  {
    if b == [] {
      assert a + b == a;
    } else {
      var b' := b[..|b| - 1];
      var line := Strip(b[|b| - 1]);
      var x := if line == [] then [] else [LineBlock(line)];
      assert (a + b)[..|a + b| - 1] == a + b';
      assert (a + b)[|a + b| - 1] == b[|b| - 1];
      assert BlocksOf(a + b) == BlocksOf(a + b') + x;
      assert BlocksOf(b) == BlocksOf(b') + x;
      BlocksOfAppend(a, b');
      AppendAssoc(BlocksOf(a), BlocksOf(b'), x);
    }
  }

  lemma BlankLineBlocks(blank: string)
    requires Strip(blank) == []
    ensures BlocksOf([blank]) == []
  {
    assert [blank][..0] == [];
  }

  /** A blank line between two parts adds nothing and breaks no bullet list apart. */
  lemma BlankLineNeutral(a: seq<string>, blank: string, b: seq<string>)
    requires Strip(blank) == []
    ensures BlocksOf(a + [blank] + b) == BlocksOf(a + b)
  {
    BlocksOfAppend(a + [blank], b);
    BlocksOfAppend(a, [blank]);
    BlocksOfAppend(a, b);
    BlankLineBlocks(blank);
    AppendEmpty(BlocksOf(a));
  }

  function CountNonBlank(lines: seq<string>): nat
    decreases |lines|
  {
    if lines == [] then 0
    else CountNonBlank(lines[..|lines| - 1]) + (if Strip(lines[|lines| - 1]) == [] then 0 else 1)
  }

  /** One block per non-blank line, and a heading's kind is its level capped at 3. */
  lemma {:induction false} BlocksOfShape(lines: seq<string>)
    ensures |BlocksOf(lines)| == CountNonBlank(lines)
    ensures forall i :: 0 <= i < |BlocksOf(lines)| && BlocksOf(lines)[i].HeadingBlock? ==>
      1 <= BlocksOf(lines)[i].kind <= 3
    decreases |lines|
  {
    if lines != [] {
      BlocksOfShape(lines[..|lines| - 1]);
    }
  }

  /** A line that strips to `k` hashes, a space and the text `t` gives one heading block
      of kind `min(k, 3)` whose runs are the inline formatting of `t` without its
      surrounding whitespace. */
  lemma HeadingLineBlock(line: string, k: nat, t: string)
    requires 1 <= k && '\n' !in t
    requires Strip(line) == seq(k, _ => '#') + " " + t
    ensures BlocksOf([line]) == [HeadingBlock(if k < 3 then k else 3, InlineFormat(Strip(t)))]
  {
    var s := Strip(line);
    StripIsStripped(line);
    HeadingPrefix(s, k, t);
    assert [line][..0] == [];
    assert BlocksOf([line]) == [LineBlock(s)];
  }

  /** The heading syntax of a stripped line `k` hashes, a space and `t`. */
  lemma HeadingPrefix(s: string, k: nat, t: string)
    requires 1 <= k && '\n' !in t && IsStripped(s)
    requires s == seq(k, _ => '#') + " " + t
    ensures IsHeadingAnyLevel(s) && HashRun(s) == k && HeadingRest(s) == Strip(t)
  {
    assert s[k] == ' ';
    assert HashRun(s) == k;
    assert s[k..] == " " + t;
    assert t != [] && t[|t| - 1] == s[|s| - 1];
    StripOfTrimmedEnd(t);
    DropLeadingSpace(t);
  }

  // ---------------------------------------------------------------------------
  // Delimited answers

  /** `needle` occurs somewhere in `s`. */
  ghost predicate Contains(s: string, needle: string) {
    exists k :: OccursAt(s, needle, k)
  }

  /** The suffix of `d` from `k` on is not also a prefix of `d`. */
  predicate NoBorderAt(d: string, k: nat)
    requires k <= |d|
  {
    d[k..] != d[..|d| - k]
  }

  /** No proper prefix of `d` is also a suffix: two occurrences of `d` never overlap. */
  predicate BorderFree(d: string) {
    forall k :: 0 < k < |d| ==> NoBorderAt(d, k)
  }

  /** A marker of the form `<<…>>` with no other `<` is border-free. */
  lemma AngleMarkerBorderFree(d: string)
    requires |d| >= 3 && d[0] == '<' && d[1] == '<'
    requires forall k :: 2 <= k < |d| ==> d[k] != '<'
    ensures BorderFree(d)
  {
    forall k | 0 < k < |d|
      ensures NoBorderAt(d, k)
    {
      if k == 1 {
        assert d[k..][1] != d[..|d| - k][1];
      } else {
        assert d[k..][0] != d[..|d| - k][0];
      }
    }
  }

  /** An occurrence starting inside the middle `d` of `x + d + y` shows a border of `d`. */
  lemma OverlapRight(x: string, d: string, y: string, p: nat)
    requires |x| < p < |x| + |d| && OccursAt(x + d + y, d, p)
    ensures !NoBorderAt(d, p - |x|)
  {
    var w := x + d + y;
    var k := p - |x|;
    assert d[k..] == w[p..|x| + |d|];
    assert w[p..|x| + |d|] == w[p..p + |d|][..|d| - k];
  }

  /** An occurrence running into the middle `d` from `x` shows a border of `d`. */
  lemma OverlapLeft(x: string, d: string, y: string, p: nat)
    requires p < |x| < p + |d| && OccursAt(x + d + y, d, p)
    ensures !NoBorderAt(d, |x| - p)
  {
    var w := x + d + y;
    var k := |x| - p;
    assert d[..|d| - k] == w[|x|..p + |d|];
    assert w[|x|..p + |d|] == w[p..p + |d|][k..];
  }

  /** In `x + d + y`, an occurrence of a border-free `d` is the middle one or lies wholly
      inside `x` or `y`. */
  lemma OccurrenceSplit(x: string, d: string, y: string, p: nat)
    requires BorderFree(d) && OccursAt(x + d + y, d, p)
    ensures p == |x| || OccursAt(x, d, p) || OccursAt(y, d, p - |x| - |d|)
  {
    var w := x + d + y;
    if |x| < p < |x| + |d| {
      OverlapRight(x, d, y, p);
      assert false;
    } else if p < |x| < p + |d| {
      OverlapLeft(x, d, y, p);
      assert false;
    } else if p + |d| <= |x| {
      assert w[p..p + |d|] == x[p..p + |d|];
    } else if p >= |x| + |d| {
      assert w[p..p + |d|] == y[p - |x| - |d|..p - |x|];
    }
  }

  /** In `pre + d + rest`, an occurrence before the middle `d` lies inside `pre`. */
  lemma OccurrenceBefore(pre: string, d: string, rest: string, k: nat)
    requires BorderFree(d) && k < |pre|
    ensures OccursAt(pre + d + rest, d, k) ==> Contains(pre, d)
  {
    if OccursAt(pre + d + rest, d, k) {
      OccurrenceSplit(pre, d, rest, k);
      assert OccursAt(pre, d, k);
    }
  }

  /** In `front + d + post`, an occurrence after the middle `d` lies inside `post`. */
  lemma OccurrenceAfter(front: string, d: string, post: string, k: nat)
    requires BorderFree(d) && |front| < k
    ensures OccursAt(front + d + post, d, k) ==> Contains(post, d)
  {
    if OccursAt(front + d + post, d, k) {
      OccurrenceSplit(front, d, post, k);
      assert OccursAt(post, d, k - |front| - |d|);
    }
  }

  /** In `pre + d + t + d + post`, an occurrence that starts after the first `d` and before
      the second lies inside `t`. */
  lemma OccurrenceBetween(pre: string, d: string, t: string, post: string, k: nat)
    requires BorderFree(d) && |pre| + |d| <= k < |pre| + |d| + |t|
    ensures OccursAt(pre + d + t + d + post, d, k) ==> Contains(t, d)
  {
    if OccursAt(pre + d + t + d + post, d, k) {
      OccurrenceSplit(pre + d + t, d, post, k);
      assert OccursAt(pre + d + t, d, k);
      OccurrenceSplit(pre, d, t, k);
      assert OccursAt(t, d, k - |pre| - |d|);
    }
  }

  /** The two delimiters of `pre + d + t + d + post`. */
  lemma WrappedOccurrences(pre: string, d: string, t: string, post: string)
    ensures OccursAt(pre + d + t + d + post, d, |pre|)
    ensures OccursAt(pre + d + t + d + post, d, |pre| + |d| + |t|)
    ensures (pre + d + t + d + post)[|pre| + |d|..|pre| + |d| + |t|] == t
  {
    var w := pre + d + t + d + post;
    assert w[|pre|..|pre| + |d|] == d;
    assert w[|pre| + |d| + |t|..|pre| + |d| + |t| + |d|] == d;
  }

  /** `d` occurs at `i` and again at `j`, the second not overlapping the first. */
  predicate Enclosed(s: string, d: string, i: int, j: int) {
    OccursAt(s, d, i) && OccursAt(s, d, j) && i + |d| <= j
  }

  /** The pair `re.search(d(.*?)d, s, DOTALL)` picks: the leftmost start, then the nearest
      closing delimiter. */
  ghost predicate LeftmostPair(s: string, d: string, i: int, j: int) {
    Enclosed(s, d, i, j)
    && (forall k :: 0 <= k < i ==> !OccursAt(s, d, k))
    && (forall k :: i + |d| <= k < j ==> !OccursAt(s, d, k))
  }

  const FinalSummaryMarker: string := "<<FINAL_SUMMARY>>"

  /** The text the non-greedy group captures: from after the first delimiter up to the
      next delimiter after it, or `None` when either is missing. */
  function Enclosure(output: string, delimiter: string): Option<string> {
    var first := Find(output, delimiter);
    if first.None? then None else EnclosureFrom(output, delimiter, first.value + |delimiter|)
  }

  /** The text from `start` up to the next delimiter at or after it. */
  function EnclosureFrom(output: string, delimiter: string, start: nat): Option<string> {
    match FindFrom(output, delimiter, start)
    case None => None
    case Some(j) => Some(output[start..j])
  }

  /** `parse_between_delimiters`: the stripped text between the first delimiter and the
      next one after it, or `None`. */
  function ParseBetweenDelimiters(output: string, delimiter: string): Option<string> {
    match Enclosure(output, delimiter)
    case None => None
    case Some(t) => Some(Strip(t))
  }

  lemma EnclosureStart(output: string, d: string, i: nat)
    requires Find(output, d) == Some(i)
    ensures Enclosure(output, d) == EnclosureFrom(output, d, i + |d|)
  {
  }

  lemma EnclosureFromAt(output: string, d: string, start: nat, j: nat)
    requires FindFrom(output, d, start) == Some(j)
    ensures EnclosureFrom(output, d, start) == Some(output[start..j])
  {
  }

  /** `None` exactly when no two delimiters enclose anything. */
  lemma ParseBetweenNone(output: string, d: string)
    ensures ParseBetweenDelimiters(output, d).None? <==> forall i, j :: !Enclosed(output, d, i, j)
  {
    match Find(output, d)
    case None =>
    case Some(i) =>
      EnclosureStart(output, d, i);
      match FindFrom(output, d, i + |d|)
      case None =>
        forall a, b | OccursAt(output, d, a) && a + |d| <= b
          ensures !OccursAt(output, d, b)
        {
          assert i <= a;
        }
      case Some(j) =>
        EnclosureFromAt(output, d, i + |d|, j);
        assert Enclosed(output, d, i, j);
  }

  /** Otherwise the result is the stripped text of the leftmost pair. */
  lemma ParseBetweenSome(output: string, d: string)
    requires ParseBetweenDelimiters(output, d).Some?
    ensures exists i, j :: (LeftmostPair(output, d, i, j)
      && ParseBetweenDelimiters(output, d).value == Strip(output[i + |d|..j]))
  {
    var i := Find(output, d).value;
    var j := FindFrom(output, d, i + |d|).value;
    ParseBetweenAt(output, d, i, j);
    assert LeftmostPair(output, d, i, j);
  }

  lemma FinalSummaryMarkerBorderFree()
    ensures BorderFree(FinalSummaryMarker)
  {
    AngleMarkerBorderFree(FinalSummaryMarker);
  }

  lemma NoOccurrenceBefore(pre: string, d: string, rest: string)
    requires BorderFree(d) && !Contains(pre, d)
    ensures forall k :: 0 <= k < |pre| ==> !OccursAt(pre + d + rest, d, k)
  {
    forall k | 0 <= k < |pre|
      ensures !OccursAt(pre + d + rest, d, k)
    {
      OccurrenceBefore(pre, d, rest, k);
    }
  }

  lemma NoOccurrenceBetween(pre: string, d: string, t: string, post: string)
    requires BorderFree(d) && !Contains(t, d)
    ensures forall k :: |pre| + |d| <= k < |pre| + |d| + |t| ==> !OccursAt(pre + d + t + d + post, d, k)
  {
    forall k | |pre| + |d| <= k < |pre| + |d| + |t|
      ensures !OccursAt(pre + d + t + d + post, d, k)
    {
      OccurrenceBetween(pre, d, t, post, k);
    }
  }

  lemma ParseBetweenAt(output: string, d: string, i: nat, j: nat)
    requires Find(output, d) == Some(i) && FindFrom(output, d, i + |d|) == Some(j)
    ensures ParseBetweenDelimiters(output, d) == Some(Strip(output[i + |d|..j]))
  {
    EnclosureStart(output, d, i);
    EnclosureFromAt(output, d, i + |d|, j);
  }

  /** Conversely, the leftmost pair determines the result. */
  lemma LeftmostPairParse(output: string, d: string, i: nat, j: nat)
    requires LeftmostPair(output, d, i, j)
    ensures ParseBetweenDelimiters(output, d) == Some(Strip(output[i + |d|..j]))
  {
    FindFromAt(output, d, 0, i);
    FindFromAt(output, d, i + |d|, j);
    ParseBetweenAt(output, d, i, j);
  }

  lemma PairParse(w: string, d: string, i: nat, j: nat, t: string)
    requires LeftmostPair(w, d, i, j) && w[i + |d|..j] == t
    ensures ParseBetweenDelimiters(w, d) == Some(Strip(t))
  {
    LeftmostPairParse(w, d, i, j);
  }

  /** In `pre + d + t + d + post`, the delimiter after `pre` and the one after `t` form the
      leftmost pair. */
  lemma WrappedLeftmostPair(pre: string, t: string, post: string, d: string)
    requires BorderFree(d)
    requires !Contains(pre, d) && !Contains(t, d)
    ensures LeftmostPair(pre + d + t + d + post, d, |pre|, |pre| + |d| + |t|)
  {
    WrappedOccurrences(pre, d, t, post);
    assert pre + d + t + d + post == pre + d + (t + d + post);
    NoOccurrenceBefore(pre, d, t + d + post);
    NoOccurrenceBetween(pre, d, t, post);
  }

  /** Text wrapped in a border-free delimiter comes back stripped, whatever follows it, as
      long as the delimiter does not occur before it or inside it. */
  lemma BetweenRoundTrip(pre: string, t: string, post: string, d: string)
    requires BorderFree(d)
    requires !Contains(pre, d) && !Contains(t, d)
    ensures ParseBetweenDelimiters(pre + d + t + d + post, d) == Some(Strip(t))
  {
    WrappedLeftmostPair(pre, t, post, d);
    WrappedOccurrences(pre, d, t, post);
    PairParse(pre + d + t + d + post, d, |pre|, |pre| + |d| + |t|, t);
  }

  /** With the default delimiter: a summary wrapped in `<<FINAL_SUMMARY>>` is recovered. */
  lemma FinalSummaryRoundTrip(pre: string, t: string, post: string)
    requires !Contains(pre, FinalSummaryMarker) && !Contains(t, FinalSummaryMarker)
    ensures ParseBetweenDelimiters(pre + FinalSummaryMarker + t + FinalSummaryMarker + post, FinalSummaryMarker)
      == Some(Strip(t))
  {
    FinalSummaryMarkerBorderFree();
    BetweenRoundTrip(pre, t, post, FinalSummaryMarker);
  }

  const DescriptorMarker: string := "<<UPDATED_DESCRIPTOR>>"

  /** `d` occurs first at `i` and last at `j`. */
  ghost predicate FirstLast(s: string, d: string, i: int, j: int) {
    OccursAt(s, d, i) && OccursAt(s, d, j)
    && (forall k :: 0 <= k < i ==> !OccursAt(s, d, k))
    && (forall k :: j < k ==> !OccursAt(s, d, k))
  }

  /** The `ValueError` raised when the markers are missing. */
  datatype ParseError = DelimitersNotFound

  /** `parse_updated_descriptor`: the stripped text between the first and the last marker;
      an error unless the marker occurs at two different places. */
  function ParseUpdatedDescriptor(output: string): Result<string, ParseError> {
    match (Find(output, DescriptorMarker), RFind(output, DescriptorMarker))
    case (Some(i), Some(j)) =>
      if i == j then Err(DelimitersNotFound)
      else Ok(Strip(PySlice(output, i + |DescriptorMarker|, j)))
    case _ => Err(DelimitersNotFound)
  }

  /** Success exactly when the marker occurs at two different places. */
  lemma ParseUpdatedDescriptorOk(output: string)
    ensures ParseUpdatedDescriptor(output).Ok? <==>
      (exists i, j :: OccursAt(output, DescriptorMarker, i) && OccursAt(output, DescriptorMarker, j) && i < j)
  {
    var m := DescriptorMarker;
    match Find(output, m)
    case None =>
    case Some(i) =>
      var j := RFind(output, m).value;
      forall a, b | OccursAt(output, m, a) && OccursAt(output, m, b)
        ensures i <= a <= j && i <= b <= j
      {
      }
  }

  /** The text is then what lies between the first and the last marker, stripped (empty
      when the two overlap). */
  lemma ParseUpdatedDescriptorValue(output: string)
    requires ParseUpdatedDescriptor(output).Ok?
    ensures exists i, j :: (FirstLast(output, DescriptorMarker, i, j)
      && ParseUpdatedDescriptor(output).value == Strip(PySlice(output, i + |DescriptorMarker|, j)))
  {
    var m := DescriptorMarker;
    var first, last := Find(output, m), RFind(output, m);
    assert first.Some? && last.Some?;
    var i, j := first.value, last.value;
    assert ParseUpdatedDescriptor(output).value == Strip(PySlice(output, i + |m|, j));
    assert forall k :: 0 <= k < i ==> !OccursAt(output, m, k);
    assert FirstLast(output, m, i, j);
  }

  /** `parse_updated_descriptor` on a text whose first marker is at `i` and last at `j`. */
  lemma FirstLastParse(output: string, i: nat, j: nat, t: string)
    requires FirstLast(output, DescriptorMarker, i, j) && i < j
    requires PySlice(output, i + |DescriptorMarker|, j) == t
    ensures ParseUpdatedDescriptor(output) == Ok(Strip(t))
  {
    FindFromAt(output, DescriptorMarker, 0, i);
    RFindAt(output, DescriptorMarker, j);
  }

  lemma DescriptorMarkerBorderFree()
    ensures BorderFree(DescriptorMarker)
  {
    AngleMarkerBorderFree(DescriptorMarker);
  }

  /** In `pre + d + t + d + post`, the marker after `pre` is the first and the one after
      `t` the last. */
  lemma WrappedFirstLast(pre: string, t: string, post: string)
    requires !Contains(pre, DescriptorMarker) && !Contains(post, DescriptorMarker)
    ensures var d := DescriptorMarker;
      FirstLast(pre + d + t + d + post, d, |pre|, |pre| + |d| + |t|)
  {
    DescriptorMarkerBorderFree();
    WrappedFirstLastAny(pre, t, post, DescriptorMarker);
  }

  /** The same for any border-free delimiter. */
  lemma WrappedFirstLastAny(pre: string, t: string, post: string, d: string)
    requires BorderFree(d) && !Contains(pre, d) && !Contains(post, d)
    ensures FirstLast(pre + d + t + d + post, d, |pre|, |pre| + |d| + |t|)
  {
    var w := pre + d + t + d + post;
    WrappedOccurrences(pre, d, t, post);
    forall k | 0 <= k < |pre|
      ensures !OccursAt(w, d, k)
    {
      assert w == pre + d + (t + d + post);
      OccurrenceBefore(pre, d, t + d + post, k);
    }
    forall k | |pre| + |d| + |t| < k
      ensures !OccursAt(w, d, k)
    {
      OccurrenceAfter(pre + d + t, d, post, k);
    }
  }

  /** The descriptor between the first and the last marker comes back stripped; it may
      itself contain the marker. */
  lemma DescriptorRoundTrip(pre: string, t: string, post: string)
    requires !Contains(pre, DescriptorMarker) && !Contains(post, DescriptorMarker)
    ensures ParseUpdatedDescriptor(pre + DescriptorMarker + t + DescriptorMarker + post) == Ok(Strip(t))
  {
    var d := DescriptorMarker;
    WrappedFirstLast(pre, t, post);
    WrappedOccurrences(pre, d, t, post);
    FirstLastParse(pre + d + t + d + post, |pre|, |pre| + |d| + |t|, t);
  }

  /** One marker, or none, is an error. */
  lemma DescriptorNeedsTwoMarkers(pre: string, post: string)
    requires !Contains(pre, DescriptorMarker) && !Contains(post, DescriptorMarker)
    ensures ParseUpdatedDescriptor(pre + DescriptorMarker + post).Err?
  {
    var d := DescriptorMarker;
    DescriptorMarkerBorderFree();
    var w := pre + d + post;
    forall k | OccursAt(w, d, k)
      ensures k == |pre|
    {
      if k < |pre| {
        OccurrenceBefore(pre, d, post, k);
      } else if k > |pre| {
        OccurrenceAfter(pre, d, post, k);
      }
    }
    ParseUpdatedDescriptorOk(w);
  }
}

=== FILE: notion_grouping.dfy ===
/**
 * The in-memory part of `NotionManager.get_all_pages_in_hierarchy_grouped` and
 * `add_combined_heading`: the parent-path walk over exported pages, the grouping of
 * paragraph blocks under the current h1/h2/h3 headings, and the breadcrumb strings.
 * Pages are the exported dictionary's items, in iteration order.
 */
module NotionGrouping {
  import opened Wrappers
  import opened Text

  /** One element of a `rich_text` list: a plain string or an object with a `text` key. */
  datatype RichItem = RichStr(s: string) | RichObj(text: Option<string>)

  /** A normalised block: its type (`""` when missing), its `rich_text` (`None` when it is
      not a list) and its id. */
  datatype Block = Block(kind: string, richText: Option<seq<RichItem>>, id: Option<string>)

  datatype Page = Page(title: string, parentId: Option<string>, blocks: seq<Block>)

  /** One grouped paragraph with its headings and breadcrumbs. */
  datatype Item = Item(
    pageId: string, page: string, path: string,
    h1: Option<string>, h2: Option<string>, h3: Option<string>,
    paragraph: string, blockIds: seq<Option<string>>, combined: string)

  const DefaultFolder: string := "AI-assistant"
  const PathSeparator: string := " > "
  const PieceSeparator: string := " "
  const ContentKinds: set<string> := {
    "paragraph", "quote", "bulleted_list_item", "numbered_list_item",
    "callout", "code", "image", "bookmark", "toggle"
  }

  // ---------------------------------------------------------------------------
  // Page lookup and the parent path

  function Keys(data: seq<(string, Page)>): set<string>
    decreases |data|
  {
    if data == [] then {} else {data[0].0} + Keys(data[1..])
  }

  /** `data_by_page_id.get(page_id)`. */
  function Lookup(data: seq<(string, Page)>, id: string): (r: Option<Page>)
    ensures r.Some? ==> id in Keys(data)
    decreases |data|
  {
    if data == [] then None
    else if data[0].0 == id then Some(data[0].1)
    else Lookup(data[1..], id)
  }

  /** Visiting one more known page leaves one page fewer to visit. */
  lemma VisitOne(keys: set<string>, visited: set<string>, v: string)
    requires v in keys && v !in visited
    ensures |keys - (visited + {v})| < |keys - visited|
  {
    var rest := keys - (visited + {v});
    assert keys - visited == rest + {v};
    assert v !in rest;
  }

  /** The stripped titles of the pages the walk visits, nearest first. The walk stops at a
      missing or empty id, at an id it has already visited, and at an unknown page; so it
      visits each known page at most once. */
  function Walk(data: seq<(string, Page)>, id: Option<string>, visited: set<string>): (r: seq<string>)
    ensures |r| <= |Keys(data) - visited|
    decreases |Keys(data) - visited|
  {
    if id.None? || id.value == [] || id.value in visited then []
    else
      match Lookup(data, id.value)
      case None => []
      case Some(p) =>
        var v := id.value;
        VisitOne(Keys(data), visited, v);
        [Strip(p.title)] + Walk(data, p.parentId, visited + {v})
  }

  /** The non-empty entries, in order. */
  function NonBlank(ts: seq<string>): (r: seq<string>)
    ensures forall i :: 0 <= i < |r| ==> r[i] != []
    ensures |r| <= |ts|
    decreases |ts|
  {
    if ts == [] then [] else (if ts[0] != [] then [ts[0]] else []) + NonBlank(ts[1..])
  }

  function Reverse<T>(s: seq<T>): (r: seq<T>)
    ensures |r| == |s|
    ensures forall i :: 0 <= i < |s| ==> r[i] == s[|s| - 1 - i]
    decreases |s|
  {
    if s == [] then [] else Reverse(s[1..]) + [s[0]]
  }

  /** `get_parent_path(page_id)`: the non-blank titles of the walk, root first. */
  function ParentPath(data: seq<(string, Page)>, id: Option<string>): seq<string> {
    Reverse(NonBlank(Walk(data, id, {})))
  }

  lemma {:induction false} WalkStripped(data: seq<(string, Page)>, id: Option<string>, visited: set<string>)
    ensures forall i :: 0 <= i < |Walk(data, id, visited)| ==> IsStripped(Walk(data, id, visited)[i])
    decreases |Keys(data) - visited|
  {
    if !(id.None? || id.value == [] || id.value in visited) {
      match Lookup(data, id.value)
      case None =>
      case Some(p) =>
        var v := id.value;
        VisitOne(Keys(data), visited, v);
        WalkStripped(data, p.parentId, visited + {v});
        StripIsStripped(p.title);
    }
  }

  lemma {:induction false} NonBlankKeeps(ts: seq<string>)
    requires forall i :: 0 <= i < |ts| ==> IsStripped(ts[i])
    ensures forall i :: 0 <= i < |NonBlank(ts)| ==> IsStripped(NonBlank(ts)[i])
    decreases |ts|
  {
    if ts != [] {
      NonBlankKeeps(ts[1..]);
    }
  }

  /** The parent path holds non-empty titles without surrounding whitespace, at most one
      per known page: the walk cannot loop. */
  lemma ParentPathShape(data: seq<(string, Page)>, id: Option<string>)
    ensures forall i :: 0 <= i < |ParentPath(data, id)| ==>
      ParentPath(data, id)[i] != [] && IsStripped(ParentPath(data, id)[i])
    ensures |ParentPath(data, id)| <= |Keys(data)|
  {
    var w := Walk(data, id, {});
    WalkStripped(data, id, {});
    NonBlankKeeps(w);
    assert Keys(data) - {} == Keys(data);
  }

  /** Root first: the starting page's own title, when it has one, comes last. */
  lemma ParentPathEndsWithStart(data: seq<(string, Page)>, id: string, p: Page)
    requires id != [] && Lookup(data, id) == Some(p) && Strip(p.title) != []
    ensures ParentPath(data, Some(id)) != []
    ensures ParentPath(data, Some(id))[|ParentPath(data, Some(id))| - 1] == Strip(p.title)
  {
    var w := Walk(data, Some(id), {});
    assert w[0] == Strip(p.title);
    assert NonBlank(w)[0] == Strip(p.title);
  }

  lemma NonBlankCons(t: string, rest: seq<string>)
    ensures NonBlank([t] + rest) == (if t != [] then [t] else []) + NonBlank(rest)
  {
    assert ([t] + rest)[1..] == rest;
  }

  lemma WalkStep(data: seq<(string, Page)>, id: Option<string>, visited: set<string>)
    requires id.Some? && id.value != [] && id.value !in visited
    ensures Lookup(data, id.value).None? ==> Walk(data, id, visited) == []
    ensures Lookup(data, id.value).Some? ==>
      var p := Lookup(data, id.value).value;
      Walk(data, id, visited) == [Strip(p.title)] + Walk(data, p.parentId, visited + {id.value})
  {
  }

  /** `get_parent_path`: the loop with its `visited` set. */
  method GetParentPath(data: seq<(string, Page)>, pageId: Option<string>) returns (r: seq<string>)
    ensures r == ParentPath(data, pageId)
  {
    var path: seq<string> := [];
    var visited: set<string> := {};
    var id := pageId;
    ghost var goal := NonBlank(Walk(data, pageId, {}));
    while id.Some? && id.value != [] && id.value !in visited
      invariant path + NonBlank(Walk(data, id, visited)) == goal
      decreases |Keys(data) - visited|
    {
      var v := id.value;
      WalkStep(data, id, visited);
      ghost var before := visited;
      visited := visited + {v};
      var page := Lookup(data, v);
      if page.None? {
        assert path + [] == path;
        break;
      }
      VisitOne(Keys(data), before, v);
      var title := Strip(page.value.title);
      ghost var next := Walk(data, page.value.parentId, visited);
      var kept: seq<string> := if title != [] then [title] else [];
      assert Walk(data, id, before) == [title] + next;
      NonBlankCons(title, next);
      assert path + kept + NonBlank(next) == goal by {
        AppendAssoc(path, kept, NonBlank(next));
      }
      path := path + kept;
      id := page.value.parentId;
    }
    assert NonBlank(Walk(data, id, visited)) == [] by {
      if !(id.Some? && id.value != [] && id.value !in visited) {
        assert Walk(data, id, visited) == [];
      }
    }
    assert path + [] == path;
    r := Reverse(path);
  }

  // ---------------------------------------------------------------------------
  // Grouping the blocks of one page

  /** `extract_text(rich_text)`: the pieces concatenated and stripped; `""` for a
      non-list. */
  function ExtractText(richText: Option<seq<RichItem>>): (r: string)
    ensures IsStripped(r)
  {
    match richText
    case None => []
    case Some(items) => StripIsStripped(Concat(items)); Strip(Concat(items))
  }

  function Concat(items: seq<RichItem>): string
    decreases |items|
  {
    if items == [] then []
    else
      var piece := match items[0] case RichStr(s) => s case RichObj(t) => t.GetOr([]);
      piece + Concat(items[1..])
  }

  /** What every item of one page shares: its id, its title and its parent path. */
  datatype PageContext = PageContext(pageId: string, pageName: string, parentPath: seq<string>)

  /** The parent path with a leading `folder_name` entry removed. */
  function PathBelowFolder(path: seq<string>, folderName: string): (r: seq<string>)
    ensures path != [] && path[0] == folderName ==> r == path[1..]
    ensures (path == [] || path[0] != folderName) ==> r == path
  {
    if path != [] && path[0] == folderName then path[1..] else path
  }

  function PageContextOf(data: seq<(string, Page)>, folderName: string, pageId: string, page: Page): PageContext {
    PageContext(pageId, page.title, PathBelowFolder(ParentPath(data, page.parentId), folderName))
  }

  /** The present headings, in order h1, h2, h3. */
  function Present(h1: Option<string>, h2: Option<string>, h3: Option<string>): seq<string> {
    (if h1.Some? then [h1.value] else []) + (if h2.Some? then [h2.value] else []) +
    (if h3.Some? then [h3.value] else [])
  }

  /** One part of the comprehension: its stripped text, unless that is blank. */
  function ValidOne(h: string): (r: seq<string>)
    ensures |r| <= 1
  {
    if Strip(h) != [] then [Strip(h)] else []
  }

  /** `[h.strip() for h in parts if h and h.strip()]`. */
  function Valid(parts: seq<string>): (r: seq<string>)
    ensures |r| <= |parts|
    decreases |parts|
  {
    if parts == [] then [] else ValidOne(parts[0]) + Valid(parts[1..])
  }

  lemma {:induction false} ValidShape(parts: seq<string>)
    ensures forall i :: 0 <= i < |Valid(parts)| ==> Valid(parts)[i] != [] && IsStripped(Valid(parts)[i])
    decreases |parts|
  {
    if parts != [] {
      ValidShape(parts[1..]);
      StripIsStripped(parts[0]);
    }
  }

  /** Blank parts are skipped and the others keep their order. */
  lemma {:induction false} ValidAppend(a: seq<string>, b: seq<string>)
    ensures Valid(a + b) == Valid(a) + Valid(b)
    decreases |a|
  {
    if a == [] {
      assert a + b == b;
    } else {
      assert (a + b)[0] == a[0];
      assert (a + b)[1..] == a[1..] + b;
      ValidAppend(a[1..], b);
    }
  }

  /** `combined_heading`: parent path, page name and the present headings, blank parts
      skipped, joined with " > ". */
  function CombinedHeading(ctx: PageContext, h1: Option<string>, h2: Option<string>, h3: Option<string>): string {
    Join(Valid(ctx.parentPath + [ctx.pageName] + Present(h1, h2, h3)), PathSeparator)
  }

  /** The breadcrumb is the valid path parts, then the page name, then the headings. */
  lemma CombinedHeadingParts(ctx: PageContext, h1: Option<string>, h2: Option<string>, h3: Option<string>)
    ensures CombinedHeading(ctx, h1, h2, h3) ==
      Join(Valid(ctx.parentPath) + Valid([ctx.pageName]) + Valid(Present(h1, h2, h3)), PathSeparator)
  {
    ValidAppend(ctx.parentPath + [ctx.pageName], Present(h1, h2, h3));
    ValidAppend(ctx.parentPath, [ctx.pageName]);
  }

  /** The loop state of one page: current headings, the pending group and its block ids,
      and the items emitted so far. */
  datatype GroupState = GroupState(
    h1: Option<string>, h2: Option<string>, h3: Option<string>,
    grouped: seq<string>, blockIds: seq<Option<string>>, out: seq<Item>)

  const GroupStart: GroupState := GroupState(None, None, None, [], [], [])

  /** `flush_group`: a non-empty group becomes one item and both buffers are reset. */
  function Flush(ctx: PageContext, st: GroupState): GroupState {
    if st.grouped == [] then st
    else
      var item := Item(ctx.pageId, ctx.pageName, Join(ctx.parentPath, PathSeparator),
        st.h1, st.h2, st.h3, Join(st.grouped, PieceSeparator), st.blockIds,
        CombinedHeading(ctx, st.h1, st.h2, st.h3));
      st.(grouped := [], blockIds := [], out := st.out + [item])
  }

  /** One block of the loop. */
  function GroupStep(ctx: PageContext, st: GroupState, b: Block): GroupState {
    var text := ExtractText(b.richText);
    if b.kind == "heading_1" then
      Flush(ctx, st).(h1 := Some(text), h2 := None, h3 := None)
    else if b.kind == "heading_2" then
      Flush(ctx, st).(h2 := Some(text), h3 := None)
    else if b.kind == "heading_3" then
      Flush(ctx, st).(h3 := Some(text))
    else if b.kind in ContentKinds && text != [] then
      st.(grouped := st.grouped + [text], blockIds := st.blockIds + [b.id])
    else
      st
  }

  function GroupRun(ctx: PageContext, blocks: seq<Block>): GroupState
    decreases |blocks|
  {
    if blocks == [] then GroupStart
    else GroupStep(ctx, GroupRun(ctx, blocks[..|blocks| - 1]), blocks[|blocks| - 1])
  }

  /** The items of one page: the loop, then the final flush. */
  function PageItems(ctx: PageContext, blocks: seq<Block>): seq<Item> {
    Flush(ctx, GroupRun(ctx, blocks)).out
  }

  /** `get_all_pages_in_hierarchy_grouped`, without the file write. */
  function AllItems(data: seq<(string, Page)>, folderName: string, n: nat): seq<Item>
    requires n <= |data|
  {
    if n == 0 then [] else AllItems(data, folderName, n - 1) + ItemsOfPage(data, folderName, n - 1)
  }

  lemma AllItemsSnoc(data: seq<(string, Page)>, folderName: string, m: nat)
    requires m < |data|
    ensures AllItems(data, folderName, m + 1) == AllItems(data, folderName, m) + ItemsOfPage(data, folderName, m)
  {
  }

  /** The items of the `k`-th page of `data`, under its own context. */
  function ItemsOfPage(data: seq<(string, Page)>, folderName: string, k: nat): seq<Item>
    requires k < |data|
  {
    PageItems(PageContextOf(data, folderName, data[k].0, data[k].1), data[k].1.blocks)
  }

  /** Every heading flushes the pending group first. An h1 clears h2 and h3; an h2 keeps h1
      and clears h3; an h3 keeps h1 and h2. */
  lemma HeadingStep(ctx: PageContext, st: GroupState, b: Block)
    requires Lockstep(st)
    requires b.kind in {"heading_1", "heading_2", "heading_3"}
    ensures var r := GroupStep(ctx, st, b);
      r.out == Flush(ctx, st).out && r.grouped == [] && r.blockIds == []
    ensures var r := GroupStep(ctx, st, b);
      b.kind == "heading_1" ==> r.h1 == Some(ExtractText(b.richText)) && r.h2.None? && r.h3.None?
    ensures var r := GroupStep(ctx, st, b);
      b.kind == "heading_2" ==> r.h1 == st.h1 && r.h2 == Some(ExtractText(b.richText)) && r.h3.None?
    ensures var r := GroupStep(ctx, st, b);
      b.kind == "heading_3" ==> r.h1 == st.h1 && r.h2 == st.h2 && r.h3 == Some(ExtractText(b.richText))
  {
  }

  /** Blocks of other types, and listed blocks with blank text, change nothing. */
  lemma IgnoredBlock(ctx: PageContext, st: GroupState, b: Block)
    requires b.kind !in {"heading_1", "heading_2", "heading_3"}
    requires b.kind !in ContentKinds || ExtractText(b.richText) == []
    ensures GroupStep(ctx, st, b) == st
  {
  }

  /** The pending pieces and their block ids grow in lockstep, and pieces are non-empty. */
  predicate Lockstep(st: GroupState) {
    |st.grouped| == |st.blockIds| && forall i :: 0 <= i < |st.grouped| ==> st.grouped[i] != []
  }

  /** An item's paragraph is its non-empty pieces joined by spaces, one per block id. */
  ghost predicate Aligned(it: Item) {
    |it.blockIds| >= 1 &&
    exists pieces: seq<string> ::
      |pieces| == |it.blockIds| && (forall i :: 0 <= i < |pieces| ==> pieces[i] != []) &&
      Join(pieces, PieceSeparator) == it.paragraph
  }

  ghost predicate AllAligned(items: seq<Item>) {
    forall i :: 0 <= i < |items| ==> Aligned(items[i])
  }

  lemma FlushAligned(ctx: PageContext, st: GroupState)
    requires Lockstep(st) && AllAligned(st.out)
    ensures Lockstep(Flush(ctx, st)) && AllAligned(Flush(ctx, st).out)
    ensures Flush(ctx, st).grouped == [] && Flush(ctx, st).blockIds == []
    ensures st.grouped == [] ==> Flush(ctx, st) == st
    ensures st.grouped != [] ==> |Flush(ctx, st).out| == |st.out| + 1
  {
    if st.grouped != [] {
      var f := Flush(ctx, st);
      var it := f.out[|f.out| - 1];
      assert Aligned(it) by {
        assert |st.grouped| == |it.blockIds| && Join(st.grouped, PieceSeparator) == it.paragraph;
      }
      forall i | 0 <= i < |f.out|
        ensures Aligned(f.out[i])
      {
        if i < |st.out| {
          assert f.out[i] == st.out[i];
        }
      }
    }
  }

  lemma GroupStepAligned(ctx: PageContext, st: GroupState, b: Block)
    requires Lockstep(st) && AllAligned(st.out)
    ensures Lockstep(GroupStep(ctx, st, b)) && AllAligned(GroupStep(ctx, st, b).out)
  {
    FlushAligned(ctx, st);
    var text := ExtractText(b.richText);
    if b.kind !in {"heading_1", "heading_2", "heading_3"} && b.kind in ContentKinds && text != [] {
      var r := GroupStep(ctx, st, b);
      assert r.out == st.out;
      assert r.grouped == st.grouped + [text] && r.blockIds == st.blockIds + [b.id];
    }
  }

  lemma {:induction false} GroupRunAligned(ctx: PageContext, blocks: seq<Block>)
    ensures Lockstep(GroupRun(ctx, blocks)) && AllAligned(GroupRun(ctx, blocks).out)
    decreases |blocks|
  {
    if blocks != [] {
      var n := |blocks| - 1;
      GroupRunAligned(ctx, blocks[..n]);
      GroupStepAligned(ctx, GroupRun(ctx, blocks[..n]), blocks[n]);
    }
  }

  /** Every emitted item carries one block id per paragraph piece. */
  lemma PageItemsAligned(ctx: PageContext, blocks: seq<Block>)
    ensures AllAligned(PageItems(ctx, blocks))
  {
    GroupRunAligned(ctx, blocks);
    FlushAligned(ctx, GroupRun(ctx, blocks));
  }

  lemma GroupRunSnoc(ctx: PageContext, blocks: seq<Block>, i: nat)
    requires i < |blocks|
    ensures GroupRun(ctx, blocks[..i + 1]) == GroupStep(ctx, GroupRun(ctx, blocks[..i]), blocks[i])
  {
    assert blocks[..i + 1][..i] == blocks[..i];
    assert blocks[..i + 1][i] == blocks[i];
  }

  /** The nested `flush_group`, on the state it shares with the loop. */
  method FlushGroup(ctx: PageContext, h1: Option<string>, h2: Option<string>, h3: Option<string>,
                    grouped: seq<string>, blockIds: seq<Option<string>>, out: seq<Item>)
    returns (grouped': seq<string>, blockIds': seq<Option<string>>, out': seq<Item>)
    ensures GroupState(h1, h2, h3, grouped', blockIds', out') ==
      Flush(ctx, GroupState(h1, h2, h3, grouped, blockIds, out))
  {
    grouped', blockIds', out' := grouped, blockIds, out;
    if grouped != [] {
      var item := Item(ctx.pageId, ctx.pageName, Join(ctx.parentPath, PathSeparator),
        h1, h2, h3, Join(grouped, PieceSeparator), blockIds,
        Join(Valid(ctx.parentPath + [ctx.pageName] + Present(h1, h2, h3)), PathSeparator));
      out' := out + [item];
      grouped' := [];
      blockIds' := [];
    }
  }

  /** The block loop of one page, with its final flush. */
  method GroupPage(ctx: PageContext, blocks: seq<Block>) returns (items: seq<Item>)
    ensures items == PageItems(ctx, blocks)
  {
    var h1: Option<string> := None;
    var h2: Option<string> := None;
    var h3: Option<string> := None;
    var grouped: seq<string> := [];
    var blockIds: seq<Option<string>> := [];
    items := [];
    for i := 0 to |blocks|
      invariant GroupState(h1, h2, h3, grouped, blockIds, items) == GroupRun(ctx, blocks[..i])
    {
      var b := blocks[i];
      GroupRunSnoc(ctx, blocks, i);
      var text := ExtractText(b.richText);
      if b.kind == "heading_1" {
        grouped, blockIds, items := FlushGroup(ctx, h1, h2, h3, grouped, blockIds, items);
        h1, h2, h3 := Some(text), None, None;
      } else if b.kind == "heading_2" {
        grouped, blockIds, items := FlushGroup(ctx, h1, h2, h3, grouped, blockIds, items);
        h2, h3 := Some(text), None;
      } else if b.kind == "heading_3" {
        grouped, blockIds, items := FlushGroup(ctx, h1, h2, h3, grouped, blockIds, items);
        h3 := Some(text);
      } else if b.kind in ContentKinds {
        if text != [] {
          grouped := grouped + [text];
          blockIds := blockIds + [b.id];
        }
      }
    }
    assert blocks[..|blocks|] == blocks;
    grouped, blockIds, items := FlushGroup(ctx, h1, h2, h3, grouped, blockIds, items);
  }

  /** `get_all_pages_in_hierarchy_grouped(data_by_page_id, folder_name)`. */
  method GroupAllPages(data: seq<(string, Page)>, folderName: string := DefaultFolder) returns (all: seq<Item>)
    ensures all == AllItems(data, folderName, |data|)
  {
    all := [];
    for n := 0 to |data|
      invariant all == AllItems(data, folderName, n)
    {
      var items := GroupOnePage(data, folderName, n);
      AllItemsSnoc(data, folderName, n);
      all := all + items;
    }
  }

  /** One round of `group_all_pages`' loop: the page's context, its parent path without
      the leading folder name, then the page's items. */
  method GroupOnePage(data: seq<(string, Page)>, folderName: string, n: nat) returns (items: seq<Item>)
    requires n < |data|
    ensures items == ItemsOfPage(data, folderName, n)
  {
    var (pageId, page) := data[n];
    var parentPath := GetParentPath(data, page.parentId);
    if parentPath != [] && parentPath[0] == folderName {
      parentPath := parentPath[1..];
    }
    var ctx := PageContext(pageId, page.title, parentPath);
    assert ctx == PageContextOf(data, folderName, data[n].0, data[n].1);
    items := GroupPage(ctx, page.blocks);
  }

  lemma AllAlignedAppend(a: seq<Item>, b: seq<Item>)
    requires AllAligned(a) && AllAligned(b)
    ensures AllAligned(a + b)
  {
    forall i | 0 <= i < |a + b|
      ensures Aligned((a + b)[i])
    {
      if i < |a| { assert (a + b)[i] == a[i]; } else { assert (a + b)[i] == b[i - |a|]; }
    }
  }

  lemma PageAppendAligned(before: seq<Item>, data: seq<(string, Page)>, folderName: string, k: nat)
    requires k < |data| && AllAligned(before)
    ensures AllAligned(before + ItemsOfPage(data, folderName, k))
  {
    var ctx := PageContextOf(data, folderName, data[k].0, data[k].1);
    PageItemsAligned(ctx, data[k].1.blocks);
    AllAlignedAppend(before, PageItems(ctx, data[k].1.blocks));
  }

  /** Every item of the result carries one block id per paragraph piece. */
  lemma {:induction false} AllItemsAligned(data: seq<(string, Page)>, folderName: string, n: nat)
    requires n <= |data|
    ensures AllAligned(AllItems(data, folderName, n))
  {
    if n > 0 {
      var m: nat := n - 1;
      AllItemsAligned(data, folderName, m);
      PageAppendAligned(AllItems(data, folderName, m), data, folderName, m);
      AllItemsSnoc(data, folderName, m);
    }
  }

  // ---------------------------------------------------------------------------
  // add_combined_heading

  /** The `">" + heading` suffix of one heading, nothing for a missing one. */
  function HeadingSuffix(h: Option<string>): string {
    match h
    case None => []
    case Some(t) => ">" + t
  }

  /** The loop over `[h1, h2, h3]` for one item. */
  method CombineHeadings(it: Item) returns (combined: string)
    ensures combined == it.page + HeadingSuffix(it.h1) + HeadingSuffix(it.h2) + HeadingSuffix(it.h3)
  {
    combined := it.page;
    var headings := [it.h1, it.h2, it.h3];
    for i := 0 to 3
      invariant combined == it.page + Suffixes(headings[..i])
    {
      var heading := headings[i];
      SuffixesSnoc(headings, i);
      if heading.Some? {
        AppendAssoc(it.page, Suffixes(headings[..i]), HeadingSuffix(heading));
        AppendAssoc(combined, ">", heading.value);
        combined := combined + ">" + heading.value;
      } else {
        AppendEmpty(combined);
      }
    }
    assert headings[..3] == headings;
    SuffixesThree(it.h1, it.h2, it.h3);
    AppendAssoc(it.page, HeadingSuffix(it.h1) + HeadingSuffix(it.h2), HeadingSuffix(it.h3));
    AppendAssoc(it.page, HeadingSuffix(it.h1), HeadingSuffix(it.h2));
  }

  /** The suffixes of a list of optional headings, in order. */
  function Suffixes(hs: seq<Option<string>>): string
    decreases |hs|
  {
    if |hs| == 0 then [] else Suffixes(hs[..|hs| - 1]) + HeadingSuffix(hs[|hs| - 1])
  }

  lemma SuffixesSnoc(hs: seq<Option<string>>, i: nat)
    requires i < |hs|
    ensures Suffixes(hs[..i + 1]) == Suffixes(hs[..i]) + HeadingSuffix(hs[i])
  {
    assert hs[..i + 1][..i] == hs[..i];
  }

  lemma SuffixesThree(h1: Option<string>, h2: Option<string>, h3: Option<string>)
    ensures Suffixes([h1, h2, h3]) == HeadingSuffix(h1) + HeadingSuffix(h2) + HeadingSuffix(h3)
  {
    assert Suffixes([h1]) == HeadingSuffix(h1) by {
      assert [h1][..0] == [];
      assert [] + HeadingSuffix(h1) == HeadingSuffix(h1);
    }
    assert Suffixes([h1, h2]) == HeadingSuffix(h1) + HeadingSuffix(h2) by {
      assert [h1, h2][..1] == [h1];
    }
    assert [h1, h2, h3][..2] == [h1, h2];
  }

  /** `add_combined_heading`: every item's `combined` becomes its page name followed by
      `">" + h` for each present heading, in the order h1, h2, h3; nothing else changes. */
  method AddCombinedHeading(data: array<Item>)
    modifies data
    ensures forall i :: 0 <= i < data.Length ==>
      data[i] == old(data[i]).(combined := old(data[i]).page + HeadingSuffix(old(data[i]).h1) +
        HeadingSuffix(old(data[i]).h2) + HeadingSuffix(old(data[i]).h3))
  {
    for i := 0 to data.Length
      invariant forall k :: i <= k < data.Length ==> data[k] == old(data[k])
      invariant forall k :: 0 <= k < i ==>
        data[k] == old(data[k]).(combined := old(data[k]).page + HeadingSuffix(old(data[k]).h1) +
          HeadingSuffix(old(data[k]).h2) + HeadingSuffix(old(data[k]).h3))
    {
      var combined := CombineHeadings(data[i]);
      data[i] := data[i].(combined := combined);
    }
  }
}

=== FILE: notion_urls.dfy ===
/**
 * `make_notion_urls`: a page title becomes a URL slug (disallowed symbols removed,
 * whitespace and hyphen runs collapsed, a doubled title halved), and the page URL is
 * followed by one `#block` anchor per block id.
 */
module NotionUrls {
  import opened Wrappers
  import opened Text

  const NotionBase: string := "https://www.notion.so/"

  /** The Python values `block_ids` can hold, as far as this function tells them apart. */
  datatype PyValue =
    | PyNone
    | PyStr(s: string)
    | PyList(items: seq<PyValue>)
    | PyTuple(items: seq<PyValue>)
    | PyBytes(b: seq<bv8>)
    | PyOther(truthy: bool)

  /** The exceptions `make_notion_urls` lets escape. */
  datatype UrlError = ValueError | TypeError | AttributeError

  /** What `bid.replace("-", "")` raises on a block id that is not a string: `bytes` has a
      `replace` that rejects a `str` argument, every other value has no `replace` at all. */
  function ReplaceError(bid: PyValue): UrlError {
    if bid.PyBytes? then TypeError else AttributeError
  }

  /** Python truthiness, as in `if block_ids:`. */
  predicate Truthy(v: PyValue) {
    match v
    case PyNone => false
    case PyStr(s) => s != []
    case PyList(items) => items != []
    case PyTuple(items) => items != []
    case PyBytes(b) => b != []
    case PyOther(t) => t
  }

  // ---------------------------------------------------------------------------
  // The slug

  /** `\w` of `re`, on ASCII: letters, digits and the underscore. */
  predicate IsWordChar(c: char) {
    ('a' <= c <= 'z') || ('A' <= c <= 'Z') || ('0' <= c <= '9') || c == '_'
  }

  /** The characters `[\w\s-]` keeps. */
  predicate Allowed(c: char) {
    IsWordChar(c) || IsSpace(c) || c == '-'
  }

  /** `re.sub(r'[^\w\s-]', '', title)`. */
  function RemoveDisallowed(title: string): (r: string)
    ensures forall i :: 0 <= i < |r| ==> Allowed(r[i])
    ensures |r| <= |title|
    decreases |title|
  {
    if title == [] then []
    else (if Allowed(title[0]) then [title[0]] else []) + RemoveDisallowed(title[1..])
  }

  /** The characters of the class `[\s-]`. */
  predicate IsSlugSep(c: char) {
    IsSpace(c) || c == '-'
  }

  /** Number of leading `[\s-]` characters. */
  function SepRun(s: string): (n: nat)
    ensures n <= |s|
    ensures n < |s| ==> !IsSlugSep(s[n])
    decreases |s|
  {
    if s != [] && IsSlugSep(s[0]) then 1 + SepRun(s[1..]) else 0
  }

  /** `re.sub(r'[\s-]+', '-', s)`: every maximal run of whitespace and hyphens becomes
      one hyphen. */
  function Collapse(s: string): (r: string)
    ensures s == [] ==> r == []
    ensures s != [] && IsSlugSep(s[0]) ==> r != [] && r[0] == '-'
    ensures s != [] && !IsSlugSep(s[0]) ==> r != [] && r[0] == s[0]
    decreases |s|
  {
    if s == [] then []
    else if IsSlugSep(s[0]) then
      var n := SepRun(s);
      "-" + Collapse(s[n..])
    else
      [s[0]] + Collapse(s[1..])
  }

  /** No whitespace, and no two hyphens in a row. */
  predicate Collapsed(r: string) {
    (forall i :: 0 <= i < |r| ==> !IsSpace(r[i])) &&
    (forall i :: 0 <= i < |r| - 1 ==> !(r[i] == '-' && r[i + 1] == '-'))
  }

  lemma {:induction false} CollapseIsCollapsed(s: string)
    ensures Collapsed(Collapse(s))
    decreases |s|
  {
    if s != [] {
      var r := Collapse(s);
      if IsSlugSep(s[0]) {
        var n := SepRun(s);
        assert n >= 1;
        var t := s[n..];
        CollapseIsCollapsed(t);
        assert r == "-" + Collapse(t);
        forall i | 0 <= i < |r|
          ensures !IsSpace(r[i])
        {
          if i > 0 {
            assert r[i] == Collapse(t)[i - 1];
          }
        }
        forall i | 0 <= i < |r| - 1
          ensures !(r[i] == '-' && r[i + 1] == '-')
        {
          if i > 0 {
            assert r[i] == Collapse(t)[i - 1] && r[i + 1] == Collapse(t)[i];
          } else {
            assert t != [] && !IsSlugSep(t[0]);
          }
        }
      } else {
        var t := s[1..];
        CollapseIsCollapsed(t);
        assert r == [s[0]] + Collapse(t);
        forall i | 0 <= i < |r|
          ensures !IsSpace(r[i])
        {
          if i > 0 {
            assert r[i] == Collapse(t)[i - 1];
          }
        }
        forall i | 0 <= i < |r| - 1
          ensures !(r[i] == '-' && r[i + 1] == '-')
        {
          if i > 0 {
            assert r[i] == Collapse(t)[i - 1] && r[i + 1] == Collapse(t)[i];
          }
        }
      }
    }
  }

  /** The text with every `[\s-]` character removed. */
  function Words(s: string): string
    decreases |s|
  {
    if s == [] then [] else (if IsSlugSep(s[0]) then [] else [s[0]]) + Words(s[1..])
  }

  lemma {:induction false} WordsOfSepRun(s: string, n: nat)
    requires n <= SepRun(s)
    ensures Words(s) == Words(s[n..])
    decreases n
  {
    if n > 0 {
      assert s != [] && IsSlugSep(s[0]);
      assert s[1..][n - 1..] == s[n..];
      WordsOfSepRun(s[1..], n - 1);
    }
  }

  /** Collapsing only rewrites separators: the other characters stay, in order. */
  lemma {:induction false} CollapseKeepsWords(s: string)
    ensures Words(Collapse(s)) == Words(s)
    decreases |s|
  {
    if s != [] {
      var r := Collapse(s);
      if IsSlugSep(s[0]) {
        var n := SepRun(s);
        var t := s[n..];
        CollapseKeepsWords(t);
        WordsOfSepRun(s, n);
        assert r == "-" + Collapse(t);
        assert r[1..] == Collapse(t);
      } else {
        var t := s[1..];
        CollapseKeepsWords(t);
        assert r == [s[0]] + Collapse(t);
        assert r[1..] == Collapse(t);
      }
    }
  }

  /** `'-'.join(a + b)` is the two joins around one more hyphen. */
  lemma {:induction false} JoinConcat(a: seq<string>, b: seq<string>, sep: string)
    requires |a| >= 1 && |b| >= 1
    ensures Join(a + b, sep) == Join(a, sep) + sep + Join(b, sep)
    decreases |a|
  {
    if |a| == 1 {
      assert (a + b)[1..] == b;
      assert (a + b)[0] == a[0];
    } else {
      assert (a + b)[1..] == a[1..] + b;
      assert (a + b)[0] == a[0];
      JoinConcat(a[1..], b, sep);
    }
  }

  /** The duplicate-half step: split at hyphens, and keep only the first half when the
      number of parts is even and both halves are equal. */
  function Dedup(slug: string): string {
    var parts := Split(slug, '-');
    var half := |parts| / 2;
    if |parts| % 2 == 0 && parts[..half] == parts[half..] then Join(parts[..half], "-") else slug
  }

  /** The duplicate-half step only ever shortens the slug to one of its prefixes. */
  lemma DedupIsPrefix(slug: string)
    ensures StartsWith(slug, Dedup(slug))
  {
    var parts := Split(slug, '-');
    var half := |parts| / 2;
    if |parts| % 2 == 0 && parts[..half] == parts[half..] {
      assert parts == parts[..half] + parts[half..];
      JoinConcat(parts[..half], parts[half..], "-");
      var first := Join(parts[..half], "-");
      assert slug == first + "-" + Join(parts[half..], "-");
      assert slug[..|first|] == first;
    }
  }

  /** A title repeated twice, hyphen-joined, collapses to one copy. */
  lemma DedupDoubled(p: seq<string>)
    requires |p| >= 1
    requires forall i :: 0 <= i < |p| ==> '-' !in p[i]
    ensures Dedup(Join(p + p, "-")) == Join(p, "-")
  {
    var pp := p + p;
    assert forall i :: 0 <= i < |pp| ==> '-' !in pp[i] by {
      forall i | 0 <= i < |pp|
        ensures '-' !in pp[i]
      {
        if i < |p| { assert pp[i] == p[i]; } else { assert pp[i] == p[i - |p|]; }
      }
    }
    SplitJoin(pp, '-');
    assert pp[..|p|] == p && pp[|p|..] == p;
  }

  /** `slug` of `make_notion_urls`. */
  function Slug(title: string): string {
    Dedup(Collapse(Strip(RemoveDisallowed(title))))
  }

  lemma CollapsedPrefix(r: string, k: nat)
    requires Collapsed(r) && k <= |r|
    ensures Collapsed(r[..k])
  {
  }

  /** The slug has no whitespace and no run of hyphens, and keeps only `[\w-]` characters. */
  lemma SlugShape(title: string)
    ensures Collapsed(Slug(title))
    ensures forall i :: 0 <= i < |Slug(title)| ==> IsWordChar(Slug(title)[i]) || Slug(title)[i] == '-'
  {
    var kept := RemoveDisallowed(title);
    var stripped := Strip(kept);
    var collapsed := Collapse(stripped);
    CollapseIsCollapsed(stripped);
    CollapseAllowed(stripped);
    StripAllowed(kept);
    DedupIsPrefix(collapsed);
    CollapsedPrefix(collapsed, |Slug(title)|);
    assert Slug(title) == collapsed[..|Slug(title)|];
  }

  lemma StripAllowed(s: string)
    requires forall i :: 0 <= i < |s| ==> Allowed(s[i])
    ensures forall i :: 0 <= i < |Strip(s)| ==> Allowed(Strip(s)[i])
  {
    var cs := PyWhitespace;
    if LeadCount(s, cs) < |s| {
      forall i | 0 <= i < |Strip(s)|
        ensures Allowed(Strip(s)[i])
      {
        assert Strip(s)[i] == s[LeadCount(s, cs) + i];
      }
    }
  }

  lemma {:induction false} CollapseAllowed(s: string)
    requires forall i :: 0 <= i < |s| ==> Allowed(s[i])
    ensures forall i :: 0 <= i < |Collapse(s)| ==> IsWordChar(Collapse(s)[i]) || Collapse(s)[i] == '-'
    decreases |s|
  {
    if s != [] {
      var r := Collapse(s);
      var t := if IsSlugSep(s[0]) then s[SepRun(s)..] else s[1..];
      assert forall i :: 0 <= i < |t| ==> Allowed(t[i]) by {
        forall i | 0 <= i < |t|
          ensures Allowed(t[i])
        {
          if IsSlugSep(s[0]) {
            assert t[i] == s[SepRun(s) + i];
          } else {
            assert t[i] == s[1 + i];
          }
        }
      }
      CollapseAllowed(t);
      assert r[1..] == Collapse(t);
      forall i | 0 <= i < |r|
        ensures IsWordChar(r[i]) || r[i] == '-'
      {
        if i > 0 {
          assert r[i] == Collapse(t)[i - 1];
        }
      }
    }
  }

  /** `base`: the Notion address, the slug, a hyphen and the page id without hyphens. */
  function BaseUrl(title: string, pageId: string): string {
    NotionBase + Slug(title) + "-" + RemoveChar(pageId, '-')
  }

  /** The page id part of the base URL carries no hyphen. */
  lemma BaseUrlShape(title: string, pageId: string)
    ensures var id := RemoveChar(pageId, '-');
      '-' !in id && BaseUrl(title, pageId)[|BaseUrl(title, pageId)| - |id|..] == id
    ensures StartsWith(BaseUrl(title, pageId), NotionBase + Slug(title) + "-")
  {
    var head := NotionBase + Slug(title) + "-";
    var id := RemoveChar(pageId, '-');
    assert BaseUrl(title, pageId) == head + id;
    assert (head + id)[..|head|] == head;
  }

  // ---------------------------------------------------------------------------
  // The block ids

  /** The list of ids `block_ids` stands for: a string is parsed with `literalEval`
      (`ast.literal_eval`; `None` when it raises), and the result must be a list or tuple. */
  function IdList(blockIds: PyValue, literalEval: string -> Option<PyValue>): Result<seq<PyValue>, UrlError> {
    var parsed := if blockIds.PyStr? then literalEval(blockIds.s) else Some(blockIds);
    match parsed
    case None => Err(ValueError)
    case Some(v) => if v.PyList? || v.PyTuple? then Ok(v.items) else Err(TypeError)
  }

  predicate AllStrings(ids: seq<PyValue>) {
    forall i :: 0 <= i < |ids| ==> ids[i].PyStr?
  }

  /** The position of the first id that is not a string, or `|ids|` when there is none. */
  function FirstNonString(ids: seq<PyValue>): (k: nat)
    ensures k <= |ids|
    ensures forall i :: 0 <= i < k ==> ids[i].PyStr?
    ensures k < |ids| ==> !ids[k].PyStr?
    decreases |ids|
  {
    if ids == [] || !ids[0].PyStr? then 0
    else
      var k := FirstNonString(ids[1..]);
      assert forall i :: 1 <= i < 1 + k ==> ids[i] == ids[1..][i - 1];
      1 + k
  }

  /** The slug rewriting of `make_notion_urls`, step by step. */
  method MakeSlug(pageTitle: string) returns (slug: string)
    ensures slug == Slug(pageTitle)
  {
    var cleanTitle := Strip(RemoveDisallowed(pageTitle));
    slug := Collapse(cleanTitle);
    var parts := Split(slug, '-');
    var half := |parts| / 2;
    if |parts| % 2 == 0 && parts[..half] == parts[half..] {
      slug := Join(parts[..half], "-");
    }
  }

  /** The loop over the ids: one anchor URL per id, in order; the first non-string id
      raises. */
  method AnchorUrls(base: string, ids: seq<PyValue>) returns (r: Result<seq<string>, UrlError>)
    ensures r.Ok? <==> AllStrings(ids)
    ensures !AllStrings(ids) ==> r == Err(ReplaceError(ids[FirstNonString(ids)]))
    ensures r.Ok? ==> (|r.value| == |ids| &&
      forall i :: 0 <= i < |ids| ==> r.value[i] == base + "#" + RemoveChar(ids[i].s, '-'))
  {
    var urls: seq<string> := [];
    for i := 0 to |ids|
      invariant |urls| == i
      invariant forall k :: 0 <= k < i ==> ids[k].PyStr? && urls[k] == base + "#" + RemoveChar(ids[k].s, '-')
    {
      if !ids[i].PyStr? {
        return Err(ReplaceError(ids[i]));
      }
      var cleanBid := RemoveChar(ids[i].s, '-');
      urls := urls + [base + "#" + cleanBid];
    }
    return Ok(urls);
  }

  /** `make_notion_urls(page_title, page_id, block_ids)`. */
  method MakeNotionUrls(pageTitle: string, pageId: string, blockIds: PyValue, literalEval: string -> Option<PyValue>)
    returns (r: Result<seq<string>, UrlError>)
    ensures !Truthy(blockIds) ==> r == Ok([BaseUrl(pageTitle, pageId)])
    ensures Truthy(blockIds) && IdList(blockIds, literalEval).Err? ==> r == Err(IdList(blockIds, literalEval).error)
    ensures Truthy(blockIds) && IdList(blockIds, literalEval).Ok? ==>
      var ids := IdList(blockIds, literalEval).value;
      (r.Ok? <==> AllStrings(ids)) &&
      (!AllStrings(ids) ==> r == Err(ReplaceError(ids[FirstNonString(ids)]))) &&
      (r.Ok? ==> (|r.value| == |ids| &&
        forall i :: 0 <= i < |ids| ==> r.value[i] == BaseUrl(pageTitle, pageId) + "#" + RemoveChar(ids[i].s, '-')))
  {
    var slug := MakeSlug(pageTitle);
    var cleanPageId := RemoveChar(pageId, '-');
    var base := NotionBase + slug + "-" + cleanPageId;
    if Truthy(blockIds) {
      var ids := IdList(blockIds, literalEval);
      if ids.Err? {
        return Err(ids.error);
      }
      r := AnchorUrls(base, ids.value);
    } else {
      r := Ok([base]);
    }
  }
}

=== FILE: reflection_chain.dfy ===
/**
 * `ReflectionChain`: the critic. The same one-prompt, one-call `Run` as the generation chain,
 * with the reflection prompt as its default route.
 */
module Reflection {
  import opened Wrappers
  import opened ChatLog
  import opened Effects
  import opened EventLog
  import HeadingTree

  const ReflectionPrompt: string := "reflection"
  const RelevantBlockPrompt: string := "relevant_block"
  const QuestionAnsweringFeature: string := "question_answering"

  class ReflectionChain {
    /** `GroqModel()`. */
    const model: World

    constructor (model: World)
      ensures this.model == model
    {
      this.model := model;
    }

    /** `run`: prompt, send after the copied context history, return the critique. */
    method Run(contextHistory: Option<seq<Entry>> := None, promptType: string := ReflectionPrompt,
               feature: string := SummarizationFeature, args: Args)
      returns (r: Result<string, ChainError>)
      modifies model
      ensures Outcome(r, model.log) == model.Ask(old(model.log), contextHistory, Route(feature, promptType), args)
      ensures model.files == old(model.files)
    {
      var context := contextHistory.GetOr([]);
      var prompt := model.LoadPrompt(Route(feature, promptType), args);
      if prompt.None? {
        return Err(PromptMissing(Route(feature, promptType)));
      }
      var history := context;
      history := history + [Entry(UserRole, prompt.value)];
      var critique := model.ChatCompletion(history);
      history := history + [Entry(AssistantRole, critique)];
      r := Ok(critique);
    }

    /** `reflect(initial_summary, retrieved_context, heading_tree)`. */
    method Reflect(initialSummary: string, retrievedContext: string, headingTree: seq<HeadingTree.Node>)
      returns (r: Result<string, ChainError>)
      modifies model
      ensures Outcome(r, model.log) == model.Ask(old(model.log), None, Route(SummarizationFeature, ReflectionPrompt),
        ReflectArgs(initialSummary, retrievedContext, headingTree))
      ensures model.files == old(model.files)
    {
      r := Run(None, ReflectionPrompt, SummarizationFeature, ReflectArgs(initialSummary, retrievedContext, headingTree));
    }

    /** `select_block(question, retrieved_blocks)`. */
    method SelectBlock(question: string, retrievedBlocks: string) returns (r: Result<string, ChainError>)
      modifies model
      ensures Outcome(r, model.log) == model.Ask(old(model.log), None, Route(QuestionAnsweringFeature, RelevantBlockPrompt),
        map["question" := Str(question), "retrieved_blocks" := Str(retrievedBlocks)])
      ensures model.files == old(model.files)
    {
      r := Run(None, RelevantBlockPrompt, QuestionAnsweringFeature,
        map["question" := Str(question), "retrieved_blocks" := Str(retrievedBlocks)]);
    }
  }

  function ReflectArgs(initialSummary: string, retrievedContext: string, headingTree: seq<HeadingTree.Node>): Args {
    map["initial_summary" := Str(initialSummary), "retrieved_context" := Str(retrievedContext),
        "heading_tree" := Forest(headingTree)]
  }
}

=== FILE: summary_pipeline.dfy ===
/**
 * `SummaryPipeline.run_with_descriptor`: the summarization workflow. On an incremental run it
 * summarizes the new notes, has the reflection chain critique that draft against the old
 * descriptor and the heading tree of the established summary, regenerates, and updates the
 * descriptor; on a first run it summarizes once and builds the first descriptor. Either way
 * each exchange is recorded as a chat turn, the session is saved, and the final summary is
 * optionally pushed to Notion.
 */
module Pipeline {
  import opened Wrappers
  import opened Text
  import opened ChatLog
  import opened EventLog
  import opened Effects
  import opened Generation
  import opened Reflection
  import opened Descriptors
  import Chunker
  import HeadingTree
  import MarkdownParser

  const GenerationInitPrompt: string := "generation_init"
  const UserSide: string := "user"
  const GenerationSide: string := "generation_chain"
  const ReflectionSide: string := "reflection_chain"

  /** The returned dictionary. `finalSummaryMarkdown` is `None` when the push path found no
      delimited summary in the model's text. */
  datatype PipelineOutput = PipelineOutput(
    initialSummary: string, critique: string, finalSummaryMarkdown: Option<string>, newDescriptor: string)

  /** The heading forest the default chunker and the tree builder make of a summary. */
  function HeadingForest(summary: string): seq<HeadingTree.Node> {
    HeadingTree.EraseAll(HeadingTree.Forest(HeadingTree.Parsed(
      PyTake(Chunker.HeadingLines(Chunker.Lines(summary)), Chunker.DefaultMaxChunks))))
  }

  /** The chat turns of a path, before the closing descriptor turn. */
  function DraftTurns(firstTime: bool, rawNotes: string, initial: string, critique: string, final: string): seq<Turn> {
    if firstTime then
      [Turn(rawNotes, final, UserSide, GenerationSide)]
    else
      [Turn(rawNotes, initial, UserSide, GenerationSide),
       Turn(initial, critique, GenerationSide, ReflectionSide),
       Turn(critique, final, ReflectionSide, GenerationSide)]
  }

  /** The chat turns of a run, in order: the path's turns, then the final summary answered by
      the new descriptor. */
  function PipelineTurns(firstTime: bool, rawNotes: string, initial: string, critique: string,
                         final: string, newDescriptor: string): seq<Turn>
  {
    DraftTurns(firstTime, rawNotes, initial, critique, final) + [Turn(final, newDescriptor, GenerationSide, GenerationSide)]
  }

  /** What a path hands back: the drafts and the new descriptor. */
  datatype Drafts = Drafts(initialSummary: string, critique: string, finalSummary: string, newDescriptor: string)

  /** The prompts of a first run, in order, with their arguments. */
  function FirstRunPrompts(rawNotes: string, oldContent: string, final: string): seq<Event> {
    [Prompted(Route(SummarizationFeature, GenerationInitPrompt), map["input" := Str(rawNotes)])] +
    [Prompted(DescriptorRoute, DescriptorArgs(oldContent, final))]
  }

  /** The prompts of an incremental run, in order, with their arguments: the critique sees
      the initial summary, the old descriptor and the heading tree of the established summary. */
  function IncrementalPrompts(rawNotes: string, initial: string, critique: string,
                              oldContent: string, established: string, final: string): seq<Event>
  {
    [Prompted(Route(SummarizationFeature, GenerationPrompt), map["input" := Str(rawNotes)])] +
    [Prompted(Route(SummarizationFeature, ReflectionPrompt), ReflectArgs(initial, oldContent, HeadingForest(established)))] +
    [Prompted(Route(SummarizationFeature, RegenerationPrompt), RegenerationArgs(initial, critique))] +
    [Prompted(DescriptorRoute, DescriptorArgs(oldContent, final))]
  }

  /** The prompts of a run, in order, with their arguments. */
  function PipelinePrompts(firstTime: bool, rawNotes: string, initial: string, critique: string,
                           oldContent: string, established: string, final: string): seq<Event>
  {
    if firstTime then FirstRunPrompts(rawNotes, oldContent, final)
    else IncrementalPrompts(rawNotes, initial, critique, oldContent, established, final)
  }

  /** The descriptor call: the model is sent the descriptor prompt built from the old content
      and the final summary, and its reply carries the new descriptor between its markers. */
  predicate DescriptorCall(w: World, e: Event, oldContent: string, final: string, newDescriptor: string) {
    e.Completed? && e.messages == [Entry(UserRole, w.describe(oldContent, final))] &&
    MarkdownParser.ParseUpdatedDescriptor(e.response) == Ok(newDescriptor)
  }

  /** The model calls of a first run, in order: the final summary is the reply to the
      initial-summary prompt, and the new descriptor is parsed out of the second reply. */
  predicate FirstRunCalls(w: World, calls: seq<Event>, rawNotes: string, oldContent: string, d: Drafts) {
    |calls| == 2 &&
    calls[0] == Completed(Sent(w, Route(SummarizationFeature, GenerationInitPrompt), map["input" := Str(rawNotes)]),
                          d.finalSummary) &&
    DescriptorCall(w, calls[1], oldContent, d.finalSummary, d.newDescriptor)
  }

  /** The model calls of an incremental run, in order. Each reply is what the next step works
      on: the initial summary is the first reply, the critique the second, the final summary
      the third, and the new descriptor is parsed out of the fourth. */
  predicate IncrementalCalls(w: World, calls: seq<Event>, rawNotes: string, established: string,
                             oldContent: string, d: Drafts)
  {
    |calls| == 4 &&
    calls[0] == Completed(Sent(w, Route(SummarizationFeature, GenerationPrompt), map["input" := Str(rawNotes)]),
                          d.initialSummary) &&
    calls[1] == Completed(Sent(w, Route(SummarizationFeature, ReflectionPrompt),
                               ReflectArgs(d.initialSummary, oldContent, HeadingForest(established))),
                          d.critique) &&
    calls[2] == Completed(Sent(w, Route(SummarizationFeature, RegenerationPrompt),
                               RegenerationArgs(d.initialSummary, d.critique)),
                          d.finalSummary) &&
    DescriptorCall(w, calls[3], oldContent, d.finalSummary, d.newDescriptor)
  }

  /** The model calls after `before` are exactly those of the chosen path. */
  predicate PipelineCalls(w: World, before: seq<Event>, calls: seq<Event>, firstTime: bool, rawNotes: string,
                          established: string, oldContent: string, d: Drafts)
  {
    |before| <= |calls| && calls[..|before|] == before &&
    if firstTime then FirstRunCalls(w, calls[|before|..], rawNotes, oldContent, d)
    else IncrementalCalls(w, calls[|before|..], rawNotes, established, oldContent, d)
  }

  lemma CallsSplit(before: seq<Event>, tail: seq<Event>)
    ensures (before + tail)[..|before|] == before && (before + tail)[|before|..] == tail
  {
  }

  /** On a first run the established summary plays no part in the calls. */
  lemma FirstRunAnyEstablished(w: World, before: seq<Event>, calls: seq<Event>, rawNotes: string,
                               established: string, oldContent: string, d: Drafts)
    requires PipelineCalls(w, before, calls, true, rawNotes, "", oldContent, d)
    ensures PipelineCalls(w, before, calls, true, rawNotes, established, oldContent, d)
  {
  }

  /** Four calls in a row, each fed the previous reply, make up an incremental run. */
  lemma IncrementalCallsIntro(w: World, before: seq<Event>, calls: seq<Event>, rawNotes: string,
                              established: string, oldContent: string, d: Drafts, reply: string)
    requires calls == before +
      [Completed(Sent(w, Route(SummarizationFeature, GenerationPrompt), map["input" := Str(rawNotes)]), d.initialSummary)] +
      [Completed(Sent(w, Route(SummarizationFeature, ReflectionPrompt),
                      ReflectArgs(d.initialSummary, oldContent, HeadingForest(established))), d.critique)] +
      [Completed(Sent(w, Route(SummarizationFeature, RegenerationPrompt),
                      RegenerationArgs(d.initialSummary, d.critique)), d.finalSummary)] +
      [Completed([Entry(UserRole, w.describe(oldContent, d.finalSummary))], reply)]
    requires MarkdownParser.ParseUpdatedDescriptor(reply) == Ok(d.newDescriptor)
    ensures PipelineCalls(w, before, calls, false, rawNotes, established, oldContent, d)
  {
    var tail := calls[|before|..];
    assert calls == before + tail;
    CallsSplit(before, tail);
  }

  /** Two calls, the second fed the first reply, make up a first run. */
  lemma FirstRunCallsIntro(w: World, before: seq<Event>, calls: seq<Event>, rawNotes: string,
                           oldContent: string, d: Drafts, reply: string)
    requires calls == before +
      [Completed(Sent(w, Route(SummarizationFeature, GenerationInitPrompt), map["input" := Str(rawNotes)]), d.finalSummary)] +
      [Completed([Entry(UserRole, w.describe(oldContent, d.finalSummary))], reply)]
    requires MarkdownParser.ParseUpdatedDescriptor(reply) == Ok(d.newDescriptor)
    ensures PipelineCalls(w, before, calls, true, rawNotes, "", oldContent, d)
  {
    var tail := calls[|before|..];
    assert calls == before + tail;
    CallsSplit(before, tail);
  }

  /** The sides of the entries a run adds, in order. */
  function SideOrder(firstTime: bool): seq<string> {
    if firstTime then [UserSide, GenerationSide, GenerationSide, GenerationSide]
    else [UserSide, GenerationSide, GenerationSide, ReflectionSide, ReflectionSide, GenerationSide,
          GenerationSide, GenerationSide]
  }

  /** Entry sides read off turns: if `sides` lists each turn's two sides in order, the
      entries the turns add come from exactly those sides. */
  lemma SidesOfTurns(h: seq<Entry>, turns: seq<Turn>, sides: seq<string>)
    requires |sides| == 2 * |turns|
    requires forall j :: 0 <= j < |turns| ==> sides[2 * j] == turns[j].role1 && sides[2 * j + 1] == turns[j].role2
    ensures var after := AfterTurns(h, turns);
      |after| == |h| + |sides| && after[..|h|] == h &&
      forall i :: 0 <= i < |sides| ==> after[|h| + i].role == sides[i]
  {
    AfterTurnsShape(h, turns);
    var after := AfterTurns(h, turns);
    forall i | 0 <= i < |sides|
      ensures after[|h| + i].role == sides[i]
    {
      var j := i / 2;
      assert 0 <= j < |turns|;
      if i % 2 == 0 {
        assert i == 2 * j;
        assert after[|h| + 2 * j] == Entry(turns[j].role1, turns[j].userMsg);
      } else {
        assert i == 2 * j + 1;
        assert after[|h| + 2 * j + 1] == Entry(turns[j].role2, turns[j].assistantMsg);
      }
    }
  }

  /** A run keeps the earlier history and adds four entries on a first run and eight
      otherwise, from these sides in this order. */
  lemma PipelineRoles(h: seq<Entry>, firstTime: bool, rawNotes: string, initial: string, critique: string,
                      final: string, newDescriptor: string)
    ensures var after := AfterTurns(h, PipelineTurns(firstTime, rawNotes, initial, critique, final, newDescriptor));
      |after| == |h| + |SideOrder(firstTime)| && after[..|h|] == h &&
      forall i :: 0 <= i < |SideOrder(firstTime)| ==> after[|h| + i].role == SideOrder(firstTime)[i]
  {
    var turns := PipelineTurns(firstTime, rawNotes, initial, critique, final, newDescriptor);
    var sides := SideOrder(firstTime);
    forall j | 0 <= j < |turns|
      ensures sides[2 * j] == turns[j].role1 && sides[2 * j + 1] == turns[j].role2
    {
      if firstTime {
        assert j == 0 || j == 1;
      } else {
        assert j == 0 || j == 1 || j == 2 || j == 3;
      }
    }
    SidesOfTurns(h, turns, sides);
  }

  /** The three turns of the incremental path, added one at a time. */
  lemma IncrementalHistory(h: seq<Entry>, rawNotes: string, initial: string, critique: string, final: string)
    ensures AfterTurns(AfterTurns(AfterTurns(h, [Turn(rawNotes, initial, UserSide, GenerationSide)]),
                                  [Turn(initial, critique, GenerationSide, ReflectionSide)]),
                       [Turn(critique, final, ReflectionSide, GenerationSide)])
      == AfterTurns(h, DraftTurns(false, rawNotes, initial, critique, final))
  {
    var t1 := Turn(rawNotes, initial, UserSide, GenerationSide);
    var t2 := Turn(initial, critique, GenerationSide, ReflectionSide);
    var t3 := Turn(critique, final, ReflectionSide, GenerationSide);
    AfterOneMore(h, [t1], t2);
    AfterOneMore(h, [t1, t2], t3);
    assert [t1] + [t2] == [t1, t2];
    assert [t1, t2] + [t3] == DraftTurns(false, rawNotes, initial, critique, final);
  }

  /** Every turn answers the one before it: its message is the previous turn's reply, sent by
      the side that produced it. The conversation is one thread from the raw notes to the new
      descriptor. */
  lemma PipelineTurnsChained(firstTime: bool, rawNotes: string, initial: string, critique: string,
                             final: string, newDescriptor: string)
    ensures var turns := PipelineTurns(firstTime, rawNotes, initial, critique, final, newDescriptor);
      turns[0].userMsg == rawNotes && turns[0].role1 == UserSide &&
      turns[|turns| - 1].assistantMsg == newDescriptor &&
      forall i :: 0 < i < |turns| ==> turns[i].userMsg == turns[i - 1].assistantMsg && turns[i].role1 == turns[i - 1].role2
  {
  }

  class SummaryPipeline {
    const generationChain: GenerationChain
    const reflectionChain: ReflectionChain
    const chunker: Chunker.SummaryChunker

    /** Both chains talk to the same model, and the chunker keeps its default limit. */
    predicate Valid() {
      generationChain.model == reflectionChain.model && chunker.maxChunks == Chunker.DefaultMaxChunks
    }

    constructor (model: World)
      ensures Valid() && generationChain.model == model
    {
      generationChain := new GenerationChain(model);
      reflectionChain := new ReflectionChain(model);
      chunker := new Chunker.SummaryChunker.Default();
    }

    /**
     * `run_with_descriptor`. Any failing step ends the run with its error before anything
     * is saved or pushed. On success: the first run has empty initial summary and critique;
     * the prompts, chat turns and descriptor files are those of the chosen path; the
     * session is saved after every model call and file write, and the push, if any, comes
     * last. `finalSummary` is the model's final text before the push extracts from it.
     */
    method RunWithDescriptor(rawNotes: string, establishedSummary: string, oldDescriptor: Descriptor,
                             chat: ChatHistory, timestamp: string, pushToNotion: bool := false,
                             firstTime: bool := false)
      returns (r: Result<PipelineOutput, ChainError>, ghost finalSummary: string)
      requires Valid()
      modifies generationChain.model, oldDescriptor, chat
      ensures var w := generationChain.model;
        r.Err? ==> Only(w.log, Outward) == Only(old(w.log), Outward)
      ensures var w := generationChain.model;
        r.Ok? ==> (
          var v := r.value;
          (firstTime ==> v.initialSummary == "" && v.critique == "") &&
          v.newDescriptor == oldDescriptor.content &&
          w.files == Saved(old(w.files), oldDescriptor.baseDir, timestamp, v.newDescriptor) &&
          chat.history == AfterTurns(old(chat.history),
            PipelineTurns(firstTime, rawNotes, v.initialSummary, v.critique, finalSummary, v.newDescriptor)) &&
          Only(w.log, Prompts) == Only(old(w.log), Prompts) +
            PipelinePrompts(firstTime, rawNotes, v.initialSummary, v.critique, old(oldDescriptor.content),
                            establishedSummary, finalSummary) &&
          PipelineCalls(w, Only(old(w.log), Calls), Only(w.log, Calls), firstTime, rawNotes, establishedSummary,
                        old(oldDescriptor.content), Drafts(v.initialSummary, v.critique, finalSummary, v.newDescriptor)) &&
          v.finalSummaryMarkdown ==
            (if pushToNotion then MarkdownParser.ParseBetweenDelimiters(finalSummary, MarkdownParser.FinalSummaryMarker)
             else Some(finalSummary)) &&
          Only(w.log, Outward) == Only(old(w.log), Outward) + [SessionSaved(chat.history)] +
            (if pushToNotion then [Pushed(v.finalSummaryMarkdown)] else []) &&
          w.log[|w.log| - 1] == (if pushToNotion then Pushed(v.finalSummaryMarkdown) else SessionSaved(chat.history)))
    {
      var world := generationChain.model;
      ghost var log0 := world.log;
      ghost var history0 := chat.history;
      ghost var oldContent := oldDescriptor.content;
      var drafts: Result<Drafts, ChainError>;
      if !firstTime {
        drafts := Incremental(rawNotes, establishedSummary, oldDescriptor, chat, timestamp);
      } else {
        drafts := FirstRun(rawNotes, oldDescriptor, chat, timestamp);
      }
      if drafts.Err? {
        return Err(drafts.error), "";
      }
      ghost var d := drafts.value;
      ghost var calls := Only(world.log, Calls);
      if firstTime {
        FirstRunAnyEstablished(world, Only(log0, Calls), calls, rawNotes, establishedSummary, oldContent, d);
      }
      assert PipelineCalls(world, Only(log0, Calls), calls, firstTime, rawNotes, establishedSummary, oldContent, d);
      var output := Finish(drafts.value, chat, pushToNotion);
      assert Drafts(output.initialSummary, output.critique, d.finalSummary, output.newDescriptor) == d;
      AfterOneMore(history0, DraftTurns(firstTime, rawNotes, drafts.value.initialSummary, drafts.value.critique,
        drafts.value.finalSummary), Turn(drafts.value.finalSummary, drafts.value.newDescriptor, GenerationSide, GenerationSide));
      finalSummary := drafts.value.finalSummary;
      r := Ok(output);
    }

    /** The end of every successful run: the final summary answered by the new descriptor
        goes into the chat history, the session is saved, and, if asked, the delimited part
        of the final summary is pushed to Notion, last. The push result is what is returned
        as the final summary. */
    method Finish(drafts: Drafts, chat: ChatHistory, pushToNotion: bool) returns (output: PipelineOutput)
      modifies generationChain.model, chat
      ensures var w := generationChain.model;
        w.files == old(w.files) && Only(w.log, Prompts) == Only(old(w.log), Prompts) &&
        Only(w.log, Calls) == Only(old(w.log), Calls)
      ensures chat.history == AfterTurns(old(chat.history),
        [Turn(drafts.finalSummary, drafts.newDescriptor, GenerationSide, GenerationSide)])
      ensures output.initialSummary == drafts.initialSummary && output.critique == drafts.critique &&
        output.newDescriptor == drafts.newDescriptor
      ensures output.finalSummaryMarkdown ==
        (if pushToNotion then MarkdownParser.ParseBetweenDelimiters(drafts.finalSummary, MarkdownParser.FinalSummaryMarker)
         else Some(drafts.finalSummary))
      ensures var w := generationChain.model;
        Only(w.log, Outward) == Only(old(w.log), Outward) + [SessionSaved(chat.history)] +
          (if pushToNotion then [Pushed(output.finalSummaryMarkdown)] else []) &&
        w.log[|w.log| - 1] == (if pushToNotion then Pushed(output.finalSummaryMarkdown) else SessionSaved(chat.history))
    {
      var world := generationChain.model;
      var finalSummaryMarkdown := drafts.finalSummary;
      chat.AddTurn(finalSummaryMarkdown, drafts.newDescriptor, GenerationSide, GenerationSide);
      ghost var logSaved := world.log;
      world.SaveSession(chat.history);
      OnlySnoc(logSaved, SessionSaved(chat.history), Outward);
      OnlySnoc(logSaved, SessionSaved(chat.history), Prompts);
      OnlySnoc(logSaved, SessionSaved(chat.history), Calls);
      var pushed: Option<string> := Some(finalSummaryMarkdown);
      if pushToNotion {
        pushed := MarkdownParser.ParseBetweenDelimiters(finalSummaryMarkdown, MarkdownParser.FinalSummaryMarker);
        ghost var logPushed := world.log;
        world.Push(pushed);
        OnlySnoc(logPushed, Pushed(pushed), Outward);
        OnlySnoc(logPushed, Pushed(pushed), Prompts);
        OnlySnoc(logPushed, Pushed(pushed), Calls);
      }
      output := PipelineOutput(drafts.initialSummary, drafts.critique, pushed, drafts.newDescriptor);
    }

    /** The incremental path (`first_time` false): summarize, critique against the old
        descriptor and the established summary's heading tree, regenerate, update. */
    method Incremental(rawNotes: string, establishedSummary: string, oldDescriptor: Descriptor,
                       chat: ChatHistory, timestamp: string)
      returns (r: Result<Drafts, ChainError>)
      requires Valid()
      modifies generationChain.model, oldDescriptor, chat
      ensures var w := generationChain.model;
        Only(w.log, Outward) == Only(old(w.log), Outward)
      ensures var w := generationChain.model;
        r.Ok? ==> (
          var d := r.value;
          d.newDescriptor == oldDescriptor.content &&
          w.files == Saved(old(w.files), oldDescriptor.baseDir, timestamp, d.newDescriptor) &&
          chat.history == AfterTurns(old(chat.history), DraftTurns(false, rawNotes, d.initialSummary, d.critique, d.finalSummary)) &&
          Only(w.log, Prompts) == Only(old(w.log), Prompts) +
            IncrementalPrompts(rawNotes, d.initialSummary, d.critique, old(oldDescriptor.content),
                               establishedSummary, d.finalSummary) &&
          PipelineCalls(w, Only(old(w.log), Calls), Only(w.log, Calls), false, rawNotes, establishedSummary,
                        old(oldDescriptor.content), d))
    {
      var world := generationChain.model;
      ghost var log0 := world.log;
      ghost var history0 := chat.history;
      ghost var oldContent := oldDescriptor.content;
      var summarized := generationChain.Summarize(rawNotes);
      var p1 := Prompted(Route(SummarizationFeature, GenerationPrompt), map["input" := Str(rawNotes)]);
      AskShape(world, log0, None, p1.route, p1.args);
      if summarized.Err? {
        return Err(summarized.error);
      }
      var initialSummary := summarized.value;
      ghost var c1 := Completed(Sent(world, p1.route, p1.args), initialSummary);
      assert Only(world.log, Calls) == Only(log0, Calls) + [c1];
      var headings := chunker.ChunkByHeading(establishedSummary);
      chat.AddTurn(rawNotes, initialSummary, UserSide, GenerationSide);
      ghost var history1 := chat.history;
      var headingTree := HeadingTree.BuildTree(headings);
      ghost var log1 := world.log;
      var reflected := reflectionChain.Reflect(initialSummary, oldDescriptor.content, headingTree);
      var p2 := Prompted(Route(SummarizationFeature, ReflectionPrompt), ReflectArgs(initialSummary, oldContent, headingTree));
      AskShape(world, log1, None, p2.route, p2.args);
      if reflected.Err? {
        return Err(reflected.error);
      }
      var critique := reflected.value;
      ghost var c2 := Completed(Sent(world, p2.route, p2.args), critique);
      assert Only(world.log, Calls) == Only(log0, Calls) + [c1] + [c2];
      chat.AddTurn(initialSummary, critique, GenerationSide, ReflectionSide);
      ghost var history2 := chat.history;
      ghost var log2 := world.log;
      var regenerated := generationChain.Regenerate(initialSummary, critique);
      var p3 := Prompted(Route(SummarizationFeature, RegenerationPrompt), RegenerationArgs(initialSummary, critique));
      AskShape(world, log2, None, p3.route, p3.args);
      if regenerated.Err? {
        return Err(regenerated.error);
      }
      var finalSummary := regenerated.value;
      ghost var c3 := Completed(Sent(world, p3.route, p3.args), finalSummary);
      assert Only(world.log, Calls) == Only(log0, Calls) + [c1] + [c2] + [c3];
      chat.AddTurn(critique, finalSummary, ReflectionSide, GenerationSide);
      ghost var log3 := world.log;
      var updated := oldDescriptor.Update(world, timestamp, finalSummary);
      if updated.Err? {
        return Err(updated.error);
      }
      ghost var c4 := Completed([Entry(UserRole, world.describe(oldContent, finalSummary))],
                                DescriptorReply(world, log3, oldContent, finalSummary));
      IncrementalCallsIntro(world, Only(log0, Calls), Only(world.log, Calls), rawNotes, establishedSummary, oldContent,
        Drafts(initialSummary, critique, finalSummary, updated.value), DescriptorReply(world, log3, oldContent, finalSummary));
      var p4 := Prompted(DescriptorRoute, DescriptorArgs(oldContent, finalSummary));
      Assoc4(Only(log0, Prompts), [p1], [p2], [p3], [p4]);
      IncrementalHistory(history0, rawNotes, initialSummary, critique, finalSummary);
      r := Ok(Drafts(initialSummary, critique, finalSummary, updated.value));
    }

    /** The first-time path: summarize with the initial prompt, then build the first
        descriptor. (The source also builds the heading tree of the new summary and never
        uses it; that pure computation is not repeated here.) */
    method FirstRun(rawNotes: string, oldDescriptor: Descriptor, chat: ChatHistory, timestamp: string)
      returns (r: Result<Drafts, ChainError>)
      requires Valid()
      modifies generationChain.model, oldDescriptor, chat
      ensures var w := generationChain.model;
        Only(w.log, Outward) == Only(old(w.log), Outward)
      ensures var w := generationChain.model;
        r.Ok? ==> (
          var d := r.value;
          d.initialSummary == "" && d.critique == "" &&
          d.newDescriptor == oldDescriptor.content &&
          w.files == Saved(old(w.files), oldDescriptor.baseDir, timestamp, d.newDescriptor) &&
          chat.history == AfterTurns(old(chat.history), DraftTurns(true, rawNotes, "", "", d.finalSummary)) &&
          Only(w.log, Prompts) == Only(old(w.log), Prompts) +
            FirstRunPrompts(rawNotes, old(oldDescriptor.content), d.finalSummary) &&
          PipelineCalls(w, Only(old(w.log), Calls), Only(w.log, Calls), true, rawNotes, "",
                        old(oldDescriptor.content), d))
    {
      var world := generationChain.model;
      ghost var log0 := world.log;
      ghost var oldContent := oldDescriptor.content;
      var summarized := generationChain.Summarize(rawNotes, GenerationInitPrompt);
      var p1 := Prompted(Route(SummarizationFeature, GenerationInitPrompt), map["input" := Str(rawNotes)]);
      AskShape(world, log0, None, p1.route, p1.args);
      if summarized.Err? {
        return Err(summarized.error);
      }
      var finalSummary := summarized.value;
      ghost var c1 := Completed(Sent(world, p1.route, p1.args), finalSummary);
      assert Only(world.log, Calls) == Only(log0, Calls) + [c1];
      chat.AddTurn(rawNotes, finalSummary, UserSide, GenerationSide);
      ghost var log1 := world.log;
      var updated := oldDescriptor.Update(world, timestamp, finalSummary);
      if updated.Err? {
        return Err(updated.error);
      }
      ghost var c2 := Completed([Entry(UserRole, world.describe(oldContent, finalSummary))],
                                DescriptorReply(world, log1, oldContent, finalSummary));
      FirstRunCallsIntro(world, Only(log0, Calls), Only(world.log, Calls), rawNotes, oldContent,
        Drafts("", "", finalSummary, updated.value), DescriptorReply(world, log1, oldContent, finalSummary));
      AppendAssoc(Only(log0, Prompts), [p1], [Prompted(DescriptorRoute, DescriptorArgs(oldContent, finalSummary))]);
      r := Ok(Drafts("", "", finalSummary, updated.value));
    }
  }
}

=== FILE: text.dfy ===
/**
 * Python `str` operations the core relies on, with the semantics CPython gives them:
 * `isspace`, `strip`, `split(sep)`, `sep.join`, `find`/`rfind`, `replace(c, "")`
 * and slicing with possibly negative bounds.
 */
module Text {
  import opened Wrappers

  /** The characters for which Python's `str.isspace()` holds; `\s` in `re` and the
      argument-less `strip()` both use this set. */
  const PyWhitespace: set<char> := {
    ' ', '\t', '\n', '\r', '\U{000B}', '\U{000C}',
    '\U{001C}', '\U{001D}', '\U{001E}', '\U{001F}', '\U{0085}', '\U{00A0}',
    '\U{1680}', '\U{2000}', '\U{2001}', '\U{2002}', '\U{2003}', '\U{2004}',
    '\U{2005}', '\U{2006}', '\U{2007}', '\U{2008}', '\U{2009}', '\U{200A}',
    '\U{2028}', '\U{2029}', '\U{202F}', '\U{205F}', '\U{3000}'
  }

  predicate IsSpace(c: char) {
    c in PyWhitespace
  }

  // ---------------------------------------------------------------------------
  // strip

  /** Number of leading characters of `s` that belong to `cs`. */
  function LeadCount(s: string, cs: set<char>): (n: nat)
    ensures n <= |s|
    ensures n < |s| ==> s[n] !in cs
    decreases |s|
  {
    if s != [] && s[0] in cs then 1 + LeadCount(s[1..], cs) else 0
  }

  /** Every character `LeadCount` counts is in `cs`. */
  lemma {:induction false} LeadCountSpan(s: string, cs: set<char>)
    ensures forall i :: 0 <= i < LeadCount(s, cs) ==> s[i] in cs
    decreases |s|
  {
    if s != [] && s[0] in cs {
      LeadCountSpan(s[1..], cs);
      forall i | 1 <= i < LeadCount(s, cs)
        ensures s[i] in cs
      {
        assert s[i] == s[1..][i - 1];
      }
    }
  }

  /** Number of trailing characters of `s` that belong to `cs`. */
  function TrailCount(s: string, cs: set<char>): (n: nat)
    ensures n <= |s|
    ensures n < |s| ==> s[|s| - n - 1] !in cs
    decreases |s|
  {
    if s != [] && s[|s| - 1] in cs then 1 + TrailCount(s[..|s| - 1], cs) else 0
  }

  /** Every character `TrailCount` counts is in `cs`. */
  lemma {:induction false} TrailCountSpan(s: string, cs: set<char>)
    ensures forall i :: |s| - TrailCount(s, cs) <= i < |s| ==> s[i] in cs
    decreases |s|
  {
    if s != [] && s[|s| - 1] in cs {
      TrailCountSpan(s[..|s| - 1], cs);
      forall i | |s| - TrailCount(s, cs) <= i < |s| - 1
        ensures s[i] in cs
      {
        assert s[i] == s[..|s| - 1][i];
      }
    }
  }

  /** Python's `s.strip(chars)`: drop every leading and trailing character in `cs`. */
  function StripSet(s: string, cs: set<char>): (r: string)
    ensures LeadCount(s, cs) == |s| ==> r == []
    ensures LeadCount(s, cs) < |s| ==> LeadCount(s, cs) + TrailCount(s, cs) < |s|
    ensures LeadCount(s, cs) < |s| ==> r == s[LeadCount(s, cs) .. |s| - TrailCount(s, cs)]
    ensures r == [] || (r[0] !in cs && r[|r| - 1] !in cs)
  {
    var a := LeadCount(s, cs);
    if a == |s| then []
    else
      var b := TrailCount(s, cs);
      TrailCountSpan(s, cs);
      assert s[a] !in cs;
      s[a .. |s| - b]
  }

  /** Python's argument-less `s.strip()`. */
  function Strip(s: string): string {
    StripSet(s, PyWhitespace)
  }

  predicate IsStripped(s: string) {
    s == [] || (!IsSpace(s[0]) && !IsSpace(s[|s| - 1]))
  }

  lemma StripIsStripped(s: string)
    ensures IsStripped(Strip(s))
  {
  }

  /** `strip()` leaves text without surrounding whitespace untouched. */
  lemma StripIdentity(s: string)
    requires IsStripped(s)
    ensures Strip(s) == s
  {
    var cs := PyWhitespace;
    if s != [] {
      assert LeadCount(s, cs) == 0;
      assert TrailCount(s, cs) == 0;
    }
  }

  lemma StripIdempotent(s: string)
    ensures Strip(Strip(s)) == Strip(s)
  {
    StripIsStripped(s);
    StripIdentity(Strip(s));
  }

  /** Whitespace around already-stripped text is exactly what `strip()` removes. */
  lemma StripPadded(pre: string, s: string, post: string)
    requires forall i :: 0 <= i < |pre| ==> IsSpace(pre[i])
    requires forall i :: 0 <= i < |post| ==> IsSpace(post[i])
    requires s != [] && IsStripped(s)
    ensures Strip(pre + s + post) == s
  {
    var t := pre + s + post;
    var cs := PyWhitespace;
    LeadCountPrefix(t, cs, |pre|);
    TrailCountSuffix(t, cs, |post|);
    assert t[|pre| .. |t| - |post|] == s;
  }

  lemma {:induction false} LeadCountPrefix(t: string, cs: set<char>, k: nat)
    requires k < |t| && t[k] !in cs
    requires forall i :: 0 <= i < k ==> t[i] in cs
    ensures LeadCount(t, cs) == k
  {
    if k > 0 {
      assert t[0] in cs;
      var u := t[1..];
      assert u[k - 1] == t[k];
      forall i | 0 <= i < k - 1
        ensures u[i] in cs
      {
        assert u[i] == t[i + 1];
      }
      LeadCountPrefix(u, cs, k - 1);
    }
  }

  lemma {:induction false} TrailCountSuffix(t: string, cs: set<char>, k: nat)
    requires k < |t| && t[|t| - k - 1] !in cs
    requires forall i :: |t| - k <= i < |t| ==> t[i] in cs
    ensures TrailCount(t, cs) == k
  {
    if k > 0 {
      assert t[|t| - 1] in cs;
      var u := t[..|t| - 1];
      assert u[|u| - (k - 1) - 1] == t[|t| - k - 1];
      forall i | |u| - (k - 1) <= i < |u|
        ensures u[i] in cs
      {
        assert u[i] == t[i];
      }
      TrailCountSuffix(u, cs, k - 1);
    }
  }

  /** Text ending in a block with non-blank ends, followed only by whitespace, strips to
      the front part without its leading whitespace, then the block. */
  lemma StripAround(a: string, x: string, t: string)
    requires x != [] && !IsSpace(x[0]) && !IsSpace(x[|x| - 1])
    requires forall i :: 0 <= i < |t| ==> IsSpace(t[i])
    ensures Strip(a + x + t) == DropSpaces(a) + x
  {
    var w := a + x + t;
    var cs := PyWhitespace;
    var n := LeadCount(a, cs);
    LeadCountSpan(a, cs);
    if n < |a| {
      assert w[n] == a[n];
    } else {
      assert w[n] == x[0];
    }
    LeadCountPrefix(w, cs, n);
    assert w[|w| - |t| - 1] == x[|x| - 1];
    TrailCountSuffix(w, cs, |t|);
    assert w[n .. |w| - |t|] == a[n..] + x;
  }

  /** Text that does not end in whitespace strips to itself without its leading whitespace. */
  lemma StripOfTrimmedEnd(t: string)
    requires t != [] && !IsSpace(t[|t| - 1])
    ensures Strip(t) == DropSpaces(t)
  {
    LeadCountSpan(t, PyWhitespace);
    assert TrailCount(t, PyWhitespace) == 0;
  }

  /** A leading space is dropped along with the rest of the leading whitespace. */
  lemma DropLeadingSpace(t: string)
    ensures DropSpaces(" " + t) == DropSpaces(t)
  {
    var u := " " + t;
    var n := LeadCount(t, PyWhitespace);
    LeadCountSpan(t, PyWhitespace);
    if n < |t| {
      forall i | 0 <= i < 1 + n
        ensures u[i] in PyWhitespace
      {
        if i > 0 {
          assert u[i] == t[i - 1];
        }
      }
      assert u[1 + n] == t[n];
      LeadCountPrefix(u, PyWhitespace, 1 + n);
    } else {
      assert forall i :: 0 <= i < |u| ==> u[i] in PyWhitespace by {
        forall i | 0 <= i < |u|
          ensures u[i] in PyWhitespace
        {
          if i > 0 {
            assert u[i] == t[i - 1];
          }
        }
      }
      AllSpaceLeadCount(u);
    }
  }

  lemma {:induction false} AllSpaceLeadCount(u: string)
    requires forall i :: 0 <= i < |u| ==> u[i] in PyWhitespace
    ensures LeadCount(u, PyWhitespace) == |u|
    decreases |u|
  {
    if u != [] {
      assert forall i :: 0 <= i < |u[1..]| ==> u[1..][i] == u[i + 1];
      AllSpaceLeadCount(u[1..]);
    }
  }

  /** Once the front part has a non-blank character, what follows it is kept whole. */
  lemma DropSpacesFront(a: string, b: string)
    requires Strip(a) != []
    ensures DropSpaces(a + b) == DropSpaces(a) + b
  {
    var cs := PyWhitespace;
    var n := LeadCount(a, cs);
    LeadCountSpan(a, cs);
    assert (a + b)[n] == a[n];
    LeadCountPrefix(a + b, cs, n);
  }

  /** Leading whitespace dropped, as a greedy `\s+`/`\s*` in a regular expression does. */
  function DropSpaces(s: string): (r: string)
    ensures r == s[LeadCount(s, PyWhitespace)..]
  {
    s[LeadCount(s, PyWhitespace)..]
  }

  // ---------------------------------------------------------------------------
  // split and join

  function IndexOf(s: string, c: char): (r: Option<nat>)
    ensures r.Some? ==> r.value < |s| && s[r.value] == c && c !in s[..r.value]
    ensures r.None? ==> c !in s
    decreases |s|
  {
    if s == [] then None
    else if s[0] == c then Some(0)
    else
      match IndexOf(s[1..], c)
      case None => None
      case Some(i) => assert s[1..][..i] == s[1..i + 1]; Some(i + 1)
  }

  lemma {:induction false} IndexOfAt(s: string, c: char, i: nat)
    requires i < |s| && s[i] == c && c !in s[..i]
    ensures IndexOf(s, c) == Some(i)
    decreases i
  {
    if i > 0 {
      assert s[1..][..i - 1] == s[1..i];
      IndexOfAt(s[1..], c, i - 1);
    }
  }

  /** Python's `sep.join(parts)`. */
  function Join(parts: seq<string>, sep: string): string
    decreases |parts|
  {
    if |parts| == 0 then []
    else if |parts| == 1 then parts[0]
    else parts[0] + sep + Join(parts[1..], sep)
  }

  /** Python's `s.split(c)` for a one-character separator: never empty, and joining the
      pieces back with `c` gives `s` again. */
  function Split(s: string, c: char): (r: seq<string>)
    ensures |r| >= 1
    ensures forall i :: 0 <= i < |r| ==> c !in r[i]
    ensures Join(r, [c]) == s
    decreases |s|
  {
    match IndexOf(s, c)
    case None => [s]
    case Some(i) =>
      var rest := Split(s[i + 1..], c);
      assert s == s[..i] + [c] + s[i + 1..];
      [s[..i]] + rest
  }

  /** Splitting undoes joining, when no piece contains the separator. */
  lemma {:induction false} SplitJoin(parts: seq<string>, c: char)
    requires |parts| >= 1
    requires forall i :: 0 <= i < |parts| ==> c !in parts[i]
    ensures Split(Join(parts, [c]), c) == parts
    decreases |parts|
  {
    if |parts| > 1 {
      var tail := Join(parts[1..], [c]);
      var s := parts[0] + [c] + tail;
      assert s[..|parts[0]|] == parts[0];
      IndexOfAt(s, c, |parts[0]|);
      assert s[|parts[0]| + 1..] == tail;
      SplitJoin(parts[1..], c);
    } else {
      assert IndexOf(parts[0], c) == None;
    }
  }

  lemma JoinAppend(parts: seq<string>, x: string, sep: string)
    requires |parts| >= 1
    ensures Join(parts + [x], sep) == Join(parts, sep) + sep + x
    decreases |parts|
  {
    if |parts| > 1 {
      assert (parts + [x])[1..] == parts[1..] + [x];
      JoinAppend(parts[1..], x, sep);
    }
  }

  // ---------------------------------------------------------------------------
  // find and rfind

  predicate OccursAt(s: string, pat: string, i: int) {
    0 <= i && i + |pat| <= |s| && s[i .. i + |pat|] == pat
  }

  /** Python's `s.find(pat, start)`: the first occurrence at or after `start`. */
  function FindFrom(s: string, pat: string, start: nat): (r: Option<nat>)
    ensures r.Some? ==> start <= r.value && OccursAt(s, pat, r.value)
    ensures r.Some? ==> forall k :: start <= k < r.value ==> !OccursAt(s, pat, k)
    ensures r.None? ==> forall k :: start <= k ==> !OccursAt(s, pat, k)
    decreases |s| - start
  {
    if start + |pat| > |s| then None
    else if s[start .. start + |pat|] == pat then Some(start)
    else FindFrom(s, pat, start + 1)
  }

  /** Python's `s.find(pat)`, with `None` for `-1`. */
  function Find(s: string, pat: string): Option<nat> {
    FindFrom(s, pat, 0)
  }

  /** The last occurrence of `pat` starting at or before `upto`. */
  function FindLastUpTo(s: string, pat: string, upto: nat): (r: Option<nat>)
    ensures r.Some? ==> r.value <= upto && OccursAt(s, pat, r.value)
    ensures r.Some? ==> forall k :: r.value < k <= upto ==> !OccursAt(s, pat, k)
    ensures r.None? ==> forall k :: 0 <= k <= upto ==> !OccursAt(s, pat, k)
    decreases upto
  {
    if OccursAt(s, pat, upto) then Some(upto)
    else if upto == 0 then None
    else FindLastUpTo(s, pat, upto - 1)
  }

  /** Python's `s.rfind(pat)`, with `None` for `-1`. */
  function RFind(s: string, pat: string): (r: Option<nat>)
    ensures r.Some? ==> OccursAt(s, pat, r.value) && forall k :: r.value < k ==> !OccursAt(s, pat, k)
    ensures r.None? ==> forall k :: !OccursAt(s, pat, k)
  {
    FindLastUpTo(s, pat, |s|)
  }

  /** `FindFrom` is the first occurrence at or after `start`, whichever way it is reached. */
  lemma {:induction false} FindFromAt(s: string, pat: string, start: nat, p: nat)
    requires start <= p && OccursAt(s, pat, p)
    requires forall k :: start <= k < p ==> !OccursAt(s, pat, k)
    ensures FindFrom(s, pat, start) == Some(p)
    decreases p - start
  {
    if start < p {
      assert !OccursAt(s, pat, start);
      FindFromAt(s, pat, start + 1, p);
    }
  }

  /** `RFind` is the last occurrence. */
  lemma RFindAt(s: string, pat: string, p: nat)
    requires OccursAt(s, pat, p)
    requires forall k :: p < k ==> !OccursAt(s, pat, k)
    ensures RFind(s, pat) == Some(p)
  {
  }

  // ---------------------------------------------------------------------------
  // characters, prefixes, filtering

  predicate StartsWith(s: string, prefix: string) {
    |prefix| <= |s| && s[..|prefix|] == prefix
  }

  /** Python's `s.replace(c, "")`. */
  function RemoveChar(s: string, c: char): (r: string)
    ensures c !in r
    ensures |r| <= |s|
    ensures c !in s ==> r == s
    decreases |s|
  {
    if s == [] then []
    else (if s[0] == c then [] else [s[0]]) + RemoveChar(s[1..], c)
  }

  lemma {:induction false} RemoveCharAppend(a: string, b: string, c: char)
    ensures RemoveChar(a + b, c) == RemoveChar(a, c) + RemoveChar(b, c)
    decreases |a|
  {
    if a == [] {
      assert a + b == b;
    } else {
      var h := if a[0] == c then [] else [a[0]];
      var ra, rb := RemoveChar(a[1..], c), RemoveChar(b, c);
      assert (a + b)[0] == a[0];
      assert (a + b)[1..] == a[1..] + b;
      RemoveCharAppend(a[1..], b, c);
      assert RemoveChar(a + b, c) == h + (ra + rb);
      AppendAssoc(h, ra, rb);
    }
  }

  // ---------------------------------------------------------------------------
  // Python slices with integer bounds

  function Clamp(k: int, n: nat): (r: nat)
    ensures r <= n
  {
    if k < 0 then (if n + k < 0 then 0 else n + k) else if k > n then n else k
  }

  lemma AppendAssoc<T>(a: seq<T>, b: seq<T>, c: seq<T>)
    ensures a + (b + c) == (a + b) + c
  {
  }

  lemma AppendEmpty<T>(a: seq<T>)
    ensures a + [] == a
  {
  }

  /** A sequence is the part before position `j`, the element at `j`, and the rest. */
  lemma SplitAround<T>(s: seq<T>, j: nat)
    requires j < |s|
    ensures s == s[..j] + [s[j]] + s[j + 1..]
  {
  }

  /** Python's `s[:n]`; a negative `n` counts from the end. */
  function PyTake<T>(s: seq<T>, n: int): (r: seq<T>)
    ensures r == s[..Clamp(n, |s|)]
    ensures n >= 0 ==> |r| == if n < |s| then n else |s|
    ensures n < 0 ==> |r| == if |s| + n < 0 then 0 else |s| + n
  {
    s[..Clamp(n, |s|)]
  }

  /** Python's `s[k:]`; a negative `k` counts from the end. */
  function PyDrop<T>(s: seq<T>, k: int): (r: seq<T>)
    ensures r == s[Clamp(k, |s|)..]
  {
    s[Clamp(k, |s|)..]
  }

  /** Python's `s[a:b]`: both bounds clamped, empty when they cross. */
  function PySlice<T>(s: seq<T>, a: int, b: int): (r: seq<T>)
    ensures Clamp(a, |s|) <= Clamp(b, |s|) ==> r == s[Clamp(a, |s|)..Clamp(b, |s|)]
    ensures Clamp(a, |s|) > Clamp(b, |s|) ==> r == []
  {
    var i, j := Clamp(a, |s|), Clamp(b, |s|);
    if i <= j then s[i..j] else []
  }

  // ---------------------------------------------------------------------------
  // ASCII case mapping (str.capitalize on ASCII text)

  function Upper(c: char): char {
    if 'a' <= c <= 'z' then (c as int - 32) as char else c
  }

  function Lower(c: char): char {
    if 'A' <= c <= 'Z' then (c as int + 32) as char else c
  }

  function LowerAll(s: string): (r: string)
    ensures |r| == |s|
    ensures forall i :: 0 <= i < |s| ==> r[i] == Lower(s[i])
  {
    seq(|s|, i requires 0 <= i < |s| => Lower(s[i]))
  }

  /** `s.capitalize()` on ASCII text: first character upper case, the rest lower case. Other
      characters are left as they are. */
  function Capitalize(s: string): (r: string)
    ensures |r| == |s|
    ensures s != [] ==> r[0] == Upper(s[0])
    ensures forall i :: 1 <= i < |s| ==> r[i] == Lower(s[i])
  {
    if s == [] then [] else [Upper(s[0])] + LowerAll(s[1..])
  }
}

/**
 * The ATX heading prefix as the core's regular expressions read it: `(#{1,6})\s+(.*)` and
 * `(#+)\s+(.*)` anchored at the start of a string (`re.match`).
 */
module HeadingSyntax {
  import opened Wrappers
  import opened Text

  /** Number of leading `#` characters. */
  function HashRun(s: string): (n: nat)
    ensures n <= |s|
    ensures forall i :: 0 <= i < n ==> s[i] == '#'
    ensures n < |s| ==> s[n] != '#'
  {
    LeadCountSpan(s, {'#'});
    LeadCount(s, {'#'})
  }

  /** The regex `#{1,maxLevel}\s` matches at the start of `s`. A longer run of `#` cannot
      match: backtracking to fewer `#` leaves a `#` where whitespace is required. */
  predicate IsHeading(s: string, maxLevel: nat) {
    var n := HashRun(s);
    1 <= n <= maxLevel && n < |s| && IsSpace(s[n])
  }

  /** `#+\s` (no upper bound on the level). */
  predicate IsHeadingAnyLevel(s: string) {
    IsHeading(s, |s|)
  }

  /** The text up to (excluding) the first line break: what `.*` matches without DOTALL. */
  function TakeLine(s: string): (r: string)
    ensures '\n' !in r
    ensures StartsWith(s, r)
    ensures '\n' !in s ==> r == s
  {
    match IndexOf(s, '\n')
    case None => s
    case Some(i) => s[..i]
  }

  /** `group(2)` of `(#+)\s+(.*)`: the greedy `\s+` swallows all whitespace after the
      hashes, line breaks included, and `.*` stops at the next line break. */
  function HeadingRest(s: string): string {
    TakeLine(DropSpaces(s[HashRun(s)..]))
  }
}

=== FILE: wrappers.dfy ===
/** Failure-carrying wrappers used across the model: Python's `None` and raised exceptions. */
module Wrappers {

  datatype Option<+T> = None | Some(value: T) {
    function GetOr(default: T): T {
      match this
      case Some(v) => v
      case None => default
    }
  }

  datatype Result<+R, +E> = Ok(value: R) | Err(error: E)
}
